=== FILE: README.md ===
# pm-cli core, modelled in Dafny

pm-cli is a terminal project manager. It keeps tasks, projects and time
entries in SQLite and drives them from a Bubble Tea TUI. This project models
three layers of it as pure functions over immutable datatypes:

- **The interactive controller.** `AppModel.Update` (global keys, banners,
  per-view delegation and view transitions) and the five view reducers
  (dashboard, task list, task detail, task form, project list) become
  reducers `(model, msg, env) -> Step(model, effects)`. The `tea.Cmd`
  closures the controller returns become an `Effect` datatype:
  `LoadTasks`, `LoadTasksForProject`, `LoadProjects`, `SaveTask`,
  `DeleteTaskFx`, `Emit(msg)` and `Quit`. `Effects.Perform` says what each
  effect does to the store and which message it delivers next.
- **The storage layer.** The three SQLite repositories work over an
  abstract `Store` of three maps keyed by id. The schema's semantics are
  kept: primary keys, the UNIQUE project name, NOT NULL on
  `time_entries.project_id`, foreign-key checks on insert and update, and
  the ON DELETE CASCADE chains. On top of the store sit:
  - the time service: the timer guard and report aggregation;
  - the task service and the project service: validation and status rules.
- **Entities and pure string functions.** The task, project and time-entry
  mutators, iCalendar TEXT escaping and status mapping (section 3.3.11 of
  RFC 5545), the VEVENT selection of the calendar export, and the
  frontmatter delimiter scan of the note reader.

Some effects are passed in as parameters:

- `Env(now, freshId)` carries wall-clock time, as integer nanoseconds since
  the Unix epoch, and the next generated UUID.
- The natural-language due-date parser is an uninterpreted partial function.
- The YAML decoder is an uninterpreted partial function.
- The current git branch is an `Option<string>`.
- The local time-zone offset is an integer.

SQL listing orders rows by a column but leaves ties unspecified. Listing is
therefore a ghost function: it chooses any order the `ORDER BY` allows.

Modules, one per component:

| module | component |
|---|---|
| `Base` | shared helpers |
| `Text` | strings and SQLite `LIKE` |
| `Calendar` | the proleptic Gregorian calendar and the "2006-01-02" layout |
| `Errors` | errors and wrapping |
| `Tasks`, `Projects`, `TimeEntries` | domain entities |
| `Store`, `TaskRepo`, `ProjectRepo`, `EntryRepo` | repositories |
| `TimeService`, `TaskService`, `ProjectService` | services |
| `Export` | calendar export |
| `Notes` | note frontmatter |
| `Messages` | messages, keys and effects |
| `Dashboard`, `TaskList`, `TaskDetail`, `TaskForm`, `ProjectList` | view reducers |
| `App` | controller |
| `Effects` | command semantics |

## Model

| member | source | states |
|---|---|---|
| Text.TrimSpace | internal/ui/models/task_form.go:274-275 | the trimmed text neither starts nor ends with white space and is no longer than the input |
| Text.TrimSpaceIsInfix | internal/ui/models/task_form.go:274-275 | trimming removes only white space, and only at the two ends: the result is a contiguous slice of the input |
| Text.TrimSpaceIdempotent | internal/ui/models/task_form.go:274-275 | trimming twice is trimming once |
| Text.TrimSpaceOfTrimmed | internal/ui/models/task_form.go:278-286 | text with no white space at either end is returned unchanged |
| Text.TrimSpaceDropsLeadingSpace | internal/ui/models/task_form.go:278-286 | a leading blank, like the one after each ", " separator, does not change the trimmed tag |
| Text.TrimSpaceOfBlank | internal/ui/models/task_form.go:257-261 | a title made only of white space trims to the empty string |
| Text.Split | internal/ui/models/task_form.go:278-279 | splitting always yields at least one piece, and no piece contains the separator |
| Text.JoinSplit | internal/notes/reader.go:73-87 | joining the pieces of a split with the separator restores the original text |
| Text.SplitAround | internal/notes/reader.go:73-87 | a split distributes over a concatenation at one separator |
| Text.SplitCons | internal/notes/reader.go:73-87 | a leading separator opens a new empty piece; any other leading character joins the first piece |
| Text.SplitAroundStep | internal/notes/reader.go:73-87 | the distribution of a split over a separator survives one more character in front |
| Text.SplitNoSeparator | internal/notes/reader.go:73-87 | text without the separator splits into itself alone |
| Text.SplitJoin | internal/ui/models/task_form.go:278-286 | splitting the join of separator-free pieces gives back exactly those pieces |
| Text.NatToString | internal/service/time/service.go:332-342 | decimal rendering is non-empty and uses digits only |
| Text.IntToString | internal/service/time/service.go:332-342 | a signed rendering starts with '-' exactly for negative numbers |
| Text.PadNat | internal/service/export/service.go:152-167 | a zero-padded number is at least as wide as requested |
| Text.Zeros | internal/service/export/service.go:152-167 | the padding is exactly n zero characters |
| Text.LikePercentAny | internal/repository/sqlite/task_repository.go:115-118 | the pattern "%" matches every text |
| Text.LikePrefix | internal/repository/sqlite/task_repository.go:115-118 | a wildcard-free pattern followed by % matches exactly the texts that start with it, ignoring ASCII case |
| Text.LikeLeadingPercent | internal/repository/sqlite/task_repository.go:115-118 | a leading % matches iff the rest of the pattern matches some suffix of the text |
| Text.SearchIsFoldedSubstring | internal/repository/sqlite/task_repository.go:115-118 | a search term without wildcards matches iff it occurs in the text, ignoring ASCII case |
| Text.UnderscoreIsWildcard | internal/repository/sqlite/task_repository.go:115-118 | `_` in a search term is a live wildcard: "a_c" matches "abc", though it is not a substring of it |
| Calendar.MultipleOfDay | internal/ui/models/task_form.go:294-302 | a whole number of days is a whole multiple of the day length |
| Calendar.ParseDate | internal/ui/models/task_form.go:294-302 | the YYYY-MM-DD layout is accepted exactly for well-formed text naming a real calendar day, and the instant is a UTC midnight |
| Calendar.ParseDateChecksLeapDays | internal/ui/models/task_form.go:294-302 | 2024-02-29 parses; 2023-02-29, month 13 and a one-digit month do not |
| Calendar.TruncateToDay | internal/service/time/service.go:281-288 | the day an instant belongs to starts at a UTC midnight no later than it and less than a day before it |
| Calendar.YearStartMonotone | internal/ui/models/task_form.go:111 | a later year starts at least 365 days per year later |
| Calendar.CivilFromDays | internal/ui/models/task_form.go:111 | the calendar date of a day number names a month that exists and a day within it, lies in the year and month whose span holds the day, and maps back to the same day number |
| Calendar.YearOfCivil | internal/ui/models/task_form.go:111 | the year found for an existing date's day number is that date's year |
| Calendar.CivilFromDaysOfCivil | internal/ui/models/task_form.go:111 | every existing date is the date its own day number names, so dates and day numbers correspond one to one |
| Calendar.DigitsOfNat | internal/ui/models/task_form.go:111 | the decimal rendering of a number is all digits and reads back as the number |
| Calendar.NatToStringWidth | internal/ui/models/task_form.go:111 | a number has at most k digits exactly when it is below 10^k |
| Calendar.DigitsValueZeros | internal/ui/models/task_form.go:111 | leading zeros do not change the value read |
| Calendar.PadNatReadsBack | internal/ui/models/task_form.go:111 | a number below 10^width is zero-padded to exactly width digits that read back as the number |
| Calendar.DateTextFields | internal/ui/models/task_form.go:111 | the year, month and day fields of a formatted date read back as the year, month and day |
| Calendar.DateTextParses | internal/ui/models/task_form.go:111 | the "2006-01-02" text of an existing date of a four-digit year is ten characters and parses to that date's midnight |
| Calendar.FormatDateParses | internal/ui/models/task_form.go:111 | formatting an instant of a four-digit year and parsing the text back gives the UTC midnight that starts the instant's day |
| Calendar.FormatDateOutOfRange | internal/ui/models/task_form.go:111 | for any other year the first ten characters of the formatted date do not parse |
| Calendar.FormatDate | internal/ui/models/task_form.go:111 | the formatted date is at least ten characters, every one a digit or '-' |
| Calendar.SameDaySameDate | internal/service/time/service.go:281 | instants of the same day format to the same date |
| Calendar.FormatStamp | internal/service/export/service.go:156-157 | the date-time ends in 'T', the six clock digits of the UTC time of day and 'Z' |
| Calendar.ClockText | internal/service/export/service.go:156-157 | the clock part is six digits whose pairs read back as the hour, the minute and the second of the day |
| Errors.WrappedMessagePrefix | internal/service/time/service.go:113-116 | a wrapped error's message starts with its context string |
| Tasks.PriorityString | internal/domain/task.go:28-41 | 0..3 map to low, normal, high and critical; any other value reads "normal" |
| Tasks.NewTask | internal/domain/task.go:60-73 | a new task is todo, normal priority, untagged, undated, has empty metadata and created = updated = now |
| Tasks.Complete | internal/domain/task.go:75-80 | completing sets done and completedAt = updatedAt = now and changes no other content |
| Tasks.Start | internal/domain/task.go:82-85 | starting sets doing and bumps updatedAt, but keeps completedAt |
| Tasks.Block | internal/domain/task.go:87-90 | blocking sets blocked and bumps updatedAt, but keeps completedAt |
| Tasks.AddTag | internal/domain/task.go:92-100 | after adding, the task has the tag; an absent tag is appended at the end with updatedAt = now; a present one changes nothing |
| Tasks.IndexOf | internal/domain/task.go:102-110 | the first position holding the element |
| Tasks.RemoveFirst | internal/domain/task.go:102-110 | an absent tag leaves the list unchanged, and a present one shortens it by exactly one |
| Tasks.RemoveFirstIsSplice | internal/domain/task.go:103-105 | cutting the slice around the first match equals the element-by-element removal of the first occurrence, so the other tags keep their order |
| Tasks.RemoveTag | internal/domain/task.go:102-110 | removing an absent tag is a no-op; otherwise the first occurrence goes and updatedAt = now |
| Tasks.AddTagIdempotent | internal/domain/task.go:92-100 | adding the same tag twice is adding it once |
| Tasks.RemoveTagRemoves | internal/domain/task.go:102-119 | on a duplicate-free tag list, the task no longer has the tag after removing it |
| Tasks.AddThenRemoveTag | internal/domain/task.go:92-110 | adding a new tag and then removing it restores the tag list |
| Tasks.AddTagKeepsNoDuplicates | internal/domain/task.go:92-100 | adding a tag keeps a duplicate-free tag list duplicate-free |
| Tasks.CompletedIsNeverOverdue | internal/domain/task.go:121-126 | a completed task is never overdue, whatever the clock says |
| Tasks.IsOverdue | internal/domain/task.go:121-126 | overdue exactly when the task has a due date strictly before now and is not done; a done or undated task never is |
| Tasks.OverdueStaysOverdue | internal/domain/task.go:121-126 | a task overdue now is still overdue at any later time |
| Projects.NewProject | internal/domain/project.go:30-42 | a new project is active, coloured #3498db, never archived, with created = updated = now |
| Projects.Archive | internal/domain/project.go:44-49 | archiving sets archived and archivedAt = updatedAt = now, and nothing else |
| Projects.Complete | internal/domain/project.go:51-54 | completing changes only the status and updatedAt; archivedAt survives |
| Projects.Activate | internal/domain/project.go:56-60 | activating sets active and clears archivedAt |
| Projects.PutOnHold | internal/domain/project.go:62-65 | putting on hold changes only the status and updatedAt |
| Projects.ArchiveThenComplete | internal/domain/project.go:44-54 | an archived project that is then completed keeps its archive time |
| Projects.ActivateUndoesArchive | internal/domain/project.go:44-60 | archiving and then re-activating an active project restores it, except for updatedAt |
| TimeEntries.NewTimeEntry | internal/domain/timeentry.go:23-35 | a new entry is running, has duration 0, and has start = created = updated = now |
| TimeEntries.Stop | internal/domain/timeentry.go:37-42 | stopping sets end = now, duration = now - start and updated = now, touches nothing else, and leaves the entry inactive |
| TimeEntries.GetDuration | internal/domain/timeentry.go:48-53 | a running entry reports the duration a stop at that moment would record; a stopped entry reports its stored duration |
| TimeEntries.ActiveIffClockRuns | internal/domain/timeentry.go:44-53 | an entry is active exactly when its reported duration grows with the clock |
| TimeEntries.StoppedDurationFrozen | internal/domain/timeentry.go:48-53 | once stopped, the reported duration no longer depends on the clock |
| TimeEntries.StopKeepsRunningDuration | internal/domain/timeentry.go:37-53 | stopping a running entry freezes exactly the duration it showed at that moment |
| TimeEntries.NestedQuo | internal/domain/timeentry.go:55-67 | truncating to seconds and then to minutes equals truncating to minutes, and likewise for hours |
| TimeEntries.Components | internal/domain/timeentry.go:55-67 | hours, minutes and seconds recombine to the truncated seconds; for non-negative durations minutes and seconds are in 0..59 and hours = d div 1h |
| TimeEntries.FormatShowsHoursIffHour | internal/service/time/service.go:332-342 | the rendered duration has an "h" component iff it lasts at least an hour |
| TimeEntries.FormatDuration | internal/service/time/service.go:332-342 | the text always ends with the seconds within the minute followed by "s" |
| TimeEntries.FormatShowsMinutesIffMinute | internal/service/time/service.go:332-342 | the text has an "m" component iff the duration is at least a minute; from a minute up to an hour it reads "Xm Ys", under a minute "Ys" |
| TimeEntries.GetFormattedDuration | internal/domain/timeentry.go:55-67 | a stopped entry shows its stored duration, a running one the time since its start, in the same text as the time service; the text ends in "s" |
| Store.EmptyIsValid | internal/repository/sqlite/migrations.go:18-61 | the empty database satisfies every key, uniqueness and reference constraint of the schema |
| Store.OpenEntries | internal/repository/sqlite/timeentry_repository.go:204-221 | the open entries are exactly the stored entries with no end time |
| Store.Descendants | internal/repository/sqlite/migrations.go:44-45 | the cascade closure contains the roots, stays inside the stored tasks and is closed under "is a subtask of" |
| Store.DescendantsLeast | internal/repository/sqlite/migrations.go:44-45 | the closure is the smallest such set, so a cascade deletes nothing beyond the subtask tree |
| Store.RemoveTasks | internal/repository/sqlite/migrations.go:44-60 | removing tasks drops exactly those tasks and the time entries that point at them, keeps every other row unchanged, and leaves projects alone |
| Store.RemoveClosedKeepsValid | internal/repository/sqlite/migrations.go:44-60 | removing a set closed under subtasks leaves every reference valid |
| Store.SortDesc | internal/repository/sqlite/task_repository.go:121 | `ORDER BY ... DESC` yields every row exactly once, in non-increasing key order |
| Store.SortAsc | internal/repository/sqlite/task_repository.go:222 | `ORDER BY ... ASC` yields every row exactly once, in non-decreasing key order |
| Store.Page | internal/repository/sqlite/task_repository.go:123-131 | LIMIT and OFFSET apply only when positive; an OFFSET without a LIMIT is a syntax error; otherwise the result is the window of the input that starts at the offset (clamped to the length) and holds min(limit, rows left) rows, or every row left without a limit |
| Store.PageKeepsOrder | internal/repository/sqlite/task_repository.go:121-131 | a page of a sorted listing is still sorted |
| TaskRepo.Create | internal/repository/sqlite/task_repository.go:21-51 | insert succeeds iff the id is new and the project and parent exist; the task then reads back as written and nothing else changes |
| TaskRepo.GetByID | internal/repository/sqlite/task_repository.go:54-70 | a lookup finds the stored task, or reports "task not found" |
| TaskRepo.Update | internal/repository/sqlite/task_repository.go:151-190 | an unknown id is "task not found"; a stored id succeeds exactly when the project and parent references of the written row resolve, and a failure is the wrapped foreign-key error; a success stores the task with its original createdAt and changes no other row |
| TaskRepo.Delete | internal/repository/sqlite/task_repository.go:193-209 | an unknown id is "task not found"; otherwise exactly the task's subtree (the task and its subtasks at any depth) goes, exactly the time entries of that subtree go, and every surviving row is unchanged |
| TaskRepo.GetSubtasks | internal/repository/sqlite/task_repository.go:217-244 | exactly the tasks whose parent is the id, oldest first |
| TaskRepo.List | internal/repository/sqlite/task_repository.go:73-148 | returns only matching stored tasks, newest first, at most `limit` of them; without a limit, every match; OFFSET without LIMIT fails |
| TaskRepo.ListIgnoresTags | internal/repository/sqlite/task_repository.go:73-131 | the tags field of the filter has no effect on the result |
| TaskRepo.NoDueDateExcluded | internal/repository/sqlite/task_repository.go:104-113 | with a due-date bound, undated tasks never match |
| TaskRepo.NoFilterMatchesAll | internal/repository/sqlite/task_repository.go:77-119 | the empty filter matches every task |
| TaskRepo.SearchMatchesSubstring | internal/repository/sqlite/task_repository.go:115-118 | a wildcard-free search matches iff the term occurs, ignoring ASCII case, in the title or the description |
| TaskRepo.CreateKeepsValid | internal/repository/sqlite/task_repository.go:21-51 | a successful insert keeps the store consistent with the schema |
| TaskRepo.UpdateKeepsValid | internal/repository/sqlite/task_repository.go:151-190 | a successful update keeps the store consistent with the schema |
| TaskRepo.DeleteKeepsValid | internal/repository/sqlite/task_repository.go:193-209 | a delete keeps the store consistent with the schema |
| TaskRepo.DeleteTakesSubtree | internal/repository/sqlite/migrations.go:44-45 | a task whose parent was deleted is deleted too, to any depth |
| ProjectRepo.Create | internal/repository/sqlite/project_repository.go:21-43 | insert succeeds iff the id and the name are both new, and otherwise reports a duplicate project; no other row changes |
| ProjectRepo.GetByID | internal/repository/sqlite/project_repository.go:46-61 | a lookup finds the stored project, or reports "project not found" |
| ProjectRepo.GetByName | internal/repository/sqlite/project_repository.go:64-79 | finds a project with exactly that name, or reports "project not found" when none has it |
| ProjectRepo.GetByNameFindsHolder | internal/repository/sqlite/migrations.go:20 | because names are unique, a lookup by a stored project's name returns that very project |
| ProjectRepo.Update | internal/repository/sqlite/project_repository.go:131-162 | an unknown id is "project not found"; a name held by another project is a duplicate; a success changes only that row and keeps createdAt |
| ProjectRepo.TasksOf | internal/repository/sqlite/migrations.go:44 | the ids of exactly the tasks that belong to the project |
| ProjectRepo.Delete | internal/repository/sqlite/project_repository.go:165-181 | an unknown id is "project not found"; otherwise the project's tasks and entries go; an entry survives iff it is not filed under the project and its task survives; no surviving task, project or entry changes |
| ProjectRepo.List | internal/repository/sqlite/project_repository.go:82-128 | returns only matching stored projects, newest first, at most `limit` of them; without a limit, every match; OFFSET without LIMIT fails |
| ProjectRepo.CreateKeepsValid | internal/repository/sqlite/project_repository.go:21-43 | a successful insert keeps the store consistent with the schema |
| ProjectRepo.UpdateKeepsValid | internal/repository/sqlite/project_repository.go:131-162 | a successful update keeps the store consistent with the schema |
| ProjectRepo.DeleteKeepsValid | internal/repository/sqlite/project_repository.go:165-181 | a delete keeps the store consistent with the schema |
| ProjectRepo.DeleteSparesUnrelatedTasks | internal/repository/sqlite/migrations.go:44-45 | a task outside the subtask trees of the project's tasks survives the delete |
| ProjectRepo.DeleteTakesForeignSubtask | internal/repository/sqlite/migrations.go:44-45 | a subtask filed under another project still goes when its parent's project is deleted |
| EntryRepo.Stored | internal/repository/sqlite/timeentry_repository.go:31-36 | a duration of 0 or less is written as NULL and reads back as 0; everything else reads back unchanged |
| EntryRepo.StoredIdempotent | internal/repository/sqlite/timeentry_repository.go:251-261 | reading back a stored entry and storing it again changes nothing |
| EntryRepo.Check | internal/repository/sqlite/timeentry_repository.go:38-49 | the write is refused iff the task or project reference is missing or the project is NULL |
| EntryRepo.Create | internal/repository/sqlite/timeentry_repository.go:21-55 | insert succeeds iff the id is new and the task and project exist; an empty project fails the NOT NULL constraint |
| EntryRepo.GetByID | internal/repository/sqlite/timeentry_repository.go:58-74 | a lookup finds the stored entry, or reports "time entry not found" |
| EntryRepo.Update | internal/repository/sqlite/timeentry_repository.go:139-182 | an unknown id is "time entry not found"; a success changes only that row and keeps createdAt |
| EntryRepo.Delete | internal/repository/sqlite/timeentry_repository.go:185-201 | an unknown id is "time entry not found"; otherwise only that row goes |
| EntryRepo.List | internal/repository/sqlite/timeentry_repository.go:77-136 | returns only matching stored entries, latest start first, at most `limit` of them; without a limit, exactly the matches; OFFSET without LIMIT fails |
| EntryRepo.GetActive | internal/repository/sqlite/timeentry_repository.go:204-221 | with no open entry, "no active time entry"; otherwise the open entry with the latest start |
| EntryRepo.GetActiveFindsOnlyOpen | internal/repository/sqlite/timeentry_repository.go:204-221 | when exactly one entry is open, that is the one returned |
| EntryRepo.CreateKeepsValid | internal/repository/sqlite/timeentry_repository.go:21-55 | a successful insert keeps the store consistent with the schema |
| EntryRepo.UpdateKeepsValid | internal/repository/sqlite/timeentry_repository.go:139-182 | a successful update keeps the store consistent with the schema |
| EntryRepo.DeleteKeepsValid | internal/repository/sqlite/timeentry_repository.go:185-201 | a delete keeps the store consistent with the schema |
| TimeService.AtMostOneOpenMeans | internal/service/time/service.go:81-83 | under the timer invariant, two open entries are the same entry |
| TimeService.StartTimeTracking | internal/service/time/service.go:75-108 | covers the refusals: an empty task id is invalid, a running timer refuses, an unknown task fails. On success exactly one new running entry exists, starting now, with the task's project; projects and the set of tasks are unchanged, and a failed task-status update does not fail the start |
| TimeService.StartMarksTaskDoing | internal/service/time/service.go:92-105 | after a successful start the task is doing |
| TimeService.StartWithoutProjectFails | internal/service/time/service.go:86-96 | a task without a project cannot be timed, because the entry's project column is NOT NULL |
| TimeService.StartSucceedsWhen | internal/service/time/service.go:75-108 | start succeeds exactly when the id is non-empty and known, no timer runs, the task has a project and the new entry id is free |
| TimeService.StopTimeTracking | internal/service/time/service.go:111-130 | with no running timer, the error wraps "no active time entry"; otherwise that entry ends now with duration = now - start, and the tasks are untouched |
| TimeService.StopSucceedsWhen | internal/service/time/service.go:111-130 | stop succeeds exactly when a timer is running |
| TimeService.TimerKeepsAtMostOneOpen | internal/service/time/service.go:75-130 | start and stop preserve "at most one entry with no end" |
| TimeService.TimerKeepsValid | internal/service/time/service.go:75-130 | start and stop keep the store consistent with the schema |
| TimeService.GetActiveTimeEntry | internal/service/time/service.go:133-143 | never fails; "none" exactly when no entry is open, else an open stored entry |
| TimeService.SumOverRemove | internal/service/time/service.go:239-293 | a bucket sum splits off any one bucket |
| TimeService.SumOverFrame | internal/service/time/service.go:239-293 | a bucket sum ignores buckets outside the summed keys |
| TimeService.SumByUpdate | internal/service/time/service.go:239-293 | replacing one bucket changes the sum of all buckets by the difference |
| TimeService.TotalOfSnoc | internal/service/time/service.go:239-293 | the running total grows by each entry's duration |
| TimeService.Select | internal/service/time/service.go:239-293 | selecting by key keeps only entries of that key |
| TimeService.SelectSnoc | internal/service/time/service.go:239-293 | selection extends entry by entry |
| TimeService.Bump | internal/service/time/service.go:239-293 | adding an entry to one bucket leaves every other bucket alone |
| TimeService.GroupByBucket | internal/service/time/service.go:239-293 | each bucket's total and entries are exactly those of the entries with its key, in report order |
| TimeService.GroupBySum | internal/service/time/service.go:239-293 | the bucket totals of any grouping add up to the report total |
| TimeService.ReportEntries | internal/service/time/service.go:222-238 | the report covers exactly the stored entries the window filter accepts, latest start first |
| TimeService.GenerateReport | internal/service/time/service.go:222-296 | the report lists exactly the entries in the window, and its total is the sum of their durations |
| TimeService.ReportTotalsAdditive | internal/service/time/service.go:239-293 | the total equals the sum of the per-task totals, of the per-project totals and of the per-day totals |
| TimeService.InBucketIff | internal/service/time/service.go:239-293 | an entry lies in the bucket of a key iff its key is that key |
| TimeService.SelectHasAll | internal/service/time/service.go:239-293 | every entry is selected by its own key |
| TimeService.ReportBucketsExact | internal/service/time/service.go:239-293 | every reported entry lies in exactly one task bucket, one project bucket and one day bucket |
| TimeService.DayKeyNamesDay | internal/service/time/service.go:281 | in the four-digit years a day key parses back as the midnight that starts the local day |
| TimeService.DayKeySameDay | internal/service/time/service.go:281 | in the four-digit years two instants share a day key exactly when they fall on the same day |
| TimeService.ReportTitleFallback | internal/service/time/service.go:251-255 | when the task lookup fails, the report heading is the task id |
| TimeService.ReportWindowIncludesLateOpenEntry | internal/repository/sqlite/timeentry_repository.go:96-99 | a running entry that started after the window's end still enters the report |
| TimeService.ReportWindowExcludesOverrun | internal/repository/sqlite/timeentry_repository.go:96-99 | an entry that started inside the window but ended after it is left out |
| TaskService.ParseDueDate | internal/service/task/service.go:355-366 | fails exactly when the parser finds no date, naming the text |
| TaskService.BuildTask | internal/service/task/service.go:80-102 | a built task is todo and copies the input; with a branch it gains the tag "branch:" + branch and the git_branch metadata |
| TaskService.CreateTask | internal/service/task/service.go:75-109 | an empty title or an unparsable due date is refused and stores nothing; with a title and a blank or parsable date, creation succeeds exactly when the repository accepts the built task, and a repository error comes back wrapped as "failed to create task"; a success stores exactly the task built from the input, the parsed date and the branch, and changes no other task, project or entry |
| TaskService.BranchTagNotDuplicated | internal/service/task/service.go:97-102 | the branch tag goes through the de-duplicating AddTag, so the tags stay duplicate-free |
| TaskService.UpdateTask | internal/service/task/service.go:126-195 | refuses an empty id, an unknown id or an empty title; with a blank or parsable due date it succeeds exactly when the repository update of the merged task does, returns that task stored in place of the old one with every other row unchanged, and otherwise wraps the repository error; every given field (the due date once parsed) is applied and every absent field is unchanged; createdAt, workspace and metadata are kept; a status update sets completedAt iff the status is done |
| TaskService.ApplyUpdate | internal/service/task/service.go:137-188 | the id, workspace, creation time and metadata are never touched and updatedAt becomes now; a given status is taken, with completedAt set exactly when it is done; an absent status keeps status and completedAt; a given title, tag list or due date is taken |
| TaskService.EmptyUpdateOnlyBumps | internal/service/task/service.go:137-188 | an update with every field nil changes nothing but updatedAt |
| TaskService.DoneUpdateIsComplete | internal/service/task/service.go:148-152 | an update whose only field is status done has the same effect as the domain Complete |
| TaskService.UpdateRejectsBadDueDate | internal/service/task/service.go:126-195 | an unparsable due date aborts the update with a wrapped parse error |
| TaskService.DeleteTask | internal/service/task/service.go:198-208 | refuses an empty id; succeeds iff the task exists, and then it is gone |
| TaskService.CompleteTask | internal/service/task/service.go:233-242 | a completed task is stored done with completedAt = now |
| TaskService.CompleteTaskIsComplete | internal/service/task/service.go:233-242 | completing a stored task always succeeds and stores exactly the domain Complete of it |
| TaskService.ReopenClearsCompletion | internal/service/task/service.go:148-156 | setting a status other than done clears completedAt |
| ProjectService.CreateProject | internal/service/project/service.go:47-67 | refuses an empty name and a taken name; a created project keeps the default colour unless one is given |
| ProjectService.CreateProjectSucceedsWhen | internal/service/project/service.go:47-67 | with a fresh id and a non-empty name, creation succeeds iff the name is free, and keeps the store consistent |
| ProjectService.ApplyStatus | internal/service/project/service.go:126-138 | a status update dispatches to the domain mutator, so archivedAt is set by Archived, cleared by Active and kept otherwise |
| ProjectService.UpdateProject | internal/service/project/service.go:98-149 | refuses an empty id, an unknown id, an empty name and a name held by another project; any other update succeeds and stores the merged project in place of the old one, with every other row unchanged; absent fields are unchanged |
| ProjectService.Merged | internal/service/project/service.go:109-142 | name, description and colour are replaced only when given; a given status is applied and stamps the update; without a status, status, archive and update stamps stay |
| ProjectService.RenameToOwnName | internal/service/project/service.go:109-120 | renaming a project to its own name is allowed |
| ProjectService.ArchiveSurvivesCompletion | internal/service/project/service.go:126-138 | archiving and then completing keeps the archive time |
| ProjectService.DeleteProject | internal/service/project/service.go:152-162 | refuses an empty or unknown id; deleting a stored project always succeeds and is the repository's cascading delete; afterwards no task belongs to the project |
| Export.ReplaceAll | internal/service/export/service.go:246-253 | text without the character is returned unchanged, and every output character comes from the replacement or is an input character other than the replaced one |
| Export.ReplaceAllConcat | internal/service/export/service.go:246-253 | replacement distributes over concatenation |
| Export.ReplaceAllOne | internal/service/export/service.go:246-253 | on one character, replacement substitutes it or leaves it |
| Export.EscapeChar | internal/service/export/service.go:246-253 | each special character becomes a backslash pair; any other character stays; no output contains LF or CR |
| Export.Escape | internal/service/export/service.go:246-253 | the per-character escape contains no LF or CR and leaves special-free text unchanged |
| Export.EscapeTextConcat | internal/service/export/service.go:246-253 | the chained replacements distribute over concatenation |
| Export.EscapeTextChar | internal/service/export/service.go:246-253 | on one character, the chained replacements agree with the per-character escape |
| Export.EscapeTextIsPerCharacter | internal/service/export/service.go:246-253 | the five chained replacements, backslash first, equal the per-character escape |
| Export.UnescapeEscape | internal/service/export/service.go:246-253 | unescaping inverts escaping |
| Export.EscapeTextInjective | internal/service/export/service.go:246-253 | distinct texts escape to distinct texts |
| Export.EscapeTextRoundTrip | internal/service/export/service.go:246-253 | unescaping the output of the five chained replacements gives back the original text |
| Export.EscapeText | internal/service/export/service.go:246-253 | the escaped text contains no LF or CR, and text without special characters is unchanged |
| Export.StatusToICal | internal/service/export/service.go:256-266 | done maps to COMPLETED, doing to IN-PROCESS, blocked to CANCELLED, and each of those only from that status; everything else maps to NEEDS-ACTION |
| Export.EventLinesWith | internal/service/export/service.go:152-167 | an event is 7 lines, or 8 with a description, framed by BEGIN and END:VEVENT; it carries the UID, DTSTAMP and DTSTART lines, an escaped SUMMARY, an escaped DESCRIPTION when there is one, and the STATUS line; BEGIN appears only first |
| Export.EventLines | internal/service/export/service.go:153-166 | the event of a dated task: 7 or 8 lines framed by BEGIN and END:VEVENT, with its UID, the export stamp as DTSTAMP, its due instant as DTSTART and its mapped STATUS; BEGIN appears only first |
| Export.Events | internal/service/export/service.go:152-167 | the listing yields no lines exactly when no task has a due date; otherwise the lines open with BEGIN:VEVENT and close with END:VEVENT |
| Export.EventSummaryEscaped | internal/service/export/service.go:158 | the SUMMARY line carries the title through the five chained replacements, backslash first |
| Export.CalendarLines | internal/service/export/service.go:137-172 | the calendar starts with the fixed four-line header and ends with END:VCALENDAR |
| Export.WithDueDate | internal/service/export/service.go:152-153 | keeps exactly the dated tasks |
| Export.CountLineConcat | internal/service/export/service.go:152-167 | line counts add over concatenation |
| Export.CountAbsent | internal/service/export/service.go:152-167 | an absent line counts zero |
| Export.CountTail | internal/service/export/service.go:152-167 | a line that appears only first counts once |
| Export.EventOpensOnce | internal/service/export/service.go:152-167 | each event opens exactly one VEVENT |
| Export.OneEventPerDueTask | internal/service/export/service.go:152-167 | the events hold exactly one VEVENT per dated task |
| Export.CalendarEventCount | internal/service/export/service.go:137-172 | the whole calendar holds exactly one VEVENT per dated task |
| Export.EventsOfDatedTasks | internal/service/export/service.go:152-167 | undated tasks contribute nothing: the events are those of the dated tasks, in list order |
| Notes.ClosingIndex | internal/notes/reader.go:73-84 | the closing delimiter found is the first line from the start index that equals "---"; "none" means no such line |
| Notes.FrontmatterText | internal/notes/reader.go:66-87 | content not starting with "---\n" has no frontmatter; a missing closing line is an error; otherwise the YAML is the lines between the delimiters |
| Notes.ExtractFrontmatter | internal/notes/reader.go:66-101 | scan errors pass through, decoder errors are reported as such, and a decoded frontmatter always has a non-nil links list |
| Notes.DelimiterLineSplits | internal/notes/reader.go:73-84 | "---" followed by a newline, or by nothing, splits into a first line equal to the delimiter |
| Notes.ClosingAt | internal/notes/reader.go:73-84 | the first delimiter line at or after the start is the one found |
| Notes.SplitFramed | internal/notes/reader.go:68-87 | a framed note splits into the opening line, the body lines and the remaining lines |
| Notes.FrontmatterRoundTrip | internal/notes/reader.go:68-87 | for a body with no "---" line, extracting from "---\n" + body + "\n---" + rest gives back the body |
| Notes.CrlfIsRejected | internal/notes/reader.go:68-70 | a note with CRLF line endings is treated as having no frontmatter |
| Notes.OpeningIsNotClosing | internal/notes/reader.go:73-84 | the opening delimiter never closes itself |
| Messages.Clamp | internal/ui/models/task_list.go:160-165 | after a list arrives the selection lies inside a non-empty list, and moves only when it was past the end, to the last item (internal/ui/models/project_list.go:124-126 repeats the same clamp) |
| TaskList.Toggle | internal/ui/models/task_list.go:133-147 | a done task becomes todo with completedAt and updatedAt untouched; any other task is completed now; title, tags and all other content are unchanged |
| TaskList.LoadTasks | internal/ui/models/task_list.go:247-252 | loading replaces the tasks and keeps the selection in bounds |
| TaskList.Update | internal/ui/models/task_list.go:84-169 | the selection stays in bounds, and the tasks change only on a load or a toggle |
| TaskList.EmptyListOnlyNew | internal/ui/models/task_list.go:87-95 | on an empty list only the new-task key acts; every other key is a no-op |
| TaskList.NavigationClamps | internal/ui/models/task_list.go:98-106 | up and down move by one, stop at both ends and emit nothing |
| TaskList.ActionsCarrySelection | internal/ui/models/task_list.go:108-157 | enter, e and d emit select, edit and delete of the selected task and change nothing |
| TaskList.ToggleChangesOnlySelected | internal/ui/models/task_list.go:133-147 | t replaces only the selected task by its toggle and emits an update carrying it |
| TaskList.LoadedClamps | internal/ui/models/task_list.go:160-165 | a loaded message installs the tasks and clamps the selection |
| TaskList.LoadedIsLoadTasks | internal/ui/models/task_list.go:160-165 | the loaded message does what LoadTasks does, and also ends loading |
| ProjectList.LoadProjects | internal/ui/models/project_list.go:185-190 | loading replaces the projects, keeps the selection in bounds, and never moves it for an empty list |
| ProjectList.Update | internal/ui/models/project_list.go:72-131 | the selection stays in bounds, and the projects change only on a load |
| ProjectList.EmptyListOnlyNew | internal/ui/models/project_list.go:75-83 | on an empty list only the new-project key acts |
| ProjectList.NavigationClamps | internal/ui/models/project_list.go:86-94 | up and down move by one and stop at both ends |
| ProjectList.ActionsCarrySelection | internal/ui/models/project_list.go:96-120 | enter and e emit select and edit of the selected project; d is bound but does nothing |
| ProjectList.LoadAfterLoadedMessage | internal/ui/models/project_list.go:122-128 | the loaded message installs the projects and clamps the selection |
| Dashboard.Update | internal/ui/models/dashboard.go:98-121 | the selection stays within the five items; an effect is only ever the selected item's action, with the state unchanged; non-key messages are no-ops |
| Dashboard.MenuActions | internal/ui/models/dashboard.go:40-71 | the menu is exactly tasks, projects, time, new_task and reports, in that order |
| Dashboard.Navigation | internal/ui/models/dashboard.go:102-116 | up and down stop at 0 and 4; enter emits the selected action |
| Dashboard.UnboundKeysIgnored | internal/ui/models/dashboard.go:98-121 | keys outside up, down and enter change nothing |
| TaskDetail.SetTask | internal/ui/models/task_detail.go:52-54 | binds exactly the given task |
| TaskDetail.Update | internal/ui/models/task_detail.go:57-97 | with no bound task every message is a no-op; only the toggle key changes the state |
| TaskDetail.Actions | internal/ui/models/task_detail.go:65-92 | e and d emit edit and delete of the bound task unchanged; t toggles it and emits an update with the result |
| TaskDetail.ToggleTwice | internal/ui/models/task_detail.go:81-92 | toggling an open task twice makes it todo but leaves its completion time set |
| TaskForm.SetValue | internal/ui/models/task_form.go:95-113 | a field shows a prefix of the sanitised text of length min(text, limit); plain text is shown as its own prefix |
| TaskForm.SanitizeChar | internal/ui/models/task_form.go:95-113 | tab, CR and LF become one space; U+FFFD and other control characters vanish; every other character is kept, and it is kept exactly when it is neither a control character nor U+FFFD |
| TaskForm.Sanitize | internal/ui/models/task_form.go:95-113 | the sanitised text is no longer than the input, free of control characters, made of input characters and spaces, and equal to the input when that is already plain |
| TaskForm.SanitizeConcat | internal/ui/models/task_form.go:95-113 | sanitising distributes over concatenation |
| TaskForm.SanitizeTab | internal/ui/models/task_form.go:95-113 | a tab inside a word becomes a space |
| TaskForm.SanitizeNewline | internal/ui/models/task_form.go:95-113 | a line break becomes a space, so loaded multi-line text is flattened |
| TaskForm.SanitizeBell | internal/ui/models/task_form.go:95-113 | another control character is dropped |
| TaskForm.Input | internal/ui/models/task_form.go:142-158 | typed characters are sanitised and appended up to the field's limit (the old text stays a prefix and the new part is a prefix of the sanitised keys), backspace removes the last one, and other keys change nothing |
| TaskForm.NewFormOk | internal/ui/models/task_form.go:39-92 | a new form is consistent, focused on the title and not editing |
| TaskForm.LoadTask | internal/ui/models/task_form.go:95-113 | editing shows the task's title, its tags joined by ", ", and its due date as YYYY-MM-DD; empty values leave their field blank |
| TaskForm.Feed | internal/ui/models/task_form.go:142-158 | a key reaches only the focused field, and focus and the bound task stay put |
| TaskForm.CleanTags | internal/ui/models/task_form.go:280-285 | every kept tag is non-empty and trimmed |
| TaskForm.ParseTags | internal/ui/models/task_form.go:278-286 | every parsed tag is non-empty, trimmed and comma-free |
| TaskForm.CleanTagsNoComma | internal/ui/models/task_form.go:278-286 | cleaning comma-free pieces keeps them comma-free |
| TaskForm.SubmissionWith | internal/ui/models/task_form.go:255-309 | a blank title is "Title is required"; an unparsable non-blank due date is refused; otherwise the submission succeeds, and a non-blank tags field becomes the parsed tag list |
| TaskForm.SubmittedDueDate | internal/ui/models/task_form.go:293-302 | a submitted non-blank due date is the parsed date; a blank one keeps the edited task's due date |
| TaskForm.HandleSubmit | internal/ui/models/task_form.go:255-309 | submitting leaves the form alone and emits one message, an error exactly when validation fails |
| TaskForm.Update | internal/ui/models/task_form.go:116-161 | the form stays consistent and its bound task is never replaced |
| TaskForm.FocusCycles | internal/ui/models/task_form.go:131-137 | tab moves focus to (f+1) mod 5, and shift+tab to (f+4) mod 5 |
| TaskForm.TabThenShiftTab | internal/ui/models/task_form.go:131-137 | tab followed by shift+tab changes nothing |
| TaskForm.FeedSpecialInert | internal/ui/models/task_form.go:140-158 | a special key other than backspace changes no field |
| TaskForm.BlankTitleRefused | internal/ui/models/task_form.go:257-261 | a whitespace-only title yields exactly the error "Title is required" |
| TaskForm.BadDueDateRefused | internal/ui/models/task_form.go:294-302 | a non-blank due date that is not YYYY-MM-DD yields an error and no submit |
| TaskForm.SubmittedTask | internal/ui/models/task_form.go:263-275 | the submitted task has a trimmed title and description; when editing it keeps the bound task's id, otherwise it is a fresh todo task |
| TaskForm.SubmitKey | internal/ui/models/task_form.go:123-124 | ctrl+s submits |
| TaskForm.JoinIsTrimmed | internal/ui/models/task_form.go:102-104 | tags joined by ", " have no white space at either end when each tag is clean |
| TaskForm.SplitJoined | internal/ui/models/task_form.go:278-279 | splitting the joined tags on commas gives the tags, each behind one blank |
| TaskForm.CleanSpacedAll | internal/ui/models/task_form.go:280-285 | trimming those pieces recovers the tags |
| TaskForm.TagsRoundTrip | internal/ui/models/task_form.go:278-286 | parsing the trimmed ", "-join of clean tags gives back the same tags |
| TaskForm.EditKeepsTags | internal/ui/models/task_form.go:95-113 | loading a task whose sanitised tags are clean into the form and submitting it unchanged succeeds exactly when the task has no due date or one in a four-digit year; the result has the sanitised tags and the due day's midnight as its due date |
| TaskForm.EditKeepsPlainTags | internal/ui/models/task_form.go:95-113 | tags without control characters survive the edit exactly |
| TaskForm.TabInTagBecomesSpace | internal/ui/models/task_form.go:95-113 | the tag "a<TAB>b" comes back as "a b", so the edit is lossy for control characters |
| TaskForm.SanitizeEach | internal/ui/models/task_form.go:102-104 | each tag sanitised, plain and of the same count; plain tags are unchanged |
| TaskForm.SanitizeJoin | internal/ui/models/task_form.go:102-104 | sanitising the joined tags equals joining the sanitised tags |
| TaskForm.LoadedFields | internal/ui/models/task_form.go:95-113 | a loaded task whose sanitised title and joined tags fit shows them sanitised and uncut, and the form edits that task |
| TaskForm.LoadedTagsParse | internal/ui/models/task_form.go:95-113 | the tags field of a loaded task is non-blank and parses back to the task's sanitised tags when those are clean |
| TaskForm.LoadedDueValue | internal/ui/models/task_form.go:110-112 | the due-date field shows the formatted date cut to ten characters, or stays blank |
| TaskForm.LoadedDueText | internal/ui/models/task_form.go:110-112 | the submit reads a blank due date for an undated task, the due day's midnight for a four-digit year, and unparsable text otherwise |
| TaskForm.DueTextInRange | internal/ui/models/task_form.go:110-112 | the formatted date of a four-digit year fits the field and reads back as its day's midnight |
| TaskForm.DueTextOutOfRange | internal/ui/models/task_form.go:110-112 | any other formatted date, cut to the field, does not parse |
| App.Update | internal/ui/models/app.go:174-319 | the sub-models stay consistent; a view change lands on a reachable view; each list and the dashboard change only while their view is active; global keys never reach the form |
| App.Delegate | internal/ui/models/app.go:217-316 | delegation touches only the active view's state; Help, ProjectForm and TimeTracking have no arm and do nothing |
| App.FromDashboard | internal/ui/models/app.go:219-236 | dashboard handling leaves the lists alone and lands on a reachable view |
| App.FromTaskList | internal/ui/models/app.go:238-264 | task-list handling leaves the project list and the dashboard alone |
| App.FromTaskDetail | internal/ui/models/app.go:266-286 | detail handling leaves both lists and the dashboard alone |
| App.FromTaskForm | internal/ui/models/app.go:288-296 | form handling leaves both lists and the dashboard alone |
| App.FromProjectList | internal/ui/models/app.go:298-315 | project-list handling leaves the task list and the dashboard alone |
| App.Run | internal/ui/models/app.go:174-319 | any sequence of messages keeps the model consistent and never reaches an unbuilt view |
| App.InitialOk | internal/ui/models/app.go:143-171 | the app starts on the dashboard, and its first commands report no running timer and load tasks and projects |
| App.UnbuiltViewsUnreachable | internal/ui/models/app.go:217-316 | from the initial model, ProjectFormView and TimeTrackingView are never reached |
| App.QuitFromEveryView | internal/ui/models/app.go:185-186 | q and ctrl+c quit from every view, with no other effect |
| App.TypingQInFormQuits | internal/ui/models/app.go:183-186 | typing q in the form's title field quits the app instead of reaching the field |
| App.HelpFromEveryView | internal/ui/models/app.go:188-190 | ? moves to the help view from anywhere, with no effects |
| App.HelpViewInert | internal/ui/models/app.go:217-316 | in the help view, anything other than a global key or a banner message does nothing |
| App.BackToDashboard | internal/ui/models/app.go:192-198 | esc outside the dashboard returns to it, clears both banners and reloads tasks and projects |
| App.BackOnDashboard | internal/ui/models/app.go:192-198 | esc on the dashboard falls through to the dashboard reducer and changes nothing |
| App.RefreshFromEveryView | internal/ui/models/app.go:200-201 | r reloads tasks and projects from every view |
| App.BannersSetOnlyTheirField | internal/ui/models/app.go:204-214 | error, success and timer messages set only their own field, with no effects |
| App.Routed | internal/ui/models/app.go:178-218 | a message that is not a key, a resize or a banner goes straight to the current view |
| App.KeyRouted | internal/ui/models/app.go:183-218 | a key that is neither quit, help, refresh nor esc away from the dashboard goes straight to the current view |
| App.DashboardTransitions | internal/ui/models/app.go:224-236 | tasks and projects move to their list and load it; new_task opens a fresh form; time and reports stay put |
| App.FromDashboardAction | internal/ui/models/app.go:219-236 | the dashboard menu ignores an action message and the controller alone acts on it |
| App.EnterOnDashboard | internal/ui/models/app.go:219-221 | enter on the dashboard emits the highlighted menu entry's action and changes nothing |
| App.EnterOnTasksOpensTaskList | internal/ui/models/app.go:219-236 | enter on the first menu item, followed by its action message, opens the task list and loads the tasks |
| App.TaskListTransitions | internal/ui/models/app.go:243-263 | select opens the detail view of the task; new opens a fresh form; edit opens the form loaded with the task; delete and update stay on the list, then act and reload |
| App.TaskDetailTransitions | internal/ui/models/app.go:266-286 | delete returns to the list; update rebinds the task and saves it; edit opens the loaded form |
| App.FromTaskListAction | internal/ui/models/app.go:238-264 | the task list ignores an action message and the controller alone acts on it |
| App.FromTaskDetailAction | internal/ui/models/app.go:266-286 | the detail view ignores an action message and the controller alone acts on it |
| App.EditOpensForm | internal/ui/models/app.go:252-256 | edit from either task view opens the form on that task, editing, focused on the title, with no command |
| App.FormSubmitTransition | internal/ui/models/app.go:293-296 | a submitted form returns to the list, saves the task and reloads |
| App.ProjectSelectTransition | internal/ui/models/app.go:309-314 | selecting a project opens the task list and loads only that project's tasks |
| App.FromProjectListAction | internal/ui/models/app.go:298-315 | the project list ignores an action message and the controller alone acts on it |
| App.LateTaskListDropped | internal/ui/models/app.go:217-316 | a task list arriving while another view is active is not applied |
| App.TaskListLoadedApplied | internal/ui/models/app.go:238-240 | on the task-list view, a loaded list is installed and clamped |
| Effects.Perform | internal/ui/models/app.go:378-429 | loads, messages and quit leave the store alone; only quit ends without a reply; a message effect delivers its message |
| Effects.LoadsSucceed | internal/ui/models/app.go:378-409 | the loads always answer: every stored task or project, or only the chosen project's tasks |
| Effects.SaveUnknownTaskFails | internal/repository/sqlite/task_repository.go:186-188 | saving a task the store lacks reports "Failed to save task: task not found" and changes nothing |
| Effects.NewTaskFromFormNotStored | internal/ui/models/app.go:411-419 | a task created in the form has a fresh id, so the save the app schedules for it fails and the task is never stored |
| Effects.SaveKnownTask | internal/ui/models/app.go:411-419 | saving a stored task with valid references stores it and reports success |
| Effects.DeleteOutcome | internal/ui/models/app.go:421-429 | delete reports success iff the task existed; afterwards it is absent |

## Left out

- All `View()` methods and the style sheet: rendering and colours only.
- The Bubble Tea runtime and `tea.Batch`: effects are data. `Effects.Perform` runs one effect at a time, and nothing is claimed about the order of a batch.
- The project form (`ProjectFormView`) and the time-tracking view: the controller has no arm for either, and nothing transitions to them.
- `loadActiveTimeEntry` always answers with no entry: it is modelled as the `Emit(ActiveTimeEntryMsg(None))` in `App.InitEffects`.
- Go pointer aliasing: the toggle and `handleSubmit` mutate a shared `*Task` in place, including before a due-date rejection. Here each reducer returns new values.
- `Duration.Hours()`, `Minutes()` and `Seconds()` are floating point. They are modelled as integer division that truncates toward zero, which is what `int(...)` of them gives below 2^53 ns.
- int64 overflow of nanosecond arithmetic: integers are unbounded here.
- The time-zone offset used by the report's day key is a parameter. The SQLite driver's timestamp encoding is not modelled: instants compare as integers.
- The text input widget beyond appending runes and backspace, such as cursor movement, word deletion and paste. The key names are those of the default key map.
- The bubbles text input is not part of this model. Its sanitiser (`TaskForm.Sanitize`) follows the library's single-line rules: tab, CR and LF become a space, U+FFFD and other control characters are dropped, and the character limit is applied afterwards.
- The natural-language date parser is a parameter. Its errors and its "no date found" answer are merged into one "not recognised" outcome.
- The YAML decoder is a parameter: only the delimiter scan of `extractFrontmatter` is modelled.
- `ParseNoteFrontmatter`, `GetNoteModTime` and `FindNoteByID`: file-system I/O.
- The git service is not part of this model; the current branch is an optional string parameter.
- Export.Events: one DTSTAMP value is used for every event, where the exporter reads the clock once per event; the clock is a parameter.
- CSV and JSON export: encoders only. Only the VEVENT selection and the text escaping of the iCalendar export are modelled.
- `GetOverdueTasks`, `GetTasksDueToday`, `ListTasks`, `GetTodayReport`, `GetWeekReport` and `GetMonthReport`: thin filters over `List` and `GenerateReport` built with `time.Now()` and `Truncate`.
- Thin service wrappers with no logic of their own: `GetTask`, `StartTask`, `BlockTask`, the service-level `AddTag`/`RemoveTag`/`GetSubtasks`/`GetTasksByProject`, `GetProject`, `GetProjectByName`, `ListProjects`, the archive/complete/activate/put-on-hold wrappers, `GetActiveProjects`, and the time-entry list/update/delete wrappers. Each one only calls a modelled repository or domain function.
- `DaysUntilDue`: floating point.
- The migration runner, `db.go` and the configuration loader: only the schema's key, uniqueness, NOT NULL and cascade rules are kept, with foreign keys enforced as `db.go` turns them on.
- TaskService.UpdateTask and ProjectService.UpdateProject: they require a store consistent with the schema, which every store the repositories build is (see the `KeepsValid` lemmas). Inconsistent stores are not considered.
- TaskForm.LoadTask / TaskForm.EditKeepsTags: the loaded due date is shown as its UTC day, where Go formats it in the time's own location; the two agree when the time is in UTC.
- EntryRepo.List: with a limit, only the bound, the order and membership are stated, not which rows make up the page.
- TaskRepo.List: with a limit, only the bound, the order and membership are stated, not which rows make up the page.
- ProjectRepo.List: with a limit, only the bound, the order and membership are stated, not which rows make up the page.

Behaviours of the code that the model reproduces as written:

- The report window accepts `start >= from && (end is NULL || end <= to)`, taken from the entry repository's WHERE clause. A running entry started after the window still counts. An entry that overruns the window's end is dropped.
- `time_entries.project_id` is declared NOT NULL at line 51 of the migrations, while an empty project id is written as NULL. An entry for a task without a project therefore cannot be created.
- An OFFSET without a LIMIT is a syntax error in SQLite, so each listing returns an error in that case.
- `%` and `_` in a search term stay live LIKE wildcards, and the match ignores ASCII case only.
- Deleting a project also deletes subtasks filed under other projects, through the parent cascade.
- Toggling a done task back to todo keeps its completion time.
- Tasks created in the TUI are saved with `Update`, which fails for an id that is not stored, so they are never persisted (see `Effects.NewTaskFromFormNotStored`).
- Deleting from the task detail returns to the task list.
- Esc on the task form is caught by the controller's Back key before the form's own cancel binding, so the form's cancel never fires.
- The repository reads and writes a `workspace` column and filters on it, while the domain task as listed carries no such field. The model gives the task a `workspace` string so the filter can be stated.
- Without a status, `UpdateProject` leaves `updatedAt` as it was: only the domain status mutators bump it.

=== FILE: app.dfy ===
/**
 * internal/ui/models/app.go: the controller that owns every view model.
 * Global keys and the banner messages are handled first; everything else
 * goes to the reducer of the current view, and the action messages those
 * reducers emit come back here to switch views and schedule commands.
 */
module App {
  import opened Base
  import opened Tasks
  import opened Projects
  import opened TimeEntries
  import opened Messages
  import TaskList
  import TaskDetail
  import TaskForm
  import ProjectList
  import Dashboard

  datatype AppModel = AppModel(
    view: ViewState,
    width: int,
    height: int,
    taskList: TaskList.TaskListModel,
    taskDetail: TaskDetail.TaskDetailModel,
    taskForm: TaskForm.TaskFormModel,
    projectList: ProjectList.ProjectListModel,
    dashboard: Dashboard.DashboardModel,
    selectedTask: Option<Task>,
    selectedProject: Option<Project>,
    activeEntry: Option<TimeEntry>,
    error: string,
    success: string)

  /** `NewAppModel`: every view in its initial state, the dashboard showing. */
  const Initial: AppModel := AppModel(
    DashboardView, 0, 0, TaskList.Initial, TaskDetail.Initial, TaskForm.NewForm,
    ProjectList.Initial, Dashboard.Initial, None, None, None, "", "")

  /** `Init`: the active-entry probe (which always answers "none") and the initial loads. */
  const InitEffects: seq<Effect> := [Emit(ActiveTimeEntryMsg(None))] + LoadInitialData

  /** Every view model satisfies its own invariant. */
  predicate Inv(m: AppModel)
  {
    TaskList.Inv(m.taskList) && TaskForm.Inv(m.taskForm) &&
    ProjectList.Inv(m.projectList) && Dashboard.Inv(m.dashboard)
  }

  /** The views some transition of the controller can lead to. */
  predicate Reachable(v: ViewState)
  {
    v != ProjectFormView && v != TimeTrackingView
  }

  /** The global keys, which never reach a view reducer (esc only away from the dashboard). */
  predicate Global(m: AppModel, k: Key)
  {
    Matches(k, QuitKeys) || Matches(k, HelpKeys) || Matches(k, RefreshKeys) ||
    (Matches(k, BackKeys) && m.view != DashboardView)
  }

  /** `AppModel.Update`. */
  function Update(m: AppModel, msg: Msg, env: Env): (r: Step<AppModel>)
    requires Inv(m)
    ensures Inv(r.model)
    ensures r.model.view != m.view ==> Reachable(r.model.view)
    ensures m.view != TaskListView ==> r.model.taskList == m.taskList
    ensures m.view != ProjectListView ==> r.model.projectList == m.projectList
    ensures m.view != DashboardView ==> r.model.dashboard == m.dashboard
    ensures msg.KeyMsg? && Global(m, msg.key) ==> r.model.taskForm == m.taskForm
  {
    match msg
    case KeyMsg(k) =>
      if Matches(k, QuitKeys) then Step(m, [Quit])
      else if Matches(k, HelpKeys) then Step(m.(view := HelpView), [])
      else if Matches(k, BackKeys) && m.view != DashboardView then
        Step(m.(view := DashboardView, error := "", success := ""), LoadInitialData)
      else if Matches(k, RefreshKeys) then Step(m, LoadInitialData)
      else Delegate(m, msg, env)
    case WindowSizeMsg(w, h) => Delegate(m.(width := w, height := h), msg, env)
    case ErrorMsg(text) => Step(m.(error := text), [])
    case SuccessMsg(text) => Step(m.(success := text), [])
    case ActiveTimeEntryMsg(entry) => Step(m.(activeEntry := entry), [])
    case _ => Delegate(m, msg, env)
  }

  /** The delegation switch: the current view's reducer, then the controller's reaction to its messages. */
  function Delegate(m: AppModel, msg: Msg, env: Env): (r: Step<AppModel>)
    requires Inv(m)
    ensures Inv(r.model)
    ensures r.model.view != m.view ==> Reachable(r.model.view)
    ensures m.view != TaskListView ==> r.model.taskList == m.taskList
    ensures m.view != ProjectListView ==> r.model.projectList == m.projectList
    ensures m.view != DashboardView ==> r.model.dashboard == m.dashboard
    ensures !Reachable(m.view) || m.view == HelpView ==> r == Step(m, [])
  {
    match m.view
    case DashboardView => FromDashboard(m, msg)
    case TaskListView => FromTaskList(m, msg, env)
    case TaskDetailView => FromTaskDetail(m, msg, env)
    case TaskFormView => FromTaskForm(m, msg, env)
    case ProjectListView => FromProjectList(m, msg)
    case _ => Step(m, [])
  }

  function FromDashboard(m: AppModel, msg: Msg): (r: Step<AppModel>)
    requires Inv(m) && m.view == DashboardView
    ensures Inv(r.model) && Reachable(r.model.view)
    ensures r.model.taskList == m.taskList && r.model.projectList == m.projectList
  {
    var s := Dashboard.Update(m.dashboard, msg);
    var m1 := m.(dashboard := s.model);
    if msg.DashboardActionMsg? then
      if msg.action == "tasks" then Step(m1.(view := TaskListView), s.effects + [LoadTasks])
      else if msg.action == "projects" then Step(m1.(view := ProjectListView), s.effects + [LoadProjects])
      else if msg.action == "new_task" then
        TaskForm.NewFormOk();
        Step(m1.(view := TaskFormView, taskForm := TaskForm.NewForm), s.effects)
      else Step(m1, s.effects)
    else Step(m1, s.effects)
  }

  function FromTaskList(m: AppModel, msg: Msg, env: Env): (r: Step<AppModel>)
    requires Inv(m) && m.view == TaskListView
    ensures Inv(r.model) && Reachable(r.model.view)
    ensures r.model.projectList == m.projectList && r.model.dashboard == m.dashboard
  {
    var s := TaskList.Update(m.taskList, msg, env.now);
    var m1 := m.(taskList := s.model);
    TaskForm.NewFormOk();
    if msg.TaskActionMsg? then
      match msg.taskAction
      case SelectTask(t) =>
        Step(m1.(selectedTask := Some(t), taskDetail := TaskDetail.SetTask(m1.taskDetail, t), view := TaskDetailView),
             s.effects)
      case NewTaskAction => Step(m1.(view := TaskFormView, taskForm := TaskForm.NewForm), s.effects)
      case EditTask(t) =>
        Step(m1.(selectedTask := Some(t), view := TaskFormView, taskForm := TaskForm.LoadTask(TaskForm.NewForm, t)),
             s.effects)
      case DeleteTask(t) => Step(m1, s.effects + [DeleteTaskFx(t), LoadTasks])
      case UpdateTask(t) => Step(m1, s.effects + [SaveTask(t), LoadTasks])
    else Step(m1, s.effects)
  }

  function FromTaskDetail(m: AppModel, msg: Msg, env: Env): (r: Step<AppModel>)
    requires Inv(m) && m.view == TaskDetailView
    ensures Inv(r.model) && Reachable(r.model.view)
    ensures r.model.taskList == m.taskList && r.model.projectList == m.projectList && r.model.dashboard == m.dashboard
  {
    var s := TaskDetail.Update(m.taskDetail, msg, env.now);
    var m1 := m.(taskDetail := s.model);
    TaskForm.NewFormOk();
    if msg.TaskActionMsg? then
      match msg.taskAction
      case EditTask(t) =>
        Step(m1.(selectedTask := Some(t), view := TaskFormView, taskForm := TaskForm.LoadTask(TaskForm.NewForm, t)),
             s.effects)
      case DeleteTask(t) => Step(m1.(view := TaskListView), s.effects + [DeleteTaskFx(t), LoadTasks])
      case UpdateTask(t) => Step(m1.(taskDetail := TaskDetail.SetTask(m1.taskDetail, t)), s.effects + [SaveTask(t)])
      case _ => Step(m1, s.effects)
    else Step(m1, s.effects)
  }

  function FromTaskForm(m: AppModel, msg: Msg, env: Env): (r: Step<AppModel>)
    requires Inv(m) && m.view == TaskFormView
    ensures Inv(r.model) && Reachable(r.model.view)
    ensures r.model.taskList == m.taskList && r.model.projectList == m.projectList && r.model.dashboard == m.dashboard
  {
    var s := TaskForm.Update(m.taskForm, msg, env);
    var m1 := m.(taskForm := s.model);
    if msg.TaskFormSubmitMsg? then
      Step(m1.(view := TaskListView), s.effects + [SaveTask(msg.submitted), LoadTasks])
    else Step(m1, s.effects)
  }

  function FromProjectList(m: AppModel, msg: Msg): (r: Step<AppModel>)
    requires Inv(m) && m.view == ProjectListView
    ensures Inv(r.model) && Reachable(r.model.view)
    ensures r.model.taskList == m.taskList && r.model.dashboard == m.dashboard
  {
    var s := ProjectList.Update(m.projectList, msg);
    var list := if msg.ProjectListLoadedMsg? then ProjectList.LoadProjects(s.model, msg.projects) else s.model;
    var m1 := m.(projectList := list);
    if msg.ProjectActionMsg? && msg.projectAction.SelectProject? then
      var p := msg.projectAction.project;
      Step(m1.(selectedProject := Some(p), view := TaskListView), s.effects + [LoadTasksForProject(p.id)])
    else Step(m1, s.effects)
  }

  /** Messages delivered one after another, their commands collected in order. */
  function Run(m: AppModel, msgs: seq<Msg>, env: Env): (r: Step<AppModel>)
    requires Inv(m)
    ensures Inv(r.model)
    ensures Reachable(m.view) ==> Reachable(r.model.view)
    decreases |msgs|
  {
    if msgs == [] then Step(m, [])
    else
      var s := Update(m, msgs[0], env);
      var rest := Run(s.model, msgs[1..], env);
      Step(rest.model, s.effects + rest.effects)
  }

  lemma InitialOk()
    ensures Inv(Initial) && Initial.view == DashboardView
    ensures InitEffects == [Emit(ActiveTimeEntryMsg(None)), LoadTasks, LoadProjects]
  {
    TaskForm.NewFormOk();
  }

  /** No sequence of messages leads from the start to the project form or time tracking views. */
  lemma UnbuiltViewsUnreachable(msgs: seq<Msg>, env: Env)
    ensures Inv(Initial) && Reachable(Run(Initial, msgs, env).model.view)
  {
    InitialOk();
  }

  // ---------------------------------------------------------------------
  // Global keys

  /** A quit key ends the program from every view, with the model untouched. */
  lemma QuitFromEveryView(m: AppModel, env: Env)
    requires Inv(m)
    ensures Update(m, KeyMsg(Runes("q")), env) == Step(m, [Quit])
    ensures Update(m, KeyMsg(Special("ctrl+c")), env) == Step(m, [Quit])
  {
  }

  /**
   * So a `q` typed into the form quits: the form reducer, which would have
   * appended it to the focused title, never sees it.
   */
  lemma TypingQInFormQuits(m: AppModel, env: Env)
    requires Inv(m) && m.view == TaskFormView
    requires m.taskForm.focus == 0 && |m.taskForm.title.value| < TaskForm.TitleLimit
    ensures TaskForm.Update(m.taskForm, KeyMsg(Runes("q")), env).model.title.value == m.taskForm.title.value + "q"
    ensures Update(m, KeyMsg(Runes("q")), env) == Step(m, [Quit])
  {
    var k := Runes("q");
    assert !Matches(k, SubmitKeys) && !Matches(k, BackKeys) && !Matches(k, NextKeys) && !Matches(k, PrevKeys);
    assert k.text[..Min(|k.text|, m.taskForm.title.limit - |m.taskForm.title.value|)] == "q";
  }

  /** `?` shows help from every view, with no command. */
  lemma HelpFromEveryView(m: AppModel, env: Env)
    requires Inv(m)
    ensures Update(m, KeyMsg(Runes("?")), env) == Step(m.(view := HelpView), [])
  {
  }

  /** The help view has no reducer: only global keys and banner messages act there. */
  lemma HelpViewInert(m: AppModel, msg: Msg, env: Env)
    requires Inv(m) && m.view == HelpView
    requires !msg.ErrorMsg? && !msg.SuccessMsg? && !msg.ActiveTimeEntryMsg? && !msg.WindowSizeMsg?
    requires msg.KeyMsg? ==> !Global(m, msg.key)
    ensures Update(m, msg, env) == Step(m, [])
  {
  }

  /** Esc away from the dashboard returns to it, clears both banners and reloads tasks and projects. */
  lemma BackToDashboard(m: AppModel, env: Env)
    requires Inv(m) && m.view != DashboardView
    ensures Update(m, KeyMsg(Special("esc")), env) ==
      Step(m.(view := DashboardView, error := "", success := ""), [LoadTasks, LoadProjects])
  {
  }

  /** On the dashboard esc is not global: the menu gets it, and ignores it. */
  lemma BackOnDashboard(m: AppModel, env: Env)
    requires Inv(m) && m.view == DashboardView
    ensures Update(m, KeyMsg(Special("esc")), env) == Step(m, [])
  {
  }

  /** `r` reloads tasks and projects from every view without changing the model. */
  lemma RefreshFromEveryView(m: AppModel, env: Env)
    requires Inv(m)
    ensures Update(m, KeyMsg(Runes("r")), env) == Step(m, [LoadTasks, LoadProjects])
  {
  }

  /** The banner and active-entry messages set their own field and nothing else, and reach no view. */
  lemma BannersSetOnlyTheirField(m: AppModel, text: string, entry: Option<TimeEntry>, env: Env)
    requires Inv(m)
    ensures Update(m, ErrorMsg(text), env) == Step(m.(error := text), [])
    ensures Update(m, SuccessMsg(text), env) == Step(m.(success := text), [])
    ensures Update(m, ActiveTimeEntryMsg(entry), env) == Step(m.(activeEntry := entry), [])
  {
  }

  // ---------------------------------------------------------------------
  // Transitions

  /** A message that is neither a key, a resize nor a banner goes straight to the current view. */
  lemma Routed(m: AppModel, msg: Msg, env: Env)
    requires Inv(m) && !msg.KeyMsg? && !msg.WindowSizeMsg?
    requires !msg.ErrorMsg? && !msg.SuccessMsg? && !msg.ActiveTimeEntryMsg?
    ensures Update(m, msg, env) == Delegate(m, msg, env)
  {
  }

  /** The dashboard's menu leaves an action message alone and the controller acts on it. */
  lemma FromDashboardAction(m: AppModel, a: string, env: Env)
    requires Inv(m) && m.view == DashboardView
    ensures Update(m, DashboardActionMsg(a), env) == FromDashboard(m, DashboardActionMsg(a))
    ensures Dashboard.Update(m.dashboard, DashboardActionMsg(a)) == Step(m.dashboard, [])
  {
    Routed(m, DashboardActionMsg(a), env);
  }

  /** The dashboard's menu actions; "time" and "reports" lead nowhere. */
  lemma DashboardTransitions(m: AppModel, env: Env)
    requires Inv(m) && m.view == DashboardView
    ensures Update(m, DashboardActionMsg("tasks"), env) == Step(m.(view := TaskListView), [LoadTasks])
    ensures Update(m, DashboardActionMsg("projects"), env) == Step(m.(view := ProjectListView), [LoadProjects])
    ensures Update(m, DashboardActionMsg("new_task"), env) ==
      Step(m.(view := TaskFormView, taskForm := TaskForm.NewForm), [])
    ensures Update(m, DashboardActionMsg("time"), env) == Step(m, [])
    ensures Update(m, DashboardActionMsg("reports"), env) == Step(m, [])
  {
    FromDashboardAction(m, "tasks", env);
    FromDashboardAction(m, "projects", env);
    FromDashboardAction(m, "new_task", env);
    FromDashboardAction(m, "time", env);
    FromDashboardAction(m, "reports", env);
  }

  /** A key that is not global goes straight to the current view. */
  lemma KeyRouted(m: AppModel, k: Key, env: Env)
    requires Inv(m) && !Global(m, k)
    ensures Update(m, KeyMsg(k), env) == Delegate(m, KeyMsg(k), env)
  {
  }

  /** Enter on the dashboard emits the highlighted menu entry's action. */
  lemma EnterOnDashboard(m: AppModel, env: Env)
    requires Inv(m) && m.view == DashboardView
    ensures Update(m, KeyMsg(Special("enter")), env) ==
      Step(m, [Emit(DashboardActionMsg(Dashboard.Menu[m.dashboard.selected].action))])
  {
    var k := Special("enter");
    assert KeyString(k) == "enter";
    assert !Matches(k, QuitKeys) && !Matches(k, HelpKeys) && !Matches(k, RefreshKeys);
    KeyRouted(m, k, env);
    assert !Matches(k, UpKeys) && !Matches(k, DownKeys) && Matches(k, EnterKeys);
    assert Dashboard.Update(m.dashboard, KeyMsg(k)) ==
      Step(m.dashboard, [Emit(DashboardActionMsg(Dashboard.Menu[m.dashboard.selected].action))]);
  }

  /** Enter on the first menu entry asks for the task list, and that request opens it. */
  lemma EnterOnTasksOpensTaskList(m: AppModel, env: Env)
    requires Inv(m) && m.view == DashboardView && m.dashboard.selected == 0
    ensures Update(m, KeyMsg(Special("enter")), env) == Step(m, [Emit(DashboardActionMsg("tasks"))])
    ensures Run(m, [KeyMsg(Special("enter")), DashboardActionMsg("tasks")], env) ==
      Step(m.(view := TaskListView), [Emit(DashboardActionMsg("tasks")), LoadTasks])
  {
    var enter := KeyMsg(Special("enter"));
    var act := DashboardActionMsg("tasks");
    EnterOnDashboard(m, env);
    assert Dashboard.Menu[0].action == "tasks";
    FromDashboardAction(m, "tasks", env);
    var m2 := m.(view := TaskListView);
    assert Update(m, act, env) == Step(m2, [LoadTasks]);
    assert Run(m2, [], env) == Step(m2, []);
    assert [act][1..] == [];
    assert Run(m, [act], env) == Step(m2, [LoadTasks]);
    assert [enter, act][1..] == [act];
  }

  /** The task list hands an action to the controller untouched. */
  lemma FromTaskListAction(m: AppModel, a: TaskAction, env: Env)
    requires Inv(m) && m.view == TaskListView
    ensures Update(m, TaskActionMsg(a), env) == FromTaskList(m, TaskActionMsg(a), env)
    ensures TaskList.Update(m.taskList, TaskActionMsg(a), env.now) == Step(m.taskList, [])
  {
    Routed(m, TaskActionMsg(a), env);
  }

  /** The detail view hands an action to the controller untouched. */
  lemma FromTaskDetailAction(m: AppModel, a: TaskAction, env: Env)
    requires Inv(m) && m.view == TaskDetailView
    ensures Update(m, TaskActionMsg(a), env) == FromTaskDetail(m, TaskActionMsg(a), env)
    ensures TaskDetail.Update(m.taskDetail, TaskActionMsg(a), env.now) == Step(m.taskDetail, [])
  {
    Routed(m, TaskActionMsg(a), env);
  }

  /** Editing from either task view opens the form on that task, focused on the title. */
  lemma EditOpensForm(m: AppModel, t: Task, env: Env)
    requires Inv(m) && (m.view == TaskListView || m.view == TaskDetailView)
    ensures var r := Update(m, TaskActionMsg(EditTask(t)), env);
      r.model.view == TaskFormView && r.model.selectedTask == Some(t) && r.effects == [] &&
      r.model.taskForm.task == Some(t) && r.model.taskForm.editing && r.model.taskForm.focus == 0
  {
    TaskForm.NewFormOk();
    if m.view == TaskListView {
      FromTaskListAction(m, EditTask(t), env);
    } else {
      FromTaskDetailAction(m, EditTask(t), env);
    }
  }

  /** The task list's actions: select and edit move on, delete and update stay and reload. */
  lemma TaskListTransitions(m: AppModel, t: Task, env: Env)
    requires Inv(m) && m.view == TaskListView
    ensures Update(m, TaskActionMsg(SelectTask(t)), env) ==
      Step(m.(selectedTask := Some(t), taskDetail := TaskDetail.TaskDetailModel(Some(t)), view := TaskDetailView), [])
    ensures Update(m, TaskActionMsg(NewTaskAction), env) == Step(m.(view := TaskFormView, taskForm := TaskForm.NewForm), [])
    ensures var r := Update(m, TaskActionMsg(EditTask(t)), env);
      r.model.view == TaskFormView && r.model.selectedTask == Some(t) && r.effects == [] &&
      r.model.taskForm.task == Some(t) && r.model.taskForm.editing && r.model.taskForm.focus == 0
    ensures Update(m, TaskActionMsg(DeleteTask(t)), env) == Step(m, [DeleteTaskFx(t), LoadTasks])
    ensures Update(m, TaskActionMsg(UpdateTask(t)), env) == Step(m, [SaveTask(t), LoadTasks])
  {
    FromTaskListAction(m, SelectTask(t), env);
    FromTaskListAction(m, NewTaskAction, env);
    EditOpensForm(m, t, env);
    FromTaskListAction(m, DeleteTask(t), env);
    FromTaskListAction(m, UpdateTask(t), env);
  }

  /** The detail view's actions: a delete goes back to the list; an update stays and rebinds the task. */
  lemma TaskDetailTransitions(m: AppModel, t: Task, env: Env)
    requires Inv(m) && m.view == TaskDetailView
    ensures Update(m, TaskActionMsg(DeleteTask(t)), env) == Step(m.(view := TaskListView), [DeleteTaskFx(t), LoadTasks])
    ensures Update(m, TaskActionMsg(UpdateTask(t)), env) ==
      Step(m.(taskDetail := TaskDetail.TaskDetailModel(Some(t))), [SaveTask(t)])
    ensures var r := Update(m, TaskActionMsg(EditTask(t)), env);
      r.model.view == TaskFormView && r.model.selectedTask == Some(t) && r.effects == [] &&
      r.model.taskForm.task == Some(t) && r.model.taskForm.editing
    ensures Update(m, TaskActionMsg(SelectTask(t)), env) == Step(m, [])
    ensures Update(m, TaskActionMsg(NewTaskAction), env) == Step(m, [])
  {
    FromTaskDetailAction(m, DeleteTask(t), env);
    FromTaskDetailAction(m, UpdateTask(t), env);
    EditOpensForm(m, t, env);
    FromTaskDetailAction(m, SelectTask(t), env);
    FromTaskDetailAction(m, NewTaskAction, env);
  }

  /** A submitted form goes to the task list, saving the task and reloading the list. */
  lemma FormSubmitTransition(m: AppModel, t: Task, env: Env)
    requires Inv(m) && m.view == TaskFormView
    ensures Update(m, TaskFormSubmitMsg(t), env) == Step(m.(view := TaskListView), [SaveTask(t), LoadTasks])
  {
  }

  /** Selecting a project shows the task list, loading only that project's tasks. */
  lemma ProjectSelectTransition(m: AppModel, p: Project, env: Env)
    requires Inv(m) && m.view == ProjectListView
    ensures Update(m, ProjectActionMsg(SelectProject(p)), env) ==
      Step(m.(selectedProject := Some(p), view := TaskListView), [LoadTasksForProject(p.id)])
    ensures Update(m, ProjectActionMsg(NewProjectAction), env) == Step(m, [])
  {
    FromProjectListAction(m, SelectProject(p), env);
    FromProjectListAction(m, NewProjectAction, env);
  }

  /** The project list hands an action to the controller untouched. */
  lemma FromProjectListAction(m: AppModel, a: ProjectAction, env: Env)
    requires Inv(m) && m.view == ProjectListView
    ensures Update(m, ProjectActionMsg(a), env) == FromProjectList(m, ProjectActionMsg(a))
    ensures ProjectList.Update(m.projectList, ProjectActionMsg(a)) == Step(m.projectList, [])
  {
    Routed(m, ProjectActionMsg(a), env);
  }

  /** A task list that arrives while another view shows is dropped, not stored for later. */
  lemma LateTaskListDropped(m: AppModel, tasks: seq<Task>, env: Env)
    requires Inv(m) && m.view != TaskListView
    ensures Update(m, TaskListLoadedMsg(tasks), env).model.taskList == m.taskList
    ensures Update(m, TaskListLoadedMsg(tasks), env).effects == []
  {
  }

  /** On the task list view the same message replaces the list and clamps the selection. */
  lemma TaskListLoadedApplied(m: AppModel, tasks: seq<Task>, env: Env)
    requires Inv(m) && m.view == TaskListView
    ensures Update(m, TaskListLoadedMsg(tasks), env) ==
      Step(m.(taskList := TaskList.LoadTasks(m.taskList, tasks).(loading := false)), [])
  {
  }
}

=== FILE: base.dfy ===
/**
 * Small failure-carrying wrappers shared by every layer of the model:
 * `Option` for Go's nil pointers and `Result` for `(value, error)` returns.
 */
module Base {

  /** Entity identifiers (uuid strings in the program). */
  type Id = string

  datatype Option<+T> = None | Some(value: T)
  {
    /** The value when present, else `default`: how a non-nil pointer field overrides a stored one. */
    function GetOr(default: T): (r: T)
      ensures Some? ==> r == value
      ensures None? ==> r == default
    {
      match this
      case Some(v) => v
      case None => default
    }
  }

  datatype Result<+T, +E> = Ok(value: T) | Err(error: E)

  function Min(a: int, b: int): int
  {
    if a <= b then a else b
  }
}

=== FILE: calendar.dfy ===
/**
 * Instants as integer nanoseconds since the Unix epoch (UTC), and the few
 * Gregorian-calendar layouts the modelled code formats or parses:
 * "2006-01-02" (dates) and "20060102T150405Z" (iCalendar UTC stamps).
 */
module Calendar {
  import opened Base
  import opened Text

  /** A wall-clock instant, in nanoseconds since 1970-01-01T00:00:00Z. */
  type Time = int

  const NanosPerSecond: int := 1_000_000_000
  const NanosPerMinute: int := 60 * NanosPerSecond
  const NanosPerHour: int := 3600 * NanosPerSecond
  const NanosPerDay: int := 86400 * NanosPerSecond

  predicate IsLeap(y: int)
  {
    y % 4 == 0 && (y % 100 != 0 || y % 400 == 0)
  }

  function DaysIn(y: int, m: int): int
    requires 1 <= m <= 12
  {
    if m == 2 then (if IsLeap(y) then 29 else 28)
    else if m == 4 || m == 6 || m == 9 || m == 11 then 30
    else 31
  }

  function DaysInYear(y: int): int
  {
    if IsLeap(y) then 366 else 365
  }

  /** Days from 1970-01-01 to January 1st of year `y` (proleptic Gregorian calendar); negative before 1970. */
  function YearStart(y: int): int
    decreases if y >= 1970 then y - 1970 else 1970 - y
  {
    if y == 1970 then 0
    else if y > 1970 then YearStart(y - 1) + DaysInYear(y - 1)
    else YearStart(y + 1) - DaysInYear(y)
  }

  /** Each year starts where the one before it ends. */
  lemma YearStartStep(y: int)
    ensures YearStart(y + 1) == YearStart(y) + DaysInYear(y)
  {
  }

  /** Later years start later, by at least 365 days a year. */
  lemma {:induction false} YearStartMonotone(a: int, b: int)
    requires a <= b
    ensures YearStart(a) + 365 * (b - a) <= YearStart(b)
    decreases b - a
  {
    if a < b {
      YearStartMonotone(a, b - 1);
      YearStartStep(b - 1);
    }
  }

  /** Days from January 1st to the first of month `m`; month 13 stands for the next January. */
  function MonthStart(y: int, m: int): int
    requires 1 <= m <= 13
  {
    if m == 1 then 0 else MonthStart(y, m - 1) + DaysIn(y, m - 1)
  }

  /** The twelve months fill the year. */
  lemma MonthsFillYear(y: int)
    ensures MonthStart(y, 13) == DaysInYear(y)
  {
    var feb := DaysIn(y, 2);
    assert MonthStart(y, 2) == 31;
    assert MonthStart(y, 3) == 31 + feb;
    assert MonthStart(y, 4) == 62 + feb;
    assert MonthStart(y, 5) == 92 + feb;
    assert MonthStart(y, 6) == 123 + feb;
    assert MonthStart(y, 7) == 153 + feb;
    assert MonthStart(y, 8) == 184 + feb;
    assert MonthStart(y, 9) == 215 + feb;
    assert MonthStart(y, 10) == 245 + feb;
    assert MonthStart(y, 11) == 276 + feb;
    assert MonthStart(y, 12) == 306 + feb;
    assert MonthStart(y, 13) == 337 + feb;
  }

  lemma {:induction false} MonthStartsIncrease(y: int, a: int, b: int)
    requires 1 <= a <= b <= 13
    ensures MonthStart(y, a) <= MonthStart(y, b)
    decreases b - a
  {
    if a < b {
      MonthStartsIncrease(y, a, b - 1);
    }
  }

  /** Days from 1970-01-01 to the civil date y-m-d. */
  function DaysFromCivil(y: int, m: int, d: int): int
    requires 1 <= m <= 12
  {
    YearStart(y) + MonthStart(y, m) + d - 1
  }

  /** The year holding day `days`, searching upwards from year `y`. */
  function YearUp(days: int, y: int): (r: int)
    requires YearStart(y) <= days
    ensures YearStart(r) <= days < YearStart(r + 1)
    decreases days - YearStart(y)
  {
    YearStartStep(y);
    if days < YearStart(y + 1) then y else YearUp(days, y + 1)
  }

  /** The year holding day `days`, searching downwards from year `y`. */
  function YearDown(days: int, y: int): (r: int)
    requires days < YearStart(y + 1)
    ensures YearStart(r) <= days < YearStart(r + 1)
    decreases YearStart(y + 1) - days
  {
    YearStartStep(y);
    if YearStart(y) <= days then y else YearDown(days, y - 1)
  }

  /** The year holding day `days`, counted from 1970-01-01. */
  function YearOfDay(days: int): (r: int)
    ensures YearStart(r) <= days < YearStart(r + 1)
  {
    if days >= 0 then YearUp(days, 1970) else YearDown(days, 1969)
  }

  /** The month holding day `doy` (counted from 0) of year `y`, searching from month `m`. */
  function MonthFrom(y: int, doy: int, m: int): (r: int)
    requires 1 <= m <= 12 && MonthStart(y, m) <= doy < DaysInYear(y)
    ensures m <= r <= 12 && MonthStart(y, r) <= doy < MonthStart(y, r + 1)
    decreases 12 - m
  {
    MonthsFillYear(y);
    if doy < MonthStart(y, m + 1) then m else MonthFrom(y, doy, m + 1)
  }

  /**
   * The civil date (year, month, day) of a day number counted from
   * 1970-01-01: a month and day that exist, and the inverse of `DaysFromCivil`.
   */
  function CivilFromDays(days: int): (r: (int, int, int))
    ensures 1 <= r.1 <= 12 && 1 <= r.2 <= DaysIn(r.0, r.1)
    ensures DaysFromCivil(r.0, r.1, r.2) == days
    ensures YearStart(r.0) <= days < YearStart(r.0 + 1)
    ensures MonthStart(r.0, r.1) <= days - YearStart(r.0) < MonthStart(r.0, r.1 + 1)
    ensures r.0 == YearOfDay(days)
  {
    var y := YearOfDay(days);
    YearStartStep(y);
    MonthsFillYear(y);
    var doy := days - YearStart(y);
    var m := MonthFrom(y, doy, 1);
    (y, m, doy - MonthStart(y, m) + 1)
  }

  /** Years do not overlap: a day lies in one year only. */
  lemma YearUnique(a: int, b: int, days: int)
    requires YearStart(a) <= days < YearStart(a + 1)
    requires YearStart(b) <= days < YearStart(b + 1)
    ensures a == b
  {
    if a < b {
      YearStartMonotone(a + 1, b);
    } else if b < a {
      YearStartMonotone(b + 1, a);
    }
  }

  /** Months do not overlap: a day of the year lies in one month only. */
  lemma MonthUnique(y: int, a: int, b: int, doy: int)
    requires 1 <= a <= 12 && 1 <= b <= 12
    requires MonthStart(y, a) <= doy < MonthStart(y, a + 1)
    requires MonthStart(y, b) <= doy < MonthStart(y, b + 1)
    ensures a == b
  {
    if a < b {
      MonthStartsIncrease(y, a + 1, b);
    } else if b < a {
      MonthStartsIncrease(y, b + 1, a);
    }
  }

  /** A day of an existing date lies inside its month, and the month inside its year. */
  lemma DayWithinMonth(y: int, m: int, d: int)
    requires 1 <= m <= 12 && 1 <= d <= DaysIn(y, m)
    ensures 0 <= MonthStart(y, m) <= MonthStart(y, m) + d - 1 < MonthStart(y, m + 1) <= DaysInYear(y)
  {
    MonthStartsIncrease(y, 1, m);
    MonthStartsIncrease(y, m + 1, 13);
    MonthsFillYear(y);
  }

  /** The year of an existing date's day number is the date's year. */
  lemma YearOfCivil(y: int, m: int, d: int)
    requires 1 <= m <= 12 && 1 <= d <= DaysIn(y, m)
    ensures YearOfDay(DaysFromCivil(y, m, d)) == y
  {
    var days := DaysFromCivil(y, m, d);
    DayWithinMonth(y, m, d);
    YearStartStep(y);
    YearUnique(YearOfDay(days), y, days);
  }

  /** Every existing civil date is the one its day number names. */
  lemma CivilFromDaysOfCivil(y: int, m: int, d: int)
    requires 1 <= m <= 12 && 1 <= d <= DaysIn(y, m)
    ensures CivilFromDays(DaysFromCivil(y, m, d)) == (y, m, d)
  {
    var days := DaysFromCivil(y, m, d);
    YearOfCivil(y, m, d);
    var r := CivilFromDays(days);
    assert r.0 == y;
    DayWithinMonth(y, m, d);
    MonthUnique(y, r.1, m, days - YearStart(y));
  }

  predicate IsDigit(c: char)
  {
    '0' <= c <= '9'
  }

  predicate AllDigits(s: string)
  {
    forall i :: 0 <= i < |s| ==> IsDigit(s[i])
  }

  function DigitsValue(s: string): (n: nat)
    requires AllDigits(s)
  {
    if s == [] then 0 else DigitsValue(s[..|s| - 1]) * 10 + (s[|s| - 1] as int - '0' as int)
  }

  /** The "2006-01-02" layout: four year digits, two month digits, two day digits. */
  predicate HasDateShape(s: string)
  {
    |s| == 10 && AllDigits(s[0..4]) && s[4] == '-' && AllDigits(s[5..7]) && s[7] == '-' && AllDigits(s[8..10])
  }

  /** A date written in the "2006-01-02" layout whose month and day exist. */
  predicate IsValidDateText(s: string)
  {
    && HasDateShape(s)
    && 1 <= DigitsValue(s[5..7]) <= 12
    && 1 <= DigitsValue(s[8..10]) <= DaysIn(DigitsValue(s[0..4]), DigitsValue(s[5..7]))
  }

  lemma MultipleOfDay(k: int)
    ensures (k * NanosPerDay) % NanosPerDay == 0
  {
  }

  /**
   * `time.Parse("2006-01-02", s)`: midnight UTC of the written date, or None when
   * the text is not exactly that layout or names a month or day that does not exist.
   */
  function ParseDate(s: string): (r: Option<Time>)
    ensures r.Some? <==> IsValidDateText(s)
    ensures r.Some? ==> r.value % NanosPerDay == 0
  {
    if !IsValidDateText(s) then None
    else
      var days := DaysFromCivil(DigitsValue(s[0..4]), DigitsValue(s[5..7]), DigitsValue(s[8..10]));
      MultipleOfDay(days);
      Some(days * NanosPerDay)
  }

  lemma YearValues()
    ensures DigitsValue("2024") == 2024 && DigitsValue("2023") == 2023
  {
    assert "2024"[..3] == "202" && "2023"[..3] == "202";
    assert "202"[..2] == "20" && "20"[..1] == "2" && "2"[..0] == "";
  }

  lemma MonthDayValues()
    ensures DigitsValue("02") == 2 && DigitsValue("29") == 29 && DigitsValue("13") == 13
  {
    assert "02"[..1] == "0" && "0"[..0] == "";
    assert "29"[..1] == "2" && "2"[..0] == "";
    assert "13"[..1] == "1" && "1"[..0] == "";
  }

  /** 2024 is a leap year, so its 29th of February exists. */
  lemma LeapDayParses()
    ensures IsValidDateText("2024-02-29")
  {
    var s := "2024-02-29";
    assert s[0..4] == "2024" && s[5..7] == "02" && s[8..10] == "29";
    YearValues();
    MonthDayValues();
    assert DaysIn(2024, 2) == 29;
  }

  /** 2023 is not a leap year, so its February has 28 days. */
  lemma NonLeapDayRejected()
    ensures !IsValidDateText("2023-02-29")
  {
    var s := "2023-02-29";
    assert s[0..4] == "2023" && s[5..7] == "02" && s[8..10] == "29";
    YearValues();
    MonthDayValues();
    assert DaysIn(2023, 2) == 28;
  }

  /** The calendar rejects the 29th of February outside leap years, a thirteenth month and a one-digit month. */
  lemma ParseDateChecksLeapDays()
    ensures ParseDate("2024-02-29").Some?
    ensures ParseDate("2023-02-29").None?
    ensures ParseDate("2024-13-01").None?
    ensures ParseDate("2024-2-29").None?
  {
    LeapDayParses();
    NonLeapDayRejected();
    MonthDayValues();
    assert "2024-13-01"[5..7] == "13";
  }

  /** Go's zero-padded `%0Nd`-style rendering used by time layouts, with a '-' for negatives. */
  function PadInt(i: int, width: nat): string
  {
    if i < 0 then "-" + PadNat(-i, width) else PadNat(i, width)
  }

  /** The day number (counted from 1970-01-01) of an instant. */
  function DayOf(t: Time): int
  {
    t / NanosPerDay
  }

  /**
   * `t.Format("2006-01-02")` for an instant read in UTC: at least ten
   * characters, all digits and '-'. `FormatDateParses` shows that `ParseDate`
   * reads a four-digit year's text back as the day.
   */
  function FormatDate(t: Time): (r: string)
    ensures |r| >= 10
    ensures DateChars(r)
  {
    var (y, m, d) := CivilFromDays(DayOf(t));
    PadIntChars(y, 4);
    PadIntChars(m, 2);
    PadIntChars(d, 2);
    PadInt(y, 4) + "-" + PadInt(m, 2) + "-" + PadInt(d, 2)
  }

  function Pow10(k: nat): nat
  {
    if k == 0 then 1 else 10 * Pow10(k - 1)
  }

  lemma DigitCharValue(d: int)
    requires 0 <= d < 10
    ensures IsDigit(DigitChar(d)) && DigitChar(d) as int - '0' as int == d
  {
  }

  /** Reading back the decimal rendering of a natural number gives the number. */
  lemma {:induction false} DigitsOfNat(n: nat)
    ensures AllDigits(NatToString(n)) && DigitsValue(NatToString(n)) == n
  {
    var s := NatToString(n);
    if n < 10 {
      DigitCharValue(n);
      assert s[..0] == [];
    } else {
      DigitsOfNat(n / 10);
      DigitCharValue(n % 10);
      assert s[..|s| - 1] == NatToString(n / 10);
    }
  }

  /** The rendering has more than `k` digits exactly when the number reaches 10^k. */
  lemma {:induction false} NatToStringWidth(n: nat, k: nat)
    requires k >= 1
    ensures |NatToString(n)| <= k <==> n < Pow10(k)
  {
    if n >= 10 && k == 1 {
      assert |NatToString(n)| >= 2;
    } else if n >= 10 {
      NatToStringWidth(n / 10, k - 1);
      assert n < Pow10(k) <==> n / 10 < Pow10(k - 1);
    } else {
      assert Pow10(k) >= 10 by { Pow10AtLeastTen(k); }
    }
  }

  lemma {:induction false} Pow10AtLeastTen(k: nat)
    requires k >= 1
    ensures Pow10(k) >= 10
  {
    if k > 1 {
      Pow10AtLeastTen(k - 1);
    }
  }

  lemma {:induction false} ZerosValue(k: nat)
    ensures AllDigits(Zeros(k)) && DigitsValue(Zeros(k)) == 0
  {
    if k > 0 {
      ZerosValue(k - 1);
      assert Zeros(k)[..k - 1] == Zeros(k - 1);
    }
  }

  /** Leading zeros do not change the value read. */
  lemma {:induction false} DigitsValueZeros(k: nat, s: string)
    requires AllDigits(s)
    ensures AllDigits(Zeros(k) + s) && DigitsValue(Zeros(k) + s) == DigitsValue(s)
    decreases |s|
  {
    ZerosValue(k);
    var u := Zeros(k) + s;
    if s == [] {
      assert u == Zeros(k);
    } else {
      assert u[..|u| - 1] == Zeros(k) + s[..|s| - 1];
      assert u[|u| - 1] == s[|s| - 1];
      DigitsValueZeros(k, s[..|s| - 1]);
    }
  }

  /** A number below 10^width pads to exactly `width` digits that read back as the number. */
  lemma PadNatReadsBack(n: nat, width: nat)
    requires 1 <= width && n < Pow10(width)
    ensures |PadNat(n, width)| == width && AllDigits(PadNat(n, width)) && DigitsValue(PadNat(n, width)) == n
  {
    NatToStringWidth(n, width);
    PadDigits(n, width);
  }

  lemma PadDigits(n: nat, width: nat)
    requires |NatToString(n)| <= width
    ensures |PadNat(n, width)| == width && AllDigits(PadNat(n, width)) && DigitsValue(PadNat(n, width)) == n
  {
    var digits := NatToString(n);
    DigitsOfNat(n);
    if |digits| < width {
      DigitsValueZeros(width - |digits|, digits);
      assert PadNat(n, width) == Zeros(width - |digits|) + digits;
    } else {
      assert PadNat(n, width) == digits;
    }
  }

  /** The instants whose UTC year has four digits, 0000 to 9999: the years the "2006" layout reads back. */
  predicate InFourDigitYears(t: Time)
  {
    0 <= YearOfDay(DayOf(t)) <= 9999
  }

  /** The "2006-01-02" text of an existing date of a four-digit year. */
  function DateText(y: nat, m: int, d: int): string
  {
    PadInt(y, 4) + "-" + PadInt(m, 2) + "-" + PadInt(d, 2)
  }

  /** The slices of a text laid out as four characters, '-', two, '-', two. */
  lemma DateLayout(a: string, b: string, c: string)
    requires |a| == 4 && |b| == 2 && |c| == 2
    ensures var s := a + "-" + b + "-" + c;
      |s| == 10 && s[0..4] == a && s[4] == '-' && s[5..7] == b && s[7] == '-' && s[8..10] == c
  {
  }

  /** The three numeric fields of `DateText` read back as the year, month and day. */
  lemma DateTextFields(y: nat, m: int, d: int)
    requires y <= 9999 && 1 <= m <= 12 && 1 <= d <= 31
    ensures var s := DateText(y, m, d);
      HasDateShape(s) && DigitsValue(s[0..4]) == y && DigitsValue(s[5..7]) == m && DigitsValue(s[8..10]) == d
  {
    PadNatReadsBack(y, 4);
    PadNatReadsBack(m, 2);
    PadNatReadsBack(d, 2);
    DateLayout(PadNat(y, 4), PadNat(m, 2), PadNat(d, 2));
  }

  /** `ParseDate` reads the text of an existing date back as that date's midnight. */
  lemma DateTextParses(y: nat, m: int, d: int)
    requires y <= 9999 && 1 <= m <= 12 && 1 <= d <= DaysIn(y, m)
    ensures |DateText(y, m, d)| == 10 && IsTrimmed(DateText(y, m, d))
    ensures ParseDate(DateText(y, m, d)) == Some(DaysFromCivil(y, m, d) * NanosPerDay)
  {
    DateTextFields(y, m, d);
    var s := DateText(y, m, d);
    assert IsDigit(s[0..4][0]) && IsDigit(s[8..10][1]);
    assert s[0] == s[0..4][0] && s[9] == s[8..10][1];
  }

  /**
   * Formatting an instant of a four-digit year as "2006-01-02" gives ten
   * characters that `ParseDate` accepts, naming the UTC midnight that starts
   * the instant's day.
   */
  lemma FormatDateParses(t: Time)
    requires InFourDigitYears(t)
    ensures |FormatDate(t)| == 10 && IsTrimmed(FormatDate(t))
    ensures ParseDate(FormatDate(t)) == Some(TruncateToDay(t))
  {
    var (y, m, d) := CivilFromDays(DayOf(t));
    assert FormatDate(t) == DateText(y, m, d);
    DateTextParses(y, m, d);
  }

  /** Distinct day numbers start at distinct instants. */
  lemma DayStartsDiffer(x: int, y: int)
    requires x != y
    ensures x * NanosPerDay != y * NanosPerDay
  {
    if x < y {
      assert (y - x) * NanosPerDay >= NanosPerDay;
    } else {
      assert (x - y) * NanosPerDay >= NanosPerDay;
    }
  }

  /** The formatted date depends only on the day. */
  lemma SameDaySameDate(a: Time, b: Time)
    requires DayOf(a) == DayOf(b)
    ensures FormatDate(a) == FormatDate(b)
  {
  }

  /** The characters a formatted date is made of. */
  predicate DateChars(s: string)
  {
    forall k :: 0 <= k < |s| ==> DateChar(s[k])
  }

  predicate DateChar(c: char)
  {
    c == '-' || IsDigit(c)
  }

  lemma PadIntChars(i: int, width: nat)
    ensures DateChars(PadInt(i, width))
  {
    var n := if i < 0 then -i else i;
    var digits := NatToString(n);
    var p := PadNat(n, width);
    assert p == digits || p == Zeros(width - |digits|) + digits;
    assert forall k :: 0 <= k < |p| ==> DateChar(p[k]);
  }

  /** Ten characters or fewer of a formatted date carry no white space at their ends. */
  lemma PrefixTrimmed(t: Time)
    ensures |FormatDate(t)| >= 10 ==> IsTrimmed(FormatDate(t)[..10])
  {
    var s := FormatDate(t);
    if |s| >= 10 {
      DateCharNotSpace(s[0]);
      DateCharNotSpace(s[9]);
    }
  }

  lemma DateCharNotSpace(c: char)
    requires DateChar(c)
    ensures !IsSpace(c)
  {
  }

  /**
   * Outside the four-digit years no prefix of ten characters of the
   * formatted date is valid "2006-01-02" text: a negative year starts with
   * '-', and a fifth year digit stands where the first '-' belongs. The
   * prefix carries no white space at its ends.
   */
  lemma FormatDateOutOfRange(t: Time)
    requires !InFourDigitYears(t)
    ensures |FormatDate(t)| > 10 && IsTrimmed(FormatDate(t)[..10])
    ensures !IsValidDateText(FormatDate(t)[..10])
  {
    var (y, m, d) := CivilFromDays(DayOf(t));
    var s := FormatDate(t);
    PrefixTrimmed(t);
    if y < 0 {
      assert s[0] == '-';
      assert s[..10][0..4][0] == '-';
    } else {
      NatToStringWidth(y, 4);
      var ys := NatToString(y);
      assert PadInt(y, 4) == ys;
      assert s[4] == ys[4];
      assert s[..10][4] != '-';
    }
  }

  /**
   * `t.UTC().Format("20060102T150405Z")`, the iCalendar UTC date-time form
   * (section 3.3.5 of RFC 5545): the date, 'T', the clock of the UTC day
   * as `ClockText` renders it, and 'Z'.
   */
  function FormatStamp(t: Time): (r: string)
    ensures |r| >= 16 && r[|r| - 8] == 'T' && r[|r| - 1] == 'Z'
    ensures r[|r| - 7..|r| - 1] == ClockText(t % NanosPerDay)
  {
    var (y, m, d) := CivilFromDays(DayOf(t));
    var date := PadInt(y, 4) + PadInt(m, 2) + PadInt(d, 2);
    var clock := ClockText(t % NanosPerDay);
    StampLayout(date, clock);
    date + "T" + clock + "Z"
  }

  /** "150405": the hour, minute and second of a time of day, two digits each. */
  function ClockText(tod: int): (c: string)
    requires 0 <= tod < NanosPerDay
    ensures |c| == 6 && AllDigits(c)
    ensures DigitsValue(c[0..2]) == tod / NanosPerHour
    ensures DigitsValue(c[2..4]) == tod / NanosPerMinute % 60
    ensures DigitsValue(c[4..6]) == tod / NanosPerSecond % 60
  {
    var secs := tod / NanosPerSecond;
    ClockOfDay(tod);
    assert Pow10(2) == 100;
    PadNatReadsBack(secs / 3600, 2);
    PadNatReadsBack(secs % 3600 / 60, 2);
    PadNatReadsBack(secs % 60, 2);
    var h := PadNat(secs / 3600, 2);
    var m := PadNat(secs % 3600 / 60, 2);
    var s := PadNat(secs % 60, 2);
    assert (h + m + s)[0..2] == h && (h + m + s)[2..4] == m && (h + m + s)[4..6] == s;
    h + m + s
  }

  /** Whole hours, minutes and seconds of a time of day, through its whole seconds. */
  lemma ClockOfDay(tod: int)
    requires 0 <= tod < NanosPerDay
    ensures var secs := tod / NanosPerSecond;
      0 <= secs / 3600 < 24 && secs / 3600 == tod / NanosPerHour &&
      0 <= secs % 3600 / 60 < 60 && secs % 3600 / 60 == tod / NanosPerMinute % 60
  {
    var secs := tod / NanosPerSecond;
    assert secs / 3600 == tod / 3600000000000;
    assert secs / 60 == tod / 60000000000;
    assert secs % 3600 / 60 == secs / 60 % 60;
  }

  /** The slices of a text laid out as a date part, 'T', six clock characters and 'Z'. */
  lemma StampLayout(p: string, c: string)
    requires |c| == 6
    ensures var r := p + "T" + c + "Z";
      |r| == |p| + 8 && r[|r| - 8] == 'T' && r[|r| - 1] == 'Z' && r[|r| - 7..|r| - 1] == c
  {
  }

  /** `t.Truncate(24 * time.Hour)`: the preceding UTC midnight. */
  function TruncateToDay(t: Time): (r: Time)
    ensures r <= t < r + NanosPerDay
    ensures r % NanosPerDay == 0
  {
    DayOf(t) * NanosPerDay
  }
}

=== FILE: dashboard.dfy ===
/**
 * internal/ui/models/dashboard.go: the start screen, a fixed menu of five
 * entries.
 */
module Dashboard {
  import opened Messages

  datatype DashboardItem = DashboardItem(title: string, description: string, action: string, icon: string)

  /** `NewDashboardModel`'s menu, in order. */
  const Menu: seq<DashboardItem> := [
    DashboardItem("Tasks", "View and manage your tasks", "tasks", "[T]"),
    DashboardItem("Projects", "Manage your projects", "projects", "[P]"),
    DashboardItem("Time Tracking", "Track time spent on tasks", "time", "[TM]"),
    DashboardItem("New Task", "Create a new task", "new_task", "[+]"),
    DashboardItem("Reports", "View productivity reports", "reports", "[R]")]

  datatype DashboardModel = DashboardModel(selected: nat)

  const Initial: DashboardModel := DashboardModel(0)

  predicate Inv(m: DashboardModel)
  {
    m.selected < |Menu|
  }

  /** `DashboardModel.Update`. */
  function Update(m: DashboardModel, msg: Msg): (r: Step<DashboardModel>)
    requires Inv(m)
    ensures Inv(r.model)
    ensures r.effects != [] ==> r.model == m && r.effects == [Emit(DashboardActionMsg(Menu[m.selected].action))]
    ensures !msg.KeyMsg? ==> r == Step(m, [])
  {
    match msg
    case KeyMsg(k) =>
      if Matches(k, UpKeys) then
        Step(if m.selected > 0 then m.(selected := m.selected - 1) else m, [])
      else if Matches(k, DownKeys) then
        Step(if m.selected < |Menu| - 1 then m.(selected := m.selected + 1) else m, [])
      else if Matches(k, EnterKeys) then
        Step(m, [Emit(DashboardActionMsg(Menu[m.selected].action))])
      else Step(m, [])
    case _ => Step(m, [])
  }

  /** The menu offers exactly these five actions, in this order. */
  lemma MenuActions()
    ensures |Menu| == 5
    ensures Menu[0].action == "tasks" && Menu[1].action == "projects" && Menu[2].action == "time"
    ensures Menu[3].action == "new_task" && Menu[4].action == "reports"
  {
  }

  /** Up and down stay within the menu without wrapping; enter reports the highlighted entry. */
  lemma Navigation(m: DashboardModel)
    requires Inv(m)
    ensures Update(m, KeyMsg(Special("up"))) == Step(DashboardModel(if m.selected == 0 then 0 else m.selected - 1), [])
    ensures Update(m, KeyMsg(Special("down"))) == Step(DashboardModel(if m.selected == 4 then 4 else m.selected + 1), [])
    ensures Update(m, KeyMsg(Special("enter"))) == Step(m, [Emit(DashboardActionMsg(Menu[m.selected].action))])
  {
  }

  /** Keys the dashboard does not bind change nothing (quit and escape are listed but unhandled here). */
  lemma UnboundKeysIgnored(m: DashboardModel, k: Key)
    requires Inv(m)
    requires !Matches(k, UpKeys) && !Matches(k, DownKeys) && !Matches(k, EnterKeys)
    ensures Update(m, KeyMsg(k)) == Step(m, [])
  {
  }
}

=== FILE: effects.dfy ===
/**
 * The commands of internal/ui/models/app.go (`loadTasks`,
 * `loadTasksForProject`, `loadProjects`, `saveTask`, `deleteTask`) run
 * against the store: each yields the message the runtime delivers next.
 * Listing is ghost, as in the repositories, so is running a command.
 */
module Effects {
  import opened Base
  import opened Errors
  import opened Tasks
  import opened Messages
  import opened Store
  import TaskRepo
  import ProjectRepo
  import TaskForm
  import opened Calendar

  const NoProjectFilter: ProjectRepo.ProjectFilter := ProjectRepo.ProjectFilter([], "", 0, 0)

  /** What a command does to the store, and the message (if any) it hands back. */
  datatype Outcome = Outcome(store: Store, reply: Option<Msg>)

  ghost function Perform(s: Store, fx: Effect): (r: Outcome)
    ensures fx.LoadTasks? || fx.LoadTasksForProject? || fx.LoadProjects? || fx.Emit? || fx.Quit? ==> r.store == s
    ensures fx.Quit? <==> r.reply.None?
    ensures fx.Emit? ==> r.reply == Some(fx.msg)
  {
    match fx
    case LoadTasks =>
      (match TaskRepo.List(s, TaskRepo.NoFilter)
       case Err(e) => Outcome(s, Some(ErrorMsg("Failed to load tasks: " + Message(e))))
       case Ok(found) => Outcome(s, Some(TaskListLoadedMsg(found))))
    case LoadTasksForProject(p) =>
      (match TaskRepo.List(s, TaskRepo.NoFilter.(projectId := p))
       case Err(e) => Outcome(s, Some(ErrorMsg("Failed to load tasks: " + Message(e))))
       case Ok(found) => Outcome(s, Some(TaskListLoadedMsg(found))))
    case LoadProjects =>
      (match ProjectRepo.List(s, NoProjectFilter)
       case Err(e) => Outcome(s, Some(ErrorMsg("Failed to load projects: " + Message(e))))
       case Ok(found) => Outcome(s, Some(ProjectListLoadedMsg(found))))
    case SaveTask(t) =>
      var r := TaskRepo.Update(s, t);
      if r.Err? then Outcome(s, Some(ErrorMsg("Failed to save task: " + Message(r.error))))
      else Outcome(r.value, Some(SuccessMsg("Task saved successfully")))
    case DeleteTaskFx(t) =>
      var r := TaskRepo.Delete(s, t.id);
      if r.Err? then Outcome(s, Some(ErrorMsg("Failed to delete task: " + Message(r.error))))
      else Outcome(r.value, Some(SuccessMsg("Task deleted successfully")))
    case Emit(msg) => Outcome(s, Some(msg))
    case Quit => Outcome(s, None)
  }

  /** The loads never fail: their filters set no offset, so every task (or project) in the store comes back. */
  lemma LoadsSucceed(s: Store, p: Id)
    ensures var r := Perform(s, LoadTasks);
      r.reply.Some? && r.reply.value.TaskListLoadedMsg? &&
      forall t :: t in s.tasks.Values <==> t in r.reply.value.tasks
    ensures var r := Perform(s, LoadTasksForProject(p));
      r.reply.Some? && r.reply.value.TaskListLoadedMsg? &&
      forall t :: t in r.reply.value.tasks ==> t in s.tasks.Values && (p != "" ==> t.projectId == p)
    ensures var r := Perform(s, LoadProjects);
      r.reply.Some? && r.reply.value.ProjectListLoadedMsg? &&
      forall q :: q in s.projects.Values <==> q in r.reply.value.projects
  {
    forall t | t in s.tasks.Values ensures TaskRepo.Matches(TaskRepo.NoFilter, t) {
      TaskRepo.NoFilterMatchesAll(t);
    }
  }

  /** Saving a task the store does not hold changes nothing and reports "task not found". */
  lemma SaveUnknownTaskFails(s: Store, t: Task)
    requires t.id !in s.tasks
    ensures Perform(s, SaveTask(t)) == Outcome(s, Some(ErrorMsg("Failed to save task: task not found")))
  {
    assert Message(TaskNotFound) == "task not found";
    assert "Failed to save task: " + "task not found" == "Failed to save task: task not found";
  }

  /**
   * A task submitted from a form that was not loaded for editing carries a
   * fresh id, so the save the controller schedules for it fails and the task
   * is never stored.
   */
  lemma NewTaskFromFormNotStored(s: Store, f: TaskForm.TaskFormModel, env: Env, parsedDue: Option<Time>)
    requires TaskForm.Inv(f) && !f.editing && env.freshId !in s.tasks
    requires TaskForm.SubmissionWith(f, env, parsedDue).Ok?
    ensures TaskForm.SubmissionWith(f, env, parsedDue).value.id == env.freshId
    ensures Perform(s, SaveTask(TaskForm.SubmissionWith(f, env, parsedDue).value)) ==
      Outcome(s, Some(ErrorMsg("Failed to save task: task not found")))
  {
    TaskForm.SubmittedTask(f, env, parsedDue);
    SaveUnknownTaskFails(s, TaskForm.SubmissionWith(f, env, parsedDue).value);
  }

  /** Saving a task the store holds, with valid references, stores it and reports success. */
  lemma SaveKnownTask(s: Store, t: Task)
    requires t.id in s.tasks && TaskRepo.Update(s, t).Ok?
    ensures var r := Perform(s, SaveTask(t));
      r.reply == Some(SuccessMsg("Task saved successfully")) &&
      TaskRepo.GetByID(r.store, t.id) == Ok(t.(createdAt := s.tasks[t.id].createdAt))
  {
  }

  /** A delete reports success exactly when the task was stored, and then it is gone. */
  lemma DeleteOutcome(s: Store, t: Task)
    ensures var r := Perform(s, DeleteTaskFx(t));
      (r.reply == Some(SuccessMsg("Task deleted successfully")) <==> t.id in s.tasks) &&
      t.id !in r.store.tasks
    ensures t.id !in s.tasks ==> Perform(s, DeleteTaskFx(t)) == Outcome(s, Some(ErrorMsg("Failed to delete task: task not found")))
  {
    assert "Failed to delete task: " + "task not found" == "Failed to delete task: task not found";
  }
}

=== FILE: entry_repo.dfy ===
/**
 * internal/repository/sqlite/timeentry_repository.go over the abstract store.
 * A duration that is not positive is written as NULL and read back as 0; an
 * empty project id is written as NULL, which the NOT NULL project_id column
 * refuses.
 */
module EntryRepo {
  import opened Base
  import opened Calendar
  import opened Errors
  import opened TimeEntries
  import opened Store

  datatype EntryFilter = EntryFilter(
    taskId: Id,
    projectId: Id,
    startAfter: Option<Time>,
    endBefore: Option<Time>,
    active: Option<bool>,
    limit: int,
    offset: int)

  /** The WHERE clause `List` builds; an entry still running passes any end bound. */
  predicate Matches(f: EntryFilter, e: TimeEntry)
  {
    (f.taskId == "" || e.taskId == f.taskId) &&
    (f.projectId == "" || e.projectId == f.projectId) &&
    (f.startAfter.None? || e.start >= f.startAfter.value) &&
    (f.endBefore.None? || e.end.None? || e.end.value <= f.endBefore.value) &&
    (f.active.None? || (f.active.value <==> e.end.None?))
  }

  function StartKey(e: TimeEntry): int { e.start }

  /** What a later read returns for a written entry: a non-positive duration comes back as 0. */
  function Stored(e: TimeEntry): (r: TimeEntry)
    ensures r.duration >= 0
    ensures e.duration > 0 ==> r == e
    ensures e.duration <= 0 ==> r.duration == 0
    ensures r.(duration := e.duration) == e
  {
    if e.duration > 0 then e else e.(duration := 0)
  }

  /** Writing twice stores the same thing as writing once. */
  lemma StoredIdempotent(e: TimeEntry)
    ensures Stored(Stored(e)) == Stored(e)
  {
  }

  /** Referential checks of the INSERT and UPDATE statements, in the order SQLite applies them. */
  function Check(s: Store, e: TimeEntry, context: string): (r: Option<Error>)
    ensures r.None? <==> EntryRefsOk(s, e)
  {
    if e.projectId == "" then Some(Wrapped(context, NotNullViolation("time_entries.project_id")))
    else if e.taskId !in s.tasks || e.projectId !in s.projects then Some(Wrapped(context, ForeignKeyViolation))
    else None
  }

  /** `Create`: INSERT of a fresh id whose task and (non-empty) project exist. */
  function Create(s: Store, e: TimeEntry): (r: Result<Store, Error>)
    ensures r.Ok? <==> e.id !in s.entries && EntryRefsOk(s, e)
    ensures e.projectId == "" ==> r == Err(Wrapped("failed to create time entry", NotNullViolation("time_entries.project_id")))
    ensures r.Ok? ==> GetByID(r.value, e.id) == Ok(Stored(e))
    ensures r.Ok? ==> r.value.entries.Keys == s.entries.Keys + {e.id}
    ensures r.Ok? ==> forall id :: id in s.entries ==> r.value.entries[id] == s.entries[id]
    ensures r.Ok? ==> r.value.tasks == s.tasks && r.value.projects == s.projects
  {
    var c := Check(s, e, "failed to create time entry");
    if e.projectId == "" then Err(c.value)
    else if e.id in s.entries then Err(Wrapped("failed to create time entry", UniqueViolation("time_entries.id")))
    else if c.Some? then Err(c.value)
    else Ok(s.(entries := s.entries[e.id := Stored(e)]))
  }

  /** `GetByID`: the row, or ErrTimeEntryNotFound. */
  function GetByID(s: Store, id: Id): (r: Result<TimeEntry, Error>)
    ensures r.Ok? <==> id in s.entries
    ensures r.Err? ==> r.error == TimeEntryNotFound
    ensures r.Ok? ==> r.value in s.entries.Values
  {
    if id in s.entries then Ok(s.entries[id]) else Err(TimeEntryNotFound)
  }

  /** `Update`: no matching row is ErrTimeEntryNotFound and changes nothing; created_at is kept. */
  function Update(s: Store, e: TimeEntry): (r: Result<Store, Error>)
    ensures e.id !in s.entries ==> r == Err(TimeEntryNotFound)
    ensures e.id in s.entries ==> (r.Ok? <==> EntryRefsOk(s, e))
    ensures r.Ok? ==> GetByID(r.value, e.id) == Ok(Stored(e).(createdAt := s.entries[e.id].createdAt))
    ensures r.Ok? ==> r.value.entries.Keys == s.entries.Keys
    ensures r.Ok? ==> forall id :: id in s.entries && id != e.id ==> r.value.entries[id] == s.entries[id]
    ensures r.Ok? ==> r.value.tasks == s.tasks && r.value.projects == s.projects
  {
    if e.id !in s.entries then Err(TimeEntryNotFound)
    else
      var c := Check(s, e, "failed to update time entry");
      if c.Some? then Err(c.value)
      else Ok(s.(entries := s.entries[e.id := Stored(e).(createdAt := s.entries[e.id].createdAt)]))
  }

  /** `Delete`: no matching row is ErrTimeEntryNotFound; otherwise exactly that entry goes. */
  function Delete(s: Store, id: Id): (r: Result<Store, Error>)
    ensures id !in s.entries <==> r == Err(TimeEntryNotFound)
    ensures r.Ok? ==> r.value.entries.Keys == s.entries.Keys - {id}
    ensures r.Ok? ==> forall k :: k in r.value.entries ==> r.value.entries[k] == s.entries[k]
    ensures r.Ok? ==> r.value.tasks == s.tasks && r.value.projects == s.projects
  {
    if id !in s.entries then Err(TimeEntryNotFound) else Ok(s.(entries := s.entries - {id}))
  }

  /** `List`: the matching entries, latest start first, then LIMIT/OFFSET. */
  ghost function List(s: Store, f: EntryFilter): (r: Result<seq<TimeEntry>, Error>)
    ensures r.Err? <==> f.limit <= 0 && f.offset > 0
    ensures r.Err? ==> r.error == Wrapped("failed to list time entries", SyntaxError("OFFSET"))
    ensures r.Ok? ==> forall e :: e in r.value ==> e in s.entries.Values && Matches(f, e)
    ensures r.Ok? ==> SortedDesc(r.value, StartKey)
    ensures r.Ok? && f.limit > 0 ==> |r.value| <= f.limit
    ensures r.Ok? && f.limit <= 0 ==> forall e :: e in s.entries.Values && Matches(f, e) ==> e in r.value
    ensures r.Ok? && f.limit <= 0 ==> |r.value| == |set e | e in s.entries.Values && Matches(f, e)|
  {
    var all := SortDesc((set e | e in s.entries.Values && Matches(f, e)), StartKey);
    var page := Page(all, f.limit, f.offset);
    if page.Err? then Err(Wrapped("failed to list time entries", page.error))
    else
      PageKeepsOrder(all, StartKey, f.limit, f.offset);
      Ok(page.value)
  }

  /** `GetActive`: the running entry with the latest start, or ErrNoActiveTimeEntry. */
  ghost function GetActive(s: Store): (r: Result<TimeEntry, Error>)
    ensures r.Err? <==> OpenEntries(s) == {}
    ensures r.Err? ==> r.error == NoActiveTimeEntry
    ensures r.Ok? ==> r.value in s.entries.Values && IsActive(r.value)
    ensures r.Ok? ==> forall id :: id in OpenEntries(s) ==> s.entries[id].start <= r.value.start
  {
    var open := set e | e in s.entries.Values && IsActive(e);
    var sorted := SortDesc(open, StartKey);
    if sorted == [] then
      assert forall id :: id in OpenEntries(s) ==> s.entries[id] in open;
      Err(NoActiveTimeEntry)
    else
      assert forall id :: id in OpenEntries(s) ==> s.entries[id] in sorted;
      Ok(sorted[0])
  }

  /** With exactly one running entry, `GetActive` finds that one. */
  lemma GetActiveFindsOnlyOpen(s: Store, id: Id)
    requires OpenEntries(s) == {id}
    ensures GetActive(s) == Ok(s.entries[id])
  {
    var r := GetActive(s).value;
    var k :| k in s.entries && s.entries[k] == r;
    assert k in OpenEntries(s);
  }

  lemma CreateKeepsValid(s: Store, e: TimeEntry)
    requires Valid(s) && Create(s, e).Ok?
    ensures Valid(Create(s, e).value)
  {
    var r := Create(s, e).value;
    assert r.tasks == s.tasks && r.projects == s.projects;
    forall k | k in r.tasks ensures r.tasks[k].id == k && TaskRefsOk(r, r.tasks[k]) {
      assert TaskRefsOk(s, s.tasks[k]);
    }
    forall k | k in r.projects ensures r.projects[k].id == k && NameFree(r, r.projects[k].name, k) {
      assert NameFree(s, s.projects[k].name, k);
    }
    forall k | k in r.entries
      ensures r.entries[k].id == k && EntryRefsOk(r, r.entries[k]) && r.entries[k].duration >= 0
    {
      if k == e.id {
        assert r.entries[k] == Stored(e) && EntryRefsOk(s, e);
      } else {
        assert r.entries[k] == s.entries[k] && EntryRefsOk(s, s.entries[k]);
      }
    }
  }

  lemma UpdateKeepsValid(s: Store, e: TimeEntry)
    requires Valid(s) && Update(s, e).Ok?
    ensures Valid(Update(s, e).value)
  {
    var r := Update(s, e).value;
    assert r.tasks == s.tasks && r.projects == s.projects;
    forall k | k in r.tasks ensures r.tasks[k].id == k && TaskRefsOk(r, r.tasks[k]) {
      assert TaskRefsOk(s, s.tasks[k]);
    }
    forall k | k in r.projects ensures r.projects[k].id == k && NameFree(r, r.projects[k].name, k) {
      assert NameFree(s, s.projects[k].name, k);
    }
    forall k | k in r.entries
      ensures r.entries[k].id == k && EntryRefsOk(r, r.entries[k]) && r.entries[k].duration >= 0
    {
      if k == e.id {
        assert r.entries[k] == Stored(e).(createdAt := s.entries[e.id].createdAt);
        assert EntryRefsOk(s, e);
      } else {
        assert r.entries[k] == s.entries[k] && EntryRefsOk(s, s.entries[k]);
      }
    }
  }

  lemma DeleteKeepsValid(s: Store, id: Id)
    requires Valid(s) && Delete(s, id).Ok?
    ensures Valid(Delete(s, id).value)
  {
    var r := Delete(s, id).value;
    assert r.tasks == s.tasks && r.projects == s.projects;
    forall k | k in r.tasks ensures r.tasks[k].id == k && TaskRefsOk(r, r.tasks[k]) {
      assert TaskRefsOk(s, s.tasks[k]);
    }
    forall k | k in r.projects ensures r.projects[k].id == k && NameFree(r, r.projects[k].name, k) {
      assert NameFree(s, s.projects[k].name, k);
    }
    forall k | k in r.entries
      ensures r.entries[k].id == k && EntryRefsOk(r, r.entries[k]) && r.entries[k].duration >= 0
    {
      assert r.entries[k] == s.entries[k] && EntryRefsOk(s, s.entries[k]);
    }
  }
}

=== FILE: errors.dfy ===
/**
 * The error values of internal/domain/errors.go, the storage failures the
 * repositories can surface, and Go's `fmt.Errorf("...: %w", err)` wrapping.
 */
module Errors {
  import opened Base

  datatype Error =
    | TaskNotFound
    | ProjectNotFound
    | TimeEntryNotFound
    | InvalidDueDate
    | InvalidStatus
    | InvalidPriority
    | EmptyTitle
    | EmptyName
    | DuplicateProject
    | ActiveTimeEntry
    | NoActiveTimeEntry
    | CircularDependency
    | InvalidTaskID
    | InvalidProjectID
      /** A UNIQUE or PRIMARY KEY constraint of the schema failed on `column`. */
    | UniqueViolation(column: string)
      /** A NOT NULL constraint of the schema failed on `column`. */
    | NotNullViolation(column: string)
      /** A row would reference a missing row (foreign keys are enabled). */
    | ForeignKeyViolation
      /** SQLite refused the statement text. */
    | SyntaxError(near: string)
      /** The natural-language date parser found no date in the text. */
    | DateNotRecognised(text: string)
      /** `fmt.Errorf(context + ": %w", cause)`. */
    | Wrapped(context: string, cause: Error)

  /** `err.Error()`. */
  function Message(e: Error): string
  {
    match e
    case TaskNotFound => "task not found"
    case ProjectNotFound => "project not found"
    case TimeEntryNotFound => "time entry not found"
    case InvalidDueDate => "due date cannot be in the past"
    case InvalidStatus => "invalid status"
    case InvalidPriority => "invalid priority"
    case EmptyTitle => "title cannot be empty"
    case EmptyName => "name cannot be empty"
    case DuplicateProject => "project with this name already exists"
    case ActiveTimeEntry => "there is already an active time entry"
    case NoActiveTimeEntry => "no active time entry found"
    case CircularDependency => "circular dependency detected"
    case InvalidTaskID => "invalid task ID"
    case InvalidProjectID => "invalid project ID"
    case UniqueViolation(column) => "UNIQUE constraint failed: " + column
    case NotNullViolation(column) => "NOT NULL constraint failed: " + column
    case ForeignKeyViolation => "FOREIGN KEY constraint failed"
    case SyntaxError(near) => "near \"" + near + "\": syntax error"
    case DateNotRecognised(text) => "could not parse date: " + text
    case Wrapped(context, cause) => context + ": " + Message(cause)
  }

  /** `errors.Is(e, target)`: `target` is `e` or sits at the bottom of its wrapping chain. */
  predicate Is(e: Error, target: Error)
  {
    e == target || (e.Wrapped? && Is(e.cause, target))
  }

  /** A wrapped error's text starts with its context. */
  lemma WrappedMessagePrefix(context: string, cause: Error)
    ensures Message(Wrapped(context, cause))[..|context|] == context
  {
  }
}

=== FILE: export.dfy ===
/**
 * The iCalendar part of internal/service/export/service.go: TEXT escaping
 * (section 3.3.11 of RFC 5545), the status mapping, and the calendar built
 * from a task listing. A document is modelled as its sequence of lines;
 * rendering appends CRLF to each.
 */
module Export {
  import opened Base
  import opened Calendar
  import opened Tasks

  // ---------------------------------------------------------------------
  // escapeICALText

  /** `strings.ReplaceAll` for a one-character pattern. */
  function ReplaceAll(s: string, c: char, repl: string): (r: string)
    ensures c !in s ==> r == s
    ensures forall x :: x in r ==> x in repl || (x in s && x != c)
  {
    if s == [] then []
    else (if s[0] == c then repl else [s[0]]) + ReplaceAll(s[1..], c, repl)
  }

  lemma {:induction false} ReplaceAllConcat(a: string, b: string, c: char, repl: string)
    ensures ReplaceAll(a + b, c, repl) == ReplaceAll(a, c, repl) + ReplaceAll(b, c, repl)
  {
    if a == [] {
      assert a + b == b;
    } else {
      assert (a + b)[1..] == a[1..] + b;
      ReplaceAllConcat(a[1..], b, c, repl);
    }
  }

  /**
   * `escapeICALText` as written: five replacement passes, backslash first.
   * No line break survives, so an escaped value stays on its content line.
   */
  function EscapeText(s: string): (r: string)
    ensures '\n' !in r && '\r' !in r
    ensures (forall i :: 0 <= i < |s| ==> !IsSpecial(s[i])) ==> r == s
  {
    var s1 := ReplaceAll(s, '\\', "\\\\");
    var s2 := ReplaceAll(s1, '\n', "\\n");
    var s3 := ReplaceAll(s2, '\r', "\\r");
    var s4 := ReplaceAll(s3, ',', "\\,");
    var r := ReplaceAll(s4, ';', "\\;");
    assert '\n' !in s3 && '\r' !in s3 by {
      NotIntroduced(s1, '\n', "\\n", '\n');
      NotIntroduced(s2, '\r', "\\r", '\n');
      NotIntroduced(s2, '\r', "\\r", '\r');
    }
    NotIntroduced(s3, ',', "\\,", '\n');
    NotIntroduced(s3, ',', "\\,", '\r');
    NotIntroduced(s4, ';', "\\;", '\n');
    NotIntroduced(s4, ';', "\\;", '\r');
    assert (forall i :: 0 <= i < |s| ==> !IsSpecial(s[i])) ==> r == s by {
      if forall i :: 0 <= i < |s| ==> !IsSpecial(s[i]) {
        assert '\\' !in s && '\n' !in s && '\r' !in s && ',' !in s && ';' !in s;
        assert s1 == s && s2 == s && s3 == s && s4 == s;
      }
    }
    r
  }

  /** A character the replacement does not contain is never introduced by `ReplaceAll`. */
  lemma NotIntroduced(s: string, c: char, repl: string, x: char)
    requires x !in repl && (x == c || x !in s)
    ensures x !in ReplaceAll(s, c, repl)
  {
  }

  predicate IsSpecial(c: char)
  {
    c == '\\' || c == '\n' || c == '\r' || c == ',' || c == ';'
  }

  /** What one character becomes in escaped TEXT. */
  function EscapeChar(c: char): (r: string)
    ensures IsSpecial(c) ==> |r| == 2 && r[0] == '\\'
    ensures !IsSpecial(c) ==> r == [c]
    ensures '\n' !in r && '\r' !in r
  {
    match c
    case '\\' => "\\\\"
    case '\n' => "\\n"
    case '\r' => "\\r"
    case ',' => "\\,"
    case ';' => "\\;"
    case _ => [c]
  }

  /** The reference definition: escaping character by character. */
  function Escape(s: string): (r: string)
    ensures '\n' !in r && '\r' !in r
    ensures (forall i :: 0 <= i < |s| ==> !IsSpecial(s[i])) ==> r == s
  {
    if s == [] then [] else EscapeChar(s[0]) + Escape(s[1..])
  }

  lemma ReplaceAllOne(x: char, c: char, repl: string)
    ensures ReplaceAll([x], c, repl) == if x == c then repl else [x]
  {
    assert [x][1..] == [];
  }

  /** Escaping distributes over concatenation. */
  lemma EscapeTextConcat(a: string, b: string)
    ensures EscapeText(a + b) == EscapeText(a) + EscapeText(b)
  {
    var a1, b1 := ReplaceAll(a, '\\', "\\\\"), ReplaceAll(b, '\\', "\\\\");
    ReplaceAllConcat(a, b, '\\', "\\\\");
    var a2, b2 := ReplaceAll(a1, '\n', "\\n"), ReplaceAll(b1, '\n', "\\n");
    ReplaceAllConcat(a1, b1, '\n', "\\n");
    var a3, b3 := ReplaceAll(a2, '\r', "\\r"), ReplaceAll(b2, '\r', "\\r");
    ReplaceAllConcat(a2, b2, '\r', "\\r");
    var a4, b4 := ReplaceAll(a3, ',', "\\,"), ReplaceAll(b3, ',', "\\,");
    ReplaceAllConcat(a3, b3, ',', "\\,");
    ReplaceAllConcat(a4, b4, ';', "\\;");
  }

  /** On one character the five passes give that character's escape. */
  lemma EscapeTextChar(x: char)
    ensures EscapeText([x]) == EscapeChar(x)
  {
    ReplaceAllOne(x, '\\', "\\\\");
    if x != '\\' {
      ReplaceAllOne(x, '\n', "\\n");
      if x != '\n' {
        ReplaceAllOne(x, '\r', "\\r");
        if x != '\r' {
          ReplaceAllOne(x, ',', "\\,");
          if x != ',' {
            ReplaceAllOne(x, ';', "\\;");
          }
        }
      }
    }
  }

  /** The five passes amount to one per-character escape. */
  lemma {:induction false} EscapeTextIsPerCharacter(s: string)
    ensures EscapeText(s) == Escape(s)
  {
    if s != [] {
      assert s == [s[0]] + s[1..];
      EscapeTextConcat([s[0]], s[1..]);
      EscapeTextChar(s[0]);
      EscapeTextIsPerCharacter(s[1..]);
    }
  }

  /** Reads escaped TEXT back. */
  function Unescape(s: string): string
  {
    if s == [] then []
    else if s[0] == '\\' && |s| >= 2 then
      var c := match s[1] case 'n' => '\n' case 'r' => '\r' case _ => s[1];
      [c] + Unescape(s[2..])
    else [s[0]] + Unescape(s[1..])
  }

  lemma {:induction false} UnescapeEscape(s: string)
    ensures Unescape(Escape(s)) == s
  {
    if s != [] {
      var e := EscapeChar(s[0]);
      var rest := Escape(s[1..]);
      assert Escape(s) == e + rest;
      if IsSpecial(s[0]) {
        assert (e + rest)[2..] == rest;
      } else {
        assert (e + rest)[1..] == rest;
      }
      UnescapeEscape(s[1..]);
    }
  }

  /** Escaping is injective: different texts never escape alike. */
  lemma EscapeTextInjective(a: string, b: string)
    requires EscapeText(a) == EscapeText(b)
    ensures a == b
  {
    EscapeTextIsPerCharacter(a);
    EscapeTextIsPerCharacter(b);
    UnescapeEscape(a);
    UnescapeEscape(b);
  }

  /** Unescaping recovers the text from the chained replacements of the source. */
  lemma EscapeTextRoundTrip(s: string)
    ensures Unescape(EscapeText(s)) == s
  {
    EscapeTextIsPerCharacter(s);
    UnescapeEscape(s);
  }

  // ---------------------------------------------------------------------
  // mapTaskStatusToICAL

  function StatusToICal(st: TaskStatus): (r: string)
    ensures r == "COMPLETED" <==> st == Done
    ensures r == "IN-PROCESS" <==> st == Doing
    ensures r == "CANCELLED" <==> st == Blocked
    ensures r == "NEEDS-ACTION" <==> st == Todo || st == Backlog
  {
    match st
    case Done => "COMPLETED"
    case Doing => "IN-PROCESS"
    case Blocked => "CANCELLED"
    case _ => "NEEDS-ACTION"
  }

  // ---------------------------------------------------------------------
  // ExportTasksToICAL

  const Header: seq<string> := ["BEGIN:VCALENDAR", "VERSION:2.0",
    "PRODID:-//Project Manager CLI//NONSGML v1.0//EN", "CALSCALE:GREGORIAN"]
  const Footer: string := "END:VCALENDAR"
  const BeginEvent: string := "BEGIN:VEVENT"

  /** The VEVENT lines for one task with a due date; `stamp` is the export time. */
  function EventLines(t: Task, stamp: Time): (r: seq<string>)
    requires t.dueDate.Some?
    ensures |r| == (if t.description == "" then 7 else 8)
    ensures r[0] == BeginEvent && r[|r| - 1] == "END:VEVENT"
    ensures r[1] == "UID:" + t.id + "@pm-cli"
    ensures r[2] == "DTSTAMP:" + FormatStamp(stamp) && r[3] == "DTSTART:" + FormatStamp(t.dueDate.value)
    ensures r[|r| - 2] == "STATUS:" + StatusToICal(t.status)
    ensures forall i :: 1 <= i < |r| ==> r[i] != BeginEvent
  {
    EventLinesWith(t, FormatStamp(stamp), FormatStamp(t.dueDate.value))
  }

  /** A content line `prefix` + `value`; a prefix not starting with 'B' never yields BEGIN:VEVENT. */
  function Field(prefix: string, value: string): (r: string)
    requires |prefix| > 0 && prefix[0] != 'B'
    ensures r != BeginEvent
  {
    var r := prefix + value;
    assert r[0] == prefix[0] && BeginEvent[0] == 'B';
    r
  }

  /** A VEVENT block around the given content lines, none of which opens an event. */
  function Block(head: seq<string>, desc: seq<string>, status: string): (r: seq<string>)
    requires |head| == 4 && |desc| <= 1 && status != BeginEvent
    requires forall i :: 0 <= i < |head| ==> head[i] != BeginEvent
    requires forall i :: 0 <= i < |desc| ==> desc[i] != BeginEvent
    ensures |r| == 7 + |desc| && r[0] == BeginEvent && r[|r| - 1] == "END:VEVENT"
    ensures r[1..5] == head
    ensures forall i :: 1 <= i < |r| ==> r[i] != BeginEvent
  {
    assert "END:VEVENT" != BeginEvent by { assert "END:VEVENT"[0] != BeginEvent[0]; }
    [BeginEvent] + head + desc + [status, "END:VEVENT"]
  }

  /**
   * The VEVENT lines, given the two date-times already formatted. The text
   * fields go through the per-character `Escape`, which
   * `EscapeTextIsPerCharacter` shows equal to the chained replacements.
   */
  function EventLinesWith(t: Task, dtstamp: string, dtstart: string): (r: seq<string>)
    ensures |r| == (if t.description == "" then 7 else 8)
    ensures r[0] == BeginEvent && r[|r| - 1] == "END:VEVENT"
    ensures r[1] == "UID:" + t.id + "@pm-cli" && r[4] == "SUMMARY:" + Escape(t.title)
    ensures r[2] == "DTSTAMP:" + dtstamp && r[3] == "DTSTART:" + dtstart
    ensures t.description != "" ==> r[5] == "DESCRIPTION:" + Escape(t.description)
    ensures r[|r| - 2] == "STATUS:" + StatusToICal(t.status)
    ensures forall i :: 1 <= i < |r| ==> r[i] != BeginEvent
  {
    var uid := Field("UID:", t.id + "@pm-cli");
    assert uid == "UID:" + t.id + "@pm-cli";
    var head := [uid, Field("DTSTAMP:", dtstamp), Field("DTSTART:", dtstart), Field("SUMMARY:", Escape(t.title))];
    var desc := if t.description != "" then [Field("DESCRIPTION:", Escape(t.description))] else [];
    var r := Block(head, desc, Field("STATUS:", StatusToICal(t.status)));
    assert r[1] == head[0] && r[2] == head[1] && r[3] == head[2] && r[4] == head[3];
    r
  }

  /** The SUMMARY line is the title under the chained replacements of the source. */
  lemma EventSummaryEscaped(t: Task, dtstamp: string, dtstart: string)
    ensures EventLinesWith(t, dtstamp, dtstart)[4] == "SUMMARY:" + EscapeText(t.title)
  {
    EscapeTextIsPerCharacter(t.title);
  }

  /**
   * The events of a task listing, in listing order; tasks without a due date
   * are skipped. One `stamp` serves every event, where the exporter reads the
   * clock again for each event's DTSTAMP.
   */
  function Events(tasks: seq<Task>, stamp: Time): (r: seq<string>)
    ensures r == [] <==> forall i :: 0 <= i < |tasks| ==> tasks[i].dueDate.None?
    ensures r != [] ==> r[0] == BeginEvent && r[|r| - 1] == "END:VEVENT"
  {
    if tasks == [] then []
    else
      var t := tasks[|tasks| - 1];
      Events(tasks[..|tasks| - 1], stamp) + (if t.dueDate.Some? then EventLines(t, stamp) else [])
  }

  /** The calendar document for a task listing. */
  function CalendarLines(tasks: seq<Task>, stamp: Time): (r: seq<string>)
    ensures |r| >= 5 && r[..4] == Header && r[|r| - 1] == Footer
  {
    Header + Events(tasks, stamp) + [Footer]
  }

  /** The tasks of a listing that have a due date, in order. */
  function WithDueDate(tasks: seq<Task>): (r: seq<Task>)
    ensures |r| <= |tasks|
    ensures forall t :: t in r ==> t in tasks && t.dueDate.Some?
    ensures forall t :: t in tasks && t.dueDate.Some? ==> t in r
  {
    if tasks == [] then []
    else
      var t := tasks[|tasks| - 1];
      WithDueDate(tasks[..|tasks| - 1]) + (if t.dueDate.Some? then [t] else [])
  }

  /** The number of lines equal to `line`. */
  function CountLine(lines: seq<string>, line: string): nat
  {
    if lines == [] then 0 else CountLine(lines[..|lines| - 1], line) + (if lines[|lines| - 1] == line then 1 else 0)
  }

  lemma {:induction false} CountLineConcat(a: seq<string>, b: seq<string>, line: string)
    ensures CountLine(a + b, line) == CountLine(a, line) + CountLine(b, line)
  {
    if b != [] {
      assert (a + b)[..|a + b| - 1] == a + b[..|b| - 1];
      CountLineConcat(a, b[..|b| - 1], line);
    } else {
      assert a + b == a;
    }
  }

  lemma CountAbsent(lines: seq<string>, line: string)
    requires line !in lines
    ensures CountLine(lines, line) == 0
  {
  }

  lemma {:induction false} CountTail(r: seq<string>, line: string)
    requires |r| >= 1 && r[0] == line
    requires forall i :: 1 <= i < |r| ==> r[i] != line
    ensures CountLine(r, line) == 1
  {
    if |r| == 1 {
      assert r[..0] == [];
    } else {
      CountTail(r[..|r| - 1], line);
    }
  }

  /** Only the first line of an event opens one. */
  lemma EventOpensOnce(t: Task, dtstamp: string, dtstart: string)
    ensures CountLine(EventLinesWith(t, dtstamp, dtstart), BeginEvent) == 1
  {
    CountTail(EventLinesWith(t, dtstamp, dtstart), BeginEvent);
  }

  /** Exactly one VEVENT per task that has a due date. */
  lemma {:induction false} OneEventPerDueTask(tasks: seq<Task>, stamp: Time)
    ensures CountLine(Events(tasks, stamp), BeginEvent) == |WithDueDate(tasks)|
  {
    if tasks != [] {
      var t := tasks[|tasks| - 1];
      var init := tasks[..|tasks| - 1];
      OneEventPerDueTask(init, stamp);
      var tail := if t.dueDate.Some? then EventLines(t, stamp) else [];
      CountLineConcat(Events(init, stamp), tail, BeginEvent);
      if t.dueDate.Some? {
        EventOpensOnce(t, FormatStamp(stamp), FormatStamp(t.dueDate.value));
      } else {
        assert CountLine(tail, BeginEvent) == 0;
      }
    }
  }

  /** The header opens no event, so the whole document holds one VEVENT per dated task. */
  lemma CalendarEventCount(tasks: seq<Task>, stamp: Time)
    ensures CountLine(CalendarLines(tasks, stamp), BeginEvent) == |WithDueDate(tasks)|
  {
    CountLineConcat(Header, Events(tasks, stamp), BeginEvent);
    CountLineConcat(Header + Events(tasks, stamp), [Footer], BeginEvent);
    OneEventPerDueTask(tasks, stamp);
    CountAbsent(Header, BeginEvent);
    CountAbsent([Footer], BeginEvent);
  }

  /** Events depend only on the dated tasks, in their order. */
  lemma {:induction false} EventsOfDatedTasks(tasks: seq<Task>, stamp: Time)
    ensures Events(tasks, stamp) == Events(WithDueDate(tasks), stamp)
  {
    if tasks != [] {
      var t := tasks[|tasks| - 1];
      var init := tasks[..|tasks| - 1];
      EventsOfDatedTasks(init, stamp);
      var w := WithDueDate(init);
      if t.dueDate.Some? {
        assert (w + [t])[..|w + [t]| - 1] == w;
      } else {
        assert WithDueDate(tasks) == w;
      }
    }
  }
}

=== FILE: messages.dfy ===
/**
 * The vocabulary of the interactive controller (internal/ui/models): the
 * views, key events, the messages the Bubble Tea runtime delivers, and the
 * commands a reducer hands back, as closed datatypes. A command is data
 * here; running it is the job of the `Effects` module.
 */
module Messages {
  import opened Base
  import opened Tasks
  import opened Projects
  import opened TimeEntries

  /** app.go `ViewState`. */
  datatype ViewState =
    | TaskListView
    | TaskDetailView
    | TaskFormView
    | ProjectListView
    | ProjectFormView
    | TimeTrackingView
    | DashboardView
    | HelpView

  /** A key event: typed characters, or a named key such as "enter" or "ctrl+s". */
  datatype Key = Runes(text: string) | Special(name: string)

  /** `tea.KeyMsg.String()`: typed characters read as themselves. */
  function KeyString(k: Key): string
  {
    match k
    case Runes(text) => text
    case Special(name) => name
  }

  /** A key binding: the key strings it answers to. */
  type Binding = set<string>

  /** `key.Matches`. */
  predicate Matches(k: Key, b: Binding)
  {
    KeyString(k) in b
  }

  // The bindings of the views (each view's key map lists the same strings).
  const UpKeys: Binding := {"up", "k"}
  const DownKeys: Binding := {"down", "j"}
  const EnterKeys: Binding := {"enter"}
  const BackKeys: Binding := {"esc"}
  const QuitKeys: Binding := {"q", "ctrl+c"}
  const HelpKeys: Binding := {"?"}
  const RefreshKeys: Binding := {"r"}
  const NewKeys: Binding := {"n"}
  const EditKeys: Binding := {"e"}
  const DeleteKeys: Binding := {"d"}
  const ToggleKeys: Binding := {"t"}
  const SubmitKeys: Binding := {"ctrl+s"}
  const NextKeys: Binding := {"tab"}
  const PrevKeys: Binding := {"shift+tab"}

  /** `TaskActionMsg`: the action names with the task each carries ("new" carries none). */
  datatype TaskAction =
    | SelectTask(task: Task)
    | NewTaskAction
    | EditTask(task: Task)
    | DeleteTask(task: Task)
    | UpdateTask(task: Task)

  /** `ProjectActionMsg`. */
  datatype ProjectAction =
    | SelectProject(project: Project)
    | NewProjectAction
    | EditProject(project: Project)

  datatype Msg =
    | KeyMsg(key: Key)
    | WindowSizeMsg(width: int, height: int)
    | ErrorMsg(text: string)
    | SuccessMsg(text: string)
    | ActiveTimeEntryMsg(entry: Option<TimeEntry>)
    | DashboardActionMsg(action: string)
    | TaskActionMsg(taskAction: TaskAction)
    | TaskListLoadedMsg(tasks: seq<Task>)
    | TaskFormSubmitMsg(submitted: Task)
    | TaskFormCancelMsg
    | ProjectListLoadedMsg(projects: seq<Project>)
    | ProjectActionMsg(projectAction: ProjectAction)

  /** The commands reducers return; `Emit` is a command that just yields a message. */
  datatype Effect =
    | LoadTasks
    | LoadTasksForProject(projectId: Id)
    | LoadProjects
    | SaveTask(task: Task)
    | DeleteTaskFx(task: Task)
    | Emit(msg: Msg)
    | Quit

  /** `loadInitialData`: tasks and projects, in a batch. */
  const LoadInitialData: seq<Effect> := [LoadTasks, LoadProjects]

  /** What a reducer hands back from one message. */
  datatype Step<M> = Step(model: M, effects: seq<Effect>)

  /** The clock and the identifier source a reducer may consult. */
  datatype Env = Env(now: int, freshId: Id)

  /**
   * Where a list view's selection ends up after a new list arrives: a
   * selection past the end moves to the last item, any other stays.
   */
  function Clamp<T>(selected: nat, items: seq<T>): (r: nat)
    ensures |items| > 0 ==> r < |items|
    ensures |items| == 0 || selected < |items| ==> r == selected
    ensures r != selected ==> selected >= |items| > 0 && r == |items| - 1
  {
    if selected >= |items| && |items| > 0 then |items| - 1 else selected
  }
}

=== FILE: notes.dfy ===
/**
 * `extractFrontmatter` of internal/notes/reader.go: the scan for the YAML
 * block between two `---` delimiter lines at the top of a note. The YAML
 * decoder itself is a parameter.
 */
module Notes {
  import opened Base
  import opened Text

  /** What the YAML decoder yields; `links` is None when the key is absent (a nil slice). */
  datatype RawFrontmatter = RawFrontmatter(id: string, created: string, links: Option<seq<string>>)

  type YamlDecoder = string -> Option<RawFrontmatter>

  datatype Frontmatter = Frontmatter(id: string, created: string, links: seq<string>)

  datatype NoteError = NoFrontmatter | NoClosingDelimiter | BadYaml

  function NoteErrorMessage(e: NoteError): string
  {
    match e
    case NoFrontmatter => "note does not contain frontmatter"
    case NoClosingDelimiter => "frontmatter closing delimiter not found"
    case BadYaml => "failed to parse YAML frontmatter"
  }

  const Delimiter: string := "---"

  /** The first line at index `from` or later that is exactly the delimiter. */
  function ClosingIndex(lines: seq<string>, from: nat): (r: Option<nat>)
    requires from <= |lines|
    ensures r.Some? ==> from <= r.value < |lines| && lines[r.value] == Delimiter
    ensures r.Some? ==> forall k :: from <= k < r.value ==> lines[k] != Delimiter
    ensures r.None? ==> forall k :: from <= k < |lines| ==> lines[k] != Delimiter
    decreases |lines| - from
  {
    if from == |lines| then None
    else if lines[from] == Delimiter then Some(from)
    else ClosingIndex(lines, from + 1)
  }

  /** The frontmatter text: the lines strictly between the opening and the first closing delimiter. */
  function FrontmatterText(content: string): (r: Result<string, NoteError>)
    ensures !HasPrefix(content, "---\n") ==> r == Err(NoFrontmatter)
    ensures r.Err? && HasPrefix(content, "---\n") ==> r.error == NoClosingDelimiter
    ensures r.Err? && HasPrefix(content, "---\n") ==>
      forall k :: 1 <= k < |Split(content, '\n')| ==> Split(content, '\n')[k] != Delimiter
  {
    if !HasPrefix(content, "---\n") then Err(NoFrontmatter)
    else
      var lines := Split(content, '\n');
      if |lines| < 1 then Err(NoClosingDelimiter)
      else match ClosingIndex(lines, 1)
        case None => Err(NoClosingDelimiter)
        case Some(end) => Ok(Join(lines[1..end], "\n"))
  }

  /** `extractFrontmatter`: the delimiter scan, the decoder, and an empty list for missing links. */
  function ExtractFrontmatter(content: string, decode: YamlDecoder): (r: Result<Frontmatter, NoteError>)
    ensures FrontmatterText(content).Err? ==> r == Err(FrontmatterText(content).error)
    ensures FrontmatterText(content).Ok? ==>
      (r.Ok? <==> decode(FrontmatterText(content).value).Some?)
    ensures r.Ok? ==> var raw := decode(FrontmatterText(content).value).value;
      r.value.id == raw.id && r.value.created == raw.created &&
      r.value.links == (if raw.links.Some? then raw.links.value else [])
  {
    match FrontmatterText(content)
    case Err(e) => Err(e)
    case Ok(text) =>
      match decode(text)
      case None => Err(BadYaml)
      case Some(raw) => Ok(Frontmatter(raw.id, raw.created, if raw.links.Some? then raw.links.value else []))
  }

  lemma DelimiterLineSplits(tail: string)
    requires tail == [] || tail[0] == '\n'
    ensures Split(Delimiter + tail, '\n')[0] == Delimiter
  {
    if tail == [] {
      assert Delimiter + tail == Delimiter;
      SplitNoSeparator(Delimiter, '\n');
    } else {
      assert Delimiter + tail == Delimiter + ['\n'] + tail[1..];
      SplitAround(Delimiter, '\n', tail[1..]);
      SplitNoSeparator(Delimiter, '\n');
    }
  }

  lemma {:induction false} ClosingAt(lines: seq<string>, from: nat, i: nat)
    requires from <= i < |lines| && lines[i] == Delimiter
    requires forall k :: from <= k < i ==> lines[k] != Delimiter
    ensures ClosingIndex(lines, from) == Some(i)
    decreases i - from
  {
    if from < i {
      ClosingAt(lines, from + 1, i);
    }
  }

  lemma SplitFramed(body: string, after: string)
    ensures Split("---\n" + body + "\n" + after, '\n') == [Delimiter] + Split(body, '\n') + Split(after, '\n')
  {
    var rest := body + ['\n'] + after;
    assert "---\n" == Delimiter + ['\n'] && "\n" == ['\n'];
    assert "---\n" + body + "\n" + after == Delimiter + ['\n'] + rest;
    SplitAround(Delimiter, '\n', rest);
    SplitAround(body, '\n', after);
    SplitNoSeparator(Delimiter, '\n');
  }

  /**
   * Round trip: a body none of whose lines is a delimiter, framed by
   * delimiter lines, comes back unchanged, whatever follows the frame.
   */
  lemma FrontmatterRoundTrip(body: string, tail: string)
    requires forall k :: 0 <= k < |Split(body, '\n')| ==> Split(body, '\n')[k] != Delimiter
    requires tail == [] || tail[0] == '\n'
    ensures FrontmatterText("---\n" + body + "\n" + Delimiter + tail) == Ok(body)
  {
    var after := Delimiter + tail;
    var content := "---\n" + body + "\n" + after;
    assert content == "---\n" + body + "\n" + Delimiter + tail;
    SplitFramed(body, after);
    DelimiterLineSplits(tail);
    var sb := Split(body, '\n');
    var lines := Split(content, '\n');
    assert lines[1 + |sb|] == Delimiter;
    assert lines[1..1 + |sb|] == sb;
    ClosingAt(lines, 1, 1 + |sb|);
    JoinSplit(body, '\n');
    assert content[..4] == "---\n";
  }

  /** A note written with CRLF line endings is taken to have no frontmatter. */
  lemma CrlfIsRejected(rest: string)
    ensures FrontmatterText("---\r\n" + rest) == Err(NoFrontmatter)
  {
    assert ("---\r\n" + rest)[3] == '\r';
  }

  /** A closing delimiter must sit on a later line than the opening one. */
  lemma OpeningIsNotClosing()
    ensures FrontmatterText("---\n") == Err(NoClosingDelimiter)
  {
    var lines := Split("---\n", '\n');
    SplitAround(Delimiter, '\n', []);
    SplitNoSeparator(Delimiter, '\n');
    assert "---\n" == Delimiter + ['\n'] + [];
    assert lines == [Delimiter, []];
  }
}

=== FILE: project_list.dfy ===
/**
 * internal/ui/models/project_list.go: the project list view's reducer.
 * `d` is bound in the key map but has no handler.
 */
module ProjectList {
  import opened Projects
  import opened Messages

  datatype ProjectListModel = ProjectListModel(projects: seq<Project>, selected: nat, loading: bool)

  const Initial: ProjectListModel := ProjectListModel([], 0, false)

  predicate Inv(m: ProjectListModel)
  {
    |m.projects| > 0 ==> m.selected < |m.projects|
  }

  /** `LoadProjects`: the same clamp as the loaded message. */
  function LoadProjects(m: ProjectListModel, projects: seq<Project>): (r: ProjectListModel)
    ensures r.projects == projects && Inv(r)
    ensures |projects| == 0 ==> r.selected == m.selected
  {
    m.(projects := projects, selected := Clamp(m.selected, projects))
  }

  function Act(a: ProjectAction): seq<Effect>
  {
    [Emit(ProjectActionMsg(a))]
  }

  /** `ProjectListModel.Update`. */
  function Update(m: ProjectListModel, msg: Msg): (r: Step<ProjectListModel>)
    ensures Inv(m) ==> Inv(r.model)
    ensures !msg.ProjectListLoadedMsg? ==> r.model.projects == m.projects
  {
    match msg
    case KeyMsg(k) =>
      if |m.projects| == 0 then
        if Matches(k, NewKeys) then Step(m, Act(NewProjectAction)) else Step(m, [])
      else if Matches(k, UpKeys) then
        Step(if m.selected > 0 then m.(selected := m.selected - 1) else m, [])
      else if Matches(k, DownKeys) then
        Step(if m.selected < |m.projects| - 1 then m.(selected := m.selected + 1) else m, [])
      else if Matches(k, EnterKeys) then
        if m.selected < |m.projects| then Step(m, Act(SelectProject(m.projects[m.selected]))) else Step(m, [])
      else if Matches(k, NewKeys) then
        Step(m, Act(NewProjectAction))
      else if Matches(k, EditKeys) then
        if m.selected < |m.projects| then Step(m, Act(EditProject(m.projects[m.selected]))) else Step(m, [])
      else Step(m, [])
    case ProjectListLoadedMsg(projects) =>
      Step(m.(projects := projects, loading := false, selected := Clamp(m.selected, projects)), [])
    case _ => Step(m, [])
  }

  /** With nothing listed, `n` asks for a new project and every other key does nothing. */
  lemma EmptyListOnlyNew(m: ProjectListModel, k: Key)
    requires |m.projects| == 0
    ensures Matches(k, NewKeys) ==> Update(m, KeyMsg(k)) == Step(m, [Emit(ProjectActionMsg(NewProjectAction))])
    ensures !Matches(k, NewKeys) ==> Update(m, KeyMsg(k)) == Step(m, [])
  {
  }

  /** Up and down move by one and stop at the ends. */
  lemma NavigationClamps(m: ProjectListModel)
    requires Inv(m) && |m.projects| > 0
    ensures Update(m, KeyMsg(Runes("k"))).model.selected == if m.selected == 0 then 0 else m.selected - 1
    ensures Update(m, KeyMsg(Runes("j"))).model.selected ==
      if m.selected == |m.projects| - 1 then m.selected else m.selected + 1
  {
  }

  /** Enter and `e` hand the selected project to the controller; `d` does nothing. */
  lemma ActionsCarrySelection(m: ProjectListModel)
    requires Inv(m) && |m.projects| > 0
    ensures Update(m, KeyMsg(Special("enter"))) == Step(m, [Emit(ProjectActionMsg(SelectProject(m.projects[m.selected])))])
    ensures Update(m, KeyMsg(Runes("e"))) == Step(m, [Emit(ProjectActionMsg(EditProject(m.projects[m.selected])))])
    ensures Update(m, KeyMsg(Runes("d"))) == Step(m, [])
  {
  }

  /** Loading twice, as the controller does, is loading once. */
  lemma LoadAfterLoadedMessage(m: ProjectListModel, projects: seq<Project>)
    ensures var r := Update(m, ProjectListLoadedMsg(projects)).model;
      LoadProjects(r, projects) == r && r == LoadProjects(m, projects).(loading := false)
  {
  }
}

=== FILE: project_repo.dfy ===
/**
 * internal/repository/sqlite/project_repository.go over the abstract store.
 * Any "UNIQUE constraint failed" report (a reused id or a taken name) is
 * turned into ErrDuplicateProject.
 */
module ProjectRepo {
  import opened Base
  import opened Text
  import opened Errors
  import opened Tasks
  import opened Projects
  import opened TimeEntries
  import opened Store

  datatype ProjectFilter = ProjectFilter(
    status: seq<ProjectStatus>,
    search: string,
    limit: int,
    offset: int)

  /** The WHERE clause `List` builds. */
  predicate Matches(f: ProjectFilter, p: Project)
  {
    (|f.status| == 0 || p.status in f.status) &&
    (f.search == "" || SearchMatches(f.search, p.name) || SearchMatches(f.search, p.description))
  }

  function CreatedKey(p: Project): int { p.createdAt }

  /** `Create`: INSERT; a reused id or a taken name violates a UNIQUE constraint. */
  function Create(s: Store, p: Project): (r: Result<Store, Error>)
    ensures r.Ok? <==> p.id !in s.projects && NameFree(s, p.name, p.id)
    ensures r.Err? ==> r.error == DuplicateProject
    ensures r.Ok? ==> GetByID(r.value, p.id) == Ok(p)
    ensures r.Ok? ==> r.value.projects.Keys == s.projects.Keys + {p.id}
    ensures r.Ok? ==> forall id :: id in s.projects ==> r.value.projects[id] == s.projects[id]
    ensures r.Ok? ==> r.value.tasks == s.tasks && r.value.entries == s.entries
  {
    if p.id in s.projects || !NameFree(s, p.name, p.id) then Err(DuplicateProject)
    else Ok(s.(projects := s.projects[p.id := p]))
  }

  /** `GetByID`: the row, or ErrProjectNotFound. */
  function GetByID(s: Store, id: Id): (r: Result<Project, Error>)
    ensures r.Ok? <==> id in s.projects
    ensures r.Err? ==> r.error == ProjectNotFound
    ensures r.Ok? ==> r.value in s.projects.Values
  {
    if id in s.projects then Ok(s.projects[id]) else Err(ProjectNotFound)
  }

  /** `GetByName`: the project with exactly this name, or ErrProjectNotFound. */
  ghost function GetByName(s: Store, name: string): (r: Result<Project, Error>)
    ensures r.Ok? <==> exists id :: id in s.projects && s.projects[id].name == name
    ensures r.Err? ==> r.error == ProjectNotFound
    ensures r.Ok? ==> r.value in s.projects.Values && r.value.name == name
  {
    if exists id :: id in s.projects && s.projects[id].name == name then
      var id :| id in s.projects && s.projects[id].name == name;
      Ok(s.projects[id])
    else Err(ProjectNotFound)
  }

  /** In a valid store the name lookup is exact: it finds the one project holding that name. */
  lemma GetByNameFindsHolder(s: Store, id: Id)
    requires Valid(s) && id in s.projects
    ensures GetByName(s, s.projects[id].name) == Ok(s.projects[id])
  {
  }

  /**
   * `Update`: no matching row is ErrProjectNotFound; a name held by another
   * project is ErrDuplicateProject. created_at is not rewritten.
   */
  function Update(s: Store, p: Project): (r: Result<Store, Error>)
    ensures p.id !in s.projects ==> r == Err(ProjectNotFound)
    ensures p.id in s.projects ==> (r.Err? <==> !NameFree(s, p.name, p.id))
    ensures r.Err? && p.id in s.projects ==> r.error == DuplicateProject
    ensures r.Ok? ==> GetByID(r.value, p.id) == Ok(p.(createdAt := s.projects[p.id].createdAt))
    ensures r.Ok? ==> r.value.projects.Keys == s.projects.Keys
    ensures r.Ok? ==> forall id :: id in s.projects && id != p.id ==> r.value.projects[id] == s.projects[id]
    ensures r.Ok? ==> r.value.tasks == s.tasks && r.value.entries == s.entries
  {
    if p.id !in s.projects then Err(ProjectNotFound)
    else if !NameFree(s, p.name, p.id) then Err(DuplicateProject)
    else Ok(s.(projects := s.projects[p.id := p.(createdAt := s.projects[p.id].createdAt)]))
  }

  /** The tasks that belong to project `id` directly. */
  function TasksOf(s: Store, id: Id): (r: set<Id>)
    ensures r <= s.tasks.Keys
    ensures forall k :: k in r <==> k in s.tasks && s.tasks[k].projectId == id
  {
    set k | k in s.tasks && s.tasks[k].projectId == id
  }

  /**
   * `Delete`: no matching row is ErrProjectNotFound. Otherwise the cascade
   * removes the project's tasks, their subtasks through parent_id (whatever
   * project those belong to), the entries of every removed task, and the
   * entries filed under the project.
   */
  function Delete(s: Store, id: Id): (r: Result<Store, Error>)
    ensures id !in s.projects <==> r == Err(ProjectNotFound)
    ensures r.Ok? ==> r.value.projects.Keys == s.projects.Keys - {id}
    ensures r.Ok? ==> forall k :: k in r.value.tasks ==> r.value.tasks[k].projectId != id
    ensures r.Ok? ==> forall k :: k in r.value.entries ==> r.value.entries[k].projectId != id
    ensures r.Ok? ==> forall k :: k in r.value.tasks ==> k in s.tasks && r.value.tasks[k] == s.tasks[k]
    ensures r.Ok? ==> forall k :: k in r.value.projects ==> r.value.projects[k] == s.projects[k]
    ensures r.Ok? ==> forall k :: k in r.value.entries ==> k in s.entries && r.value.entries[k] == s.entries[k]
    ensures r.Ok? ==> forall k :: k in r.value.entries <==>
      k in s.entries && s.entries[k].projectId != id &&
      (s.entries[k].taskId in r.value.tasks || s.entries[k].taskId !in s.tasks)
  {
    if id !in s.projects then Err(ProjectNotFound)
    else
      var gone := Descendants(s.tasks, TasksOf(s, id));
      var s' := RemoveTasks(s, gone);
      Ok(s'.(projects := s'.projects - {id},
             entries := map k | k in s'.entries && s'.entries[k].projectId != id :: s'.entries[k]))
  }

  /** `List`: the matching projects, newest first, then LIMIT/OFFSET. */
  ghost function List(s: Store, f: ProjectFilter): (r: Result<seq<Project>, Error>)
    ensures r.Err? <==> f.limit <= 0 && f.offset > 0
    ensures r.Err? ==> r.error == Wrapped("failed to list projects", SyntaxError("OFFSET"))
    ensures r.Ok? ==> forall p :: p in r.value ==> p in s.projects.Values && Matches(f, p)
    ensures r.Ok? ==> SortedDesc(r.value, CreatedKey)
    ensures r.Ok? && f.limit > 0 ==> |r.value| <= f.limit
    ensures r.Ok? && f.limit <= 0 ==> forall p :: p in s.projects.Values && Matches(f, p) ==> p in r.value
  {
    var all := SortDesc((set p | p in s.projects.Values && Matches(f, p)), CreatedKey);
    var page := Page(all, f.limit, f.offset);
    if page.Err? then Err(Wrapped("failed to list projects", page.error))
    else
      PageKeepsOrder(all, CreatedKey, f.limit, f.offset);
      Ok(page.value)
  }

  lemma CreateKeepsValid(s: Store, p: Project)
    requires Valid(s) && Create(s, p).Ok?
    ensures Valid(Create(s, p).value)
  {
    var r := Create(s, p).value;
    var stored := p;
    assert r == s.(projects := s.projects[p.id := stored]);
    forall k | k in r.tasks ensures r.tasks[k].id == k && TaskRefsOk(r, r.tasks[k]) {
      assert TaskRefsOk(s, s.tasks[k]);
    }
    forall k | k in r.projects ensures r.projects[k].id == k && NameFree(r, r.projects[k].name, k) {
      if k == p.id {
        forall o | o in r.projects && o != k ensures r.projects[o].name != p.name {
          assert r.projects[o] == s.projects[o];
        }
      } else {
        forall o | o in r.projects && o != k ensures r.projects[o].name != r.projects[k].name {
          if o == p.id {
            assert s.projects[k].name != p.name;
          } else {
            assert NameFree(s, s.projects[k].name, k) && r.projects[o] == s.projects[o];
          }
        }
      }
    }
    forall k | k in r.entries
      ensures r.entries[k].id == k && EntryRefsOk(r, r.entries[k]) && r.entries[k].duration >= 0
    {
      assert r.entries[k] == s.entries[k] && EntryRefsOk(s, s.entries[k]);
    }
  }

  lemma UpdateKeepsValid(s: Store, p: Project)
    requires Valid(s) && Update(s, p).Ok?
    ensures Valid(Update(s, p).value)
  {
    var r := Update(s, p).value;
    var stored := p.(createdAt := s.projects[p.id].createdAt);
    assert r == s.(projects := s.projects[p.id := stored]);
    forall k | k in r.tasks ensures r.tasks[k].id == k && TaskRefsOk(r, r.tasks[k]) {
      assert TaskRefsOk(s, s.tasks[k]);
    }
    forall k | k in r.projects ensures r.projects[k].id == k && NameFree(r, r.projects[k].name, k) {
      if k == p.id {
        forall o | o in r.projects && o != k ensures r.projects[o].name != p.name {
          assert r.projects[o] == s.projects[o];
        }
      } else {
        forall o | o in r.projects && o != k ensures r.projects[o].name != r.projects[k].name {
          if o == p.id {
            assert s.projects[k].name != p.name;
          } else {
            assert NameFree(s, s.projects[k].name, k) && r.projects[o] == s.projects[o];
          }
        }
      }
    }
    forall k | k in r.entries
      ensures r.entries[k].id == k && EntryRefsOk(r, r.entries[k]) && r.entries[k].duration >= 0
    {
      assert r.entries[k] == s.entries[k] && EntryRefsOk(s, s.entries[k]);
    }
  }

  /** Deleting a project leaves no task, subtask or entry pointing at it or at a removed task. */
  lemma DeleteKeepsValid(s: Store, id: Id)
    requires Valid(s) && Delete(s, id).Ok?
    ensures Valid(Delete(s, id).value)
  {
    var gone := Descendants(s.tasks, TasksOf(s, id));
    var s1 := RemoveTasks(s, gone);
    RemoveClosedKeepsValid(s, gone);
    var r := Delete(s, id).value;
    assert r.tasks == s1.tasks && r.projects == s1.projects - {id};
    forall k | k in r.tasks ensures r.tasks[k].id == k && TaskRefsOk(r, r.tasks[k]) {
      assert TaskRefsOk(s1, s1.tasks[k]);
    }
    forall k | k in r.projects ensures r.projects[k].id == k && NameFree(r, r.projects[k].name, k) {
      assert NameFree(s1, s1.projects[k].name, k);
    }
    forall k | k in r.entries ensures r.entries[k].id == k && EntryRefsOk(r, r.entries[k]) && r.entries[k].duration >= 0 {
      assert r.entries[k] == s1.entries[k] && EntryRefsOk(s1, s1.entries[k]);
    }
  }

  /** A task outside the project survives unless it hangs, through parent links, below one of the project's tasks. */
  lemma DeleteSparesUnrelatedTasks(s: Store, id: Id, k: Id)
    requires id in s.projects && k in s.tasks
    requires k !in Descendants(s.tasks, TasksOf(s, id))
    ensures k in Delete(s, id).value.tasks
  {
  }

  /** The cascade through parent_id crosses projects: a subtask filed under another project goes too. */
  lemma DeleteTakesForeignSubtask(s: Store, id: Id, parent: Id, child: Id)
    requires id in s.projects && parent in s.tasks && child in s.tasks
    requires s.tasks[parent].projectId == id
    requires s.tasks[child].parentId == Some(parent) && s.tasks[child].projectId != id
    ensures child !in Delete(s, id).value.tasks
  {
    var roots := TasksOf(s, id);
    assert parent in roots;
  }
}

=== FILE: project_service.dfy ===
/**
 * internal/service/project/service.go: project creation, update and
 * deletion with the service's own validation in front of the repository.
 */
module ProjectService {
  import opened Base
  import opened Calendar
  import opened Errors
  import opened Projects
  import opened Store
  import ProjectRepo

  datatype CreateProjectInput = CreateProjectInput(name: string, description: string, color: string)

  /**
   * `CreateProject`: an empty name is refused, a name already in use is a
   * duplicate, and the colour defaults unless one is given.
   */
  ghost function CreateProject(s: Store, input: CreateProjectInput, id: Id, now: Time): (r: Result<(Store, Project), Error>)
    ensures input.name == "" ==> r == Err(EmptyName)
    ensures input.name != "" && (exists k :: k in s.projects && s.projects[k].name == input.name) ==>
      r == Err(DuplicateProject)
    ensures r.Ok? ==> var (s', p) := r.value;
      p.id == id && p.name == input.name && p.description == input.description &&
      p.status == Active && p.archivedAt.None? &&
      p.color == (if input.color == "" then DefaultColor else input.color) &&
      ProjectRepo.GetByID(s', id) == Ok(p)
  {
    if input.name == "" then Err(EmptyName)
    else if ProjectRepo.GetByName(s, input.name).Ok? then Err(DuplicateProject)
    else
      var p := NewProject(id, input.name, input.description, now);
      var p' := if input.color != "" then p.(color := input.color) else p;
      match ProjectRepo.Create(s, p')
      case Err(e) => Err(Wrapped("failed to create project", e))
      case Ok(s') => Ok((s', p'))
  }

  /** With a fresh id and an unused, non-empty name, creation succeeds and the store stays valid. */
  lemma CreateProjectSucceedsWhen(s: Store, input: CreateProjectInput, id: Id, now: Time)
    requires Valid(s) && id !in s.projects && input.name != ""
    ensures CreateProject(s, input, id, now).Ok? <==> NameFree(s, input.name, id)
    ensures CreateProject(s, input, id, now).Ok? ==> Valid(CreateProject(s, input, id, now).value.0)
  {
    if NameFree(s, input.name, id) {
      var p := NewProject(id, input.name, input.description, now);
      var p' := if input.color != "" then p.(color := input.color) else p;
      ProjectRepo.CreateKeepsValid(s, p');
    }
  }

  datatype UpdateProjectInput = UpdateProjectInput(
    id: Id,
    name: Option<string>,
    description: Option<string>,
    status: Option<ProjectStatus>,
    color: Option<string>)

  /** The status switch of `UpdateProject`: each status goes through its own mutator. */
  function ApplyStatus(p: Project, status: ProjectStatus, now: Time): (r: Project)
    ensures r.status == status && r.updatedAt == now && SameContent(p, r)
    ensures status == Archived ==> r.archivedAt == Some(now)
    ensures status == Active ==> r.archivedAt.None?
    ensures status == Completed || status == OnHold ==> r.archivedAt == p.archivedAt
  {
    match status
    case Archived => Archive(p, now)
    case Completed => Complete(p, now)
    case Active => Activate(p, now)
    case OnHold => PutOnHold(p, now)
  }

  /** The fields `UpdateProject` overwrites, in its order: name, description, status, color. */
  function Merged(p: Project, input: UpdateProjectInput, now: Time): (r: Project)
    ensures r.id == p.id && r.createdAt == p.createdAt
    ensures r.name == (if input.name.Some? then input.name.value else p.name)
    ensures r.description == (if input.description.Some? then input.description.value else p.description)
    ensures r.color == (if input.color.Some? then input.color.value else p.color)
    ensures input.status.None? ==> r.status == p.status && r.archivedAt == p.archivedAt && r.updatedAt == p.updatedAt
    ensures input.status.Some? ==> r.status == input.status.value && r.updatedAt == now
  {
    var p1 := if input.name.Some? then p.(name := input.name.value) else p;
    var p2 := if input.description.Some? then p1.(description := input.description.value) else p1;
    var p3 := if input.status.Some? then ApplyStatus(p2, input.status.value, now) else p2;
    if input.color.Some? then p3.(color := input.color.value) else p3
  }

  /**
   * `UpdateProject`: an empty id, an unknown id, an empty name and a name
   * held by another project are refused. Without a status the update stamp
   * is left as it was.
   */
  ghost function UpdateProject(s: Store, input: UpdateProjectInput, now: Time): (r: Result<(Store, Project), Error>)
    requires Valid(s)
    ensures input.id == "" ==> r == Err(InvalidProjectID)
    ensures input.id != "" && input.id !in s.projects ==>
      r == Err(Wrapped("failed to get project for update", ProjectNotFound))
    ensures input.id != "" && input.id in s.projects && input.name == Some("") ==> r == Err(EmptyName)
    ensures input.id != "" && input.id in s.projects && input.name.Some? && input.name.value != "" ==>
      (r == Err(DuplicateProject) <==> !NameFree(s, input.name.value, input.id))
    ensures r.Ok? ==> input.id in s.projects && ProjectRepo.GetByID(r.value.0, input.id) == Ok(r.value.1)
    ensures r.Ok? ==> var old_ := s.projects[input.id]; var p := r.value.1;
      p.id == input.id && p.createdAt == old_.createdAt &&
      p.name == (if input.name.Some? then input.name.value else old_.name) &&
      p.description == (if input.description.Some? then input.description.value else old_.description) &&
      p.color == (if input.color.Some? then input.color.value else old_.color) &&
      (input.status.None? ==> p.status == old_.status && p.archivedAt == old_.archivedAt && p.updatedAt == old_.updatedAt) &&
      (input.status.Some? ==> p.status == input.status.value && p.updatedAt == now)
    ensures (input.id != "" && input.id in s.projects &&
      (input.name.None? || (input.name.value != "" && NameFree(s, input.name.value, input.id)))) ==>
      r.Ok? && r.value.0 == s.(projects := s.projects[input.id := r.value.1])
  {
    if input.id == "" then Err(InvalidProjectID)
    else match ProjectRepo.GetByID(s, input.id)
      case Err(e) => Err(Wrapped("failed to get project for update", e))
      case Ok(p) =>
        if input.name == Some("") then Err(EmptyName)
        else if input.name.Some? && ProjectRepo.GetByName(s, input.name.value).Ok?
          && ProjectRepo.GetByName(s, input.name.value).value.id != p.id then Err(DuplicateProject)
        else
          var p4 := Merged(p, input, now);
          match ProjectRepo.Update(s, p4)
          case Err(e) => Err(Wrapped("failed to update project", e))
          case Ok(s') => Ok((s', p4))
  }

  /** Renaming a project to the name it already has is not a duplicate. */
  lemma RenameToOwnName(s: Store, id: Id, now: Time)
    requires Valid(s) && id != "" && id in s.projects && s.projects[id].name != ""
    ensures UpdateProject(s, UpdateProjectInput(id, Some(s.projects[id].name), None, None, None), now).Ok?
  {
    ProjectRepo.GetByNameFindsHolder(s, id);
    assert NameFree(s, s.projects[id].name, id);
    assert ProjectRepo.GetByID(s, id) == Ok(s.projects[id]);
  }

  /** Archiving and then completing through the service keeps the archive stamp. */
  lemma ArchiveSurvivesCompletion(s: Store, id: Id, t1: Time, t2: Time)
    requires Valid(s) && id != "" && id in s.projects
    ensures var a := UpdateProject(s, UpdateProjectInput(id, None, None, Some(Archived), None), t1);
      a.Ok? && a.value.1.archivedAt == Some(t1) && Valid(a.value.0) &&
      var c := UpdateProject(a.value.0, UpdateProjectInput(id, None, None, Some(Completed), None), t2);
      c.Ok? && c.value.1.status == Completed && c.value.1.archivedAt == Some(t1)
  {
    var p := s.projects[id];
    var a := ApplyStatus(p, Archived, t1);
    assert NameFree(s, a.name, id);
    ProjectRepo.UpdateKeepsValid(s, a);
    var s1 := UpdateProject(s, UpdateProjectInput(id, None, None, Some(Archived), None), t1).value.0;
    assert s1.projects[id] == a;
    var c := ApplyStatus(a, Completed, t2);
    assert NameFree(s1, c.name, id);
  }

  /** `DeleteProject`: an empty id is refused; otherwise the repository's cascading delete. */
  function DeleteProject(s: Store, id: Id): (r: Result<Store, Error>)
    ensures id == "" ==> r == Err(InvalidProjectID)
    ensures id != "" && id !in s.projects ==> r == Err(Wrapped("failed to delete project", ProjectNotFound))
    ensures r.Ok? ==> id in s.projects && id !in r.value.projects
    ensures r.Ok? ==> forall k :: k in r.value.tasks ==> r.value.tasks[k].projectId != id
    ensures id != "" && id in s.projects ==> r.Ok? && r == ProjectRepo.Delete(s, id)
  {
    if id == "" then Err(InvalidProjectID)
    else match ProjectRepo.Delete(s, id)
      case Err(e) => Err(Wrapped("failed to delete project", e))
      case Ok(s') => Ok(s')
  }
}

=== FILE: projects.dfy ===
/**
 * internal/domain/project.go: the Project entity and its status mutators.
 */
module Projects {
  import opened Base
  import opened Calendar

  datatype ProjectStatus = Active | Archived | Completed | OnHold

  const DefaultColor: string := "#3498db"

  datatype Project = Project(
    id: Id,
    name: string,
    description: string,
    status: ProjectStatus,
    color: string,
    createdAt: Time,
    updatedAt: Time,
    archivedAt: Option<Time>,
    metadata: map<string, string>)

  /** The two projects agree on everything but status, archive and update stamps. */
  predicate SameContent(a: Project, b: Project)
  {
    a.(status := b.status, archivedAt := b.archivedAt, updatedAt := b.updatedAt) == b
  }

  /** `NewProject`: active, default colour, never archived. */
  function NewProject(id: Id, name: string, description: string, now: Time): (p: Project)
    ensures p.id == id && p.name == name && p.description == description
    ensures p.status == Active && p.color == DefaultColor && p.archivedAt.None?
    ensures p.createdAt == now && p.updatedAt == now && p.metadata == map[]
  {
    Project(id, name, description, Active, DefaultColor, now, now, None, map[])
  }

  /** `Archive`: archived, with the archive and update stamps both now. */
  function Archive(p: Project, now: Time): (r: Project)
    ensures r.status == Archived && r.archivedAt == Some(now) && r.updatedAt == now
    ensures SameContent(p, r)
  {
    p.(status := Archived, archivedAt := Some(now), updatedAt := now)
  }

  /** `Complete`: only status and update stamp change, so an archive stamp survives. */
  function Complete(p: Project, now: Time): (r: Project)
    ensures r.status == Completed && r.updatedAt == now && r.archivedAt == p.archivedAt
    ensures SameContent(p, r)
  {
    p.(status := Completed, updatedAt := now)
  }

  /** `Activate`: active again, and the archive stamp is cleared. */
  function Activate(p: Project, now: Time): (r: Project)
    ensures r.status == Active && r.archivedAt.None? && r.updatedAt == now
    ensures SameContent(p, r)
  {
    p.(status := Active, archivedAt := None, updatedAt := now)
  }

  /** `PutOnHold`: only status and update stamp change. */
  function PutOnHold(p: Project, now: Time): (r: Project)
    ensures r.status == OnHold && r.updatedAt == now && r.archivedAt == p.archivedAt
    ensures SameContent(p, r)
  {
    p.(status := OnHold, updatedAt := now)
  }

  /** Archiving then completing leaves a completed project that still records when it was archived. */
  lemma ArchiveThenComplete(p: Project, t1: Time, t2: Time)
    ensures Complete(Archive(p, t1), t2).status == Completed
    ensures Complete(Archive(p, t1), t2).archivedAt == Some(t1)
  {
  }

  /** Activation undoes archiving on everything but the update stamp. */
  lemma ActivateUndoesArchive(p: Project, t1: Time, t2: Time)
    requires p.status == Active && p.archivedAt.None?
    ensures Activate(Archive(p, t1), t2) == p.(updatedAt := t2)
  {
  }
}

=== FILE: store.dfy ===
/**
 * The SQLite database behind the three repositories, as an abstract store:
 * one map per table keyed by id, holding exactly what a later read returns.
 * Schema semantics kept (internal/repository/sqlite/migrations.go): primary
 * keys, UNIQUE project names, NOT NULL time_entries.project_id, foreign keys
 * enforced on write, and ON DELETE CASCADE. The ordering of listing queries
 * and the LIMIT/OFFSET clause are defined here once for all three tables.
 */
module Store {
  import opened Base
  import opened Errors
  import opened Tasks
  import opened Projects
  import opened TimeEntries

  datatype Store = Store(
    tasks: map<Id, Task>,
    projects: map<Id, Project>,
    entries: map<Id, TimeEntry>)

  const Empty: Store := Store(map[], map[], map[])

  /** A task's references resolve: its project (unless NULL) and its parent. */
  predicate TaskRefsOk(s: Store, t: Task)
  {
    (t.projectId == "" || t.projectId in s.projects) &&
    (t.parentId.Some? ==> t.parentId.value in s.tasks)
  }

  /** An entry's references resolve; its project is never NULL (the column is NOT NULL). */
  predicate EntryRefsOk(s: Store, e: TimeEntry)
  {
    e.taskId in s.tasks && e.projectId != "" && e.projectId in s.projects
  }

  /** Two projects other than `id` never share a name (UNIQUE on projects.name). */
  predicate NameFree(s: Store, name: string, id: Id)
  {
    forall other :: other in s.projects && other != id ==> s.projects[other].name != name
  }

  /** Every state the database can be in. */
  predicate Valid(s: Store)
  {
    (forall id :: id in s.tasks ==> s.tasks[id].id == id && TaskRefsOk(s, s.tasks[id])) &&
    (forall id :: id in s.projects ==> s.projects[id].id == id && NameFree(s, s.projects[id].name, id)) &&
    (forall id :: id in s.entries ==>
      s.entries[id].id == id && EntryRefsOk(s, s.entries[id]) && s.entries[id].duration >= 0)
  }

  lemma EmptyIsValid()
    ensures Valid(Empty)
  {
  }

  /** The entries with no end time. */
  function OpenEntries(s: Store): (r: set<Id>)
    ensures forall id :: id in r <==> id in s.entries && IsActive(s.entries[id])
  {
    set id | id in s.entries && IsActive(s.entries[id])
  }

  // ---------------------------------------------------------------------
  // ON DELETE CASCADE on tasks.parent_id

  /** The tasks whose parent lies in `ids`. */
  function ChildrenOf(tasks: map<Id, Task>, ids: set<Id>): set<Id>
  {
    set id | id in tasks && tasks[id].parentId.Some? && tasks[id].parentId.value in ids
  }

  /** No task outside `ids` has its parent inside `ids`. */
  predicate ClosedUnderChildren(tasks: map<Id, Task>, ids: set<Id>)
  {
    forall id :: id in tasks && tasks[id].parentId.Some? && tasks[id].parentId.value in ids ==> id in ids
  }

  lemma {:induction false} SubsetNotLarger<T>(a: set<T>, b: set<T>)
    requires a <= b
    ensures |a| <= |b|
    decreases |b|
  {
    if a != {} {
      var x :| x in a;
      SubsetNotLarger(a - {x}, b - {x});
    }
  }

  lemma ProperSubsetSmaller<T>(a: set<T>, b: set<T>)
    requires a < b
    ensures |a| < |b|
  {
    var x :| x in b && x !in a;
    SubsetNotLarger(a, b - {x});
  }

  /**
   * The rows a cascading delete of `roots` removes: the roots and, repeatedly,
   * every task whose parent is removed.
   */
  function Descendants(tasks: map<Id, Task>, roots: set<Id>): (r: set<Id>)
    requires roots <= tasks.Keys
    ensures roots <= r <= tasks.Keys
    ensures ClosedUnderChildren(tasks, r)
    decreases |tasks.Keys - roots|
  {
    var next := roots + ChildrenOf(tasks, roots);
    if next == roots then roots
    else
      ProperSubsetSmaller(tasks.Keys - next, tasks.Keys - roots);
      Descendants(tasks, next)
  }

  /** The cascade removes nothing more than it must: it lies inside every closed superset of the roots. */
  lemma {:induction false} DescendantsLeast(tasks: map<Id, Task>, roots: set<Id>, x: set<Id>)
    requires roots <= tasks.Keys && roots <= x && ClosedUnderChildren(tasks, x)
    ensures Descendants(tasks, roots) <= x
    decreases |tasks.Keys - roots|
  {
    var next := roots + ChildrenOf(tasks, roots);
    if next != roots {
      ProperSubsetSmaller(tasks.Keys - next, tasks.Keys - roots);
      DescendantsLeast(tasks, next, x);
    }
  }

  /** Removes the given tasks and every entry logged against one of them (tasks ON DELETE CASCADE). */
  function RemoveTasks(s: Store, gone: set<Id>): (r: Store)
    ensures r.tasks.Keys == s.tasks.Keys - gone
    ensures forall id :: id in r.tasks ==> r.tasks[id] == s.tasks[id]
    ensures forall id :: id in r.entries <==> id in s.entries && s.entries[id].taskId !in gone
    ensures forall id :: id in r.entries ==> r.entries[id] == s.entries[id]
    ensures r.projects == s.projects
  {
    s.(tasks := map id | id in s.tasks && id !in gone :: s.tasks[id],
       entries := map id | id in s.entries && s.entries[id].taskId !in gone :: s.entries[id])
  }

  /** Removing a cascade-closed set of tasks keeps every remaining reference resolvable. */
  lemma RemoveClosedKeepsValid(s: Store, gone: set<Id>)
    requires Valid(s) && ClosedUnderChildren(s.tasks, gone)
    ensures Valid(RemoveTasks(s, gone))
  {
    var r := RemoveTasks(s, gone);
    forall k | k in r.tasks ensures r.tasks[k].id == k && TaskRefsOk(r, r.tasks[k]) {
      var t := s.tasks[k];
      assert r.tasks[k] == t && k !in gone && TaskRefsOk(s, t);
      if t.parentId.Some? {
        assert t.parentId.value !in gone;
      }
    }
    forall k | k in r.projects ensures r.projects[k].id == k && NameFree(r, r.projects[k].name, k) {
      assert NameFree(s, s.projects[k].name, k);
    }
    forall k | k in r.entries
      ensures r.entries[k].id == k && EntryRefsOk(r, r.entries[k]) && r.entries[k].duration >= 0
    {
      assert r.entries[k] == s.entries[k] && EntryRefsOk(s, s.entries[k]);
    }
  }

  // ---------------------------------------------------------------------
  // ORDER BY ... DESC, LIMIT and OFFSET

  predicate SortedDesc<T>(xs: seq<T>, key: T -> int)
  {
    forall i, j :: 0 <= i < j < |xs| ==> key(xs[i]) >= key(xs[j])
  }

  predicate SortedAsc<T>(xs: seq<T>, key: T -> int)
  {
    forall i, j :: 0 <= i < j < |xs| ==> key(xs[i]) <= key(xs[j])
  }

  lemma {:induction false} MaxExists<T>(xs: set<T>, key: T -> int)
    requires xs != {}
    ensures exists x :: x in xs && forall y :: y in xs ==> key(y) <= key(x)
    decreases |xs|
  {
    var x :| x in xs;
    if xs - {x} != {} {
      MaxExists(xs - {x}, key);
      var m :| m in xs - {x} && forall y :: y in xs - {x} ==> key(y) <= key(m);
      if key(x) <= key(m) {
        assert forall y :: y in xs ==> key(y) <= key(m);
      } else {
        assert forall y :: y in xs ==> key(y) <= key(x);
      }
    } else {
      assert xs == {x};
    }
  }

  /**
   * The rows of `xs` in descending `key` order. SQLite leaves the order of
   * rows with equal keys unspecified; here it is some fixed, unknown order.
   */
  ghost function SortDesc<T(!new)>(xs: set<T>, key: T -> int): (r: seq<T>)
    ensures |r| == |xs|
    ensures forall x :: x in r <==> x in xs
    ensures SortedDesc(r, key)
    decreases |xs|
  {
    if xs == {} then []
    else
      MaxExists(xs, key);
      var x :| x in xs && forall y :: y in xs ==> key(y) <= key(x);
      [x] + SortDesc(xs - {x}, key)
  }

  function Reverse<T>(xs: seq<T>): (r: seq<T>)
    ensures |r| == |xs|
    ensures forall i :: 0 <= i < |xs| ==> r[i] == xs[|xs| - 1 - i]
  {
    if xs == [] then [] else Reverse(xs[1..]) + [xs[0]]
  }

  /** The rows of `xs` in ascending `key` order, ties in an unspecified order. */
  ghost function SortAsc<T(!new)>(xs: set<T>, key: T -> int): (r: seq<T>)
    ensures |r| == |xs|
    ensures forall x :: x in r <==> x in xs
    ensures SortedAsc(r, key)
  {
    var d := SortDesc(xs, key);
    var r := Reverse(d);
    assert forall x :: x in r <==> x in d by {
      forall x | x in d ensures x in r {
        var i :| 0 <= i < |d| && d[i] == x;
        assert r[|d| - 1 - i] == x;
      }
    }
    r
  }

  /**
   * `LIMIT ?` is appended only for a positive limit and `OFFSET ?` only for
   * a positive offset; SQLite rejects an OFFSET with no LIMIT before it.
   */
  function Page<T>(xs: seq<T>, limit: int, offset: int): (r: Result<seq<T>, Error>)
    ensures r.Err? <==> limit <= 0 && offset > 0
    ensures r.Err? ==> r.error == SyntaxError("OFFSET")
    ensures r.Ok? && limit > 0 ==> |r.value| <= limit
    ensures r.Ok? ==> |r.value| <= |xs| - (if offset > 0 then Min(offset, |xs|) else 0)
    ensures r.Ok? ==> forall i :: 0 <= i < |r.value| ==>
      r.value[i] == xs[i + (if offset > 0 then Min(offset, |xs|) else 0)]
    ensures r.Ok? ==> forall x :: x in r.value ==> x in xs
    ensures r.Ok? && offset <= 0 && limit <= 0 ==> r.value == xs
    ensures r.Ok? && limit > 0 && offset <= 0 ==> r.value == xs[..Min(limit, |xs|)]
    ensures r.Ok? && limit > 0 ==> |r.value| == Min(limit, |xs| - (if offset > 0 then Min(offset, |xs|) else 0))
    ensures r.Ok? && limit <= 0 ==> |r.value| == |xs| - (if offset > 0 then Min(offset, |xs|) else 0)
    ensures r.Ok? && limit > 0 ==>
      var start := if offset > 0 then Min(offset, |xs|) else 0;
      r.value == xs[start..][..Min(limit, |xs| - start)]
  {
    if limit <= 0 && offset > 0 then Err(SyntaxError("OFFSET"))
    else
      var start := if offset > 0 then Min(offset, |xs|) else 0;
      var rest := xs[start..];
      Ok(if limit > 0 && limit < |rest| then rest[..limit] else rest)
  }

  /** A page keeps the list's order. */
  lemma PageKeepsOrder<T>(xs: seq<T>, key: T -> int, limit: int, offset: int)
    requires SortedDesc(xs, key) && Page(xs, limit, offset).Ok?
    ensures SortedDesc(Page(xs, limit, offset).value, key)
  {
    var r := Page(xs, limit, offset).value;
    var start := if offset > 0 then Min(offset, |xs|) else 0;
    assert |r| <= |xs| - start;
    assert forall i :: 0 <= i < |r| ==> r[i] == xs[i + start];
    forall i, j | 0 <= i < j < |r| ensures key(r[i]) >= key(r[j]) {
      assert r[i] == xs[i + start] && r[j] == xs[j + start];
      assert 0 <= i + start < j + start < |xs|;
    }
  }
}

=== FILE: task_detail.dfy ===
/**
 * internal/ui/models/task_detail.go: the detail view of one task.
 */
module TaskDetail {
  import opened Base
  import opened Tasks
  import opened Messages
  import TaskList

  datatype TaskDetailModel = TaskDetailModel(task: Option<Task>)

  const Initial: TaskDetailModel := TaskDetailModel(None)

  /** `SetTask`. */
  function SetTask(m: TaskDetailModel, t: Task): (r: TaskDetailModel)
    ensures r.task == Some(t)
  {
    m.(task := Some(t))
  }

  /** `TaskDetailModel.Update`. */
  function Update(m: TaskDetailModel, msg: Msg, now: int): (r: Step<TaskDetailModel>)
    ensures m.task.None? ==> r == Step(m, [])
    ensures r.model != m ==> msg.KeyMsg? && Matches(msg.key, ToggleKeys)
  {
    if m.task.None? then Step(m, [])
    else
      var t := m.task.value;
      match msg
      case KeyMsg(k) =>
        if Matches(k, EditKeys) then Step(m, [Emit(TaskActionMsg(EditTask(t)))])
        else if Matches(k, DeleteKeys) then Step(m, [Emit(TaskActionMsg(DeleteTask(t)))])
        else if Matches(k, ToggleKeys) then
          var t' := TaskList.Toggle(t, now);
          Step(m.(task := Some(t')), [Emit(TaskActionMsg(UpdateTask(t')))])
        else Step(m, [])
      case _ => Step(m, [])
  }

  /** `e` and `d` hand over the bound task; `t` toggles it and hands over the result. */
  lemma Actions(t: Task, now: int)
    ensures var m := TaskDetailModel(Some(t));
      Update(m, KeyMsg(Runes("e")), now) == Step(m, [Emit(TaskActionMsg(EditTask(t)))]) &&
      Update(m, KeyMsg(Runes("d")), now) == Step(m, [Emit(TaskActionMsg(DeleteTask(t)))])
    ensures var r := Update(TaskDetailModel(Some(t)), KeyMsg(Runes("t")), now);
      r.model.task.Some? &&
      (t.status == Done ==> r.model.task.value.status == Todo && r.model.task.value.completedAt == t.completedAt) &&
      (t.status != Done ==> r.model.task.value.status == Done && r.model.task.value.completedAt == Some(now)) &&
      r.effects == [Emit(TaskActionMsg(UpdateTask(r.model.task.value)))]
  {
  }

  /** Toggling twice brings a task that was not done back to todo, still carrying a completion stamp. */
  lemma ToggleTwice(t: Task, now: int, later: int)
    requires t.status != Done
    ensures var m1 := Update(TaskDetailModel(Some(t)), KeyMsg(Runes("t")), now).model;
      var m2 := Update(m1, KeyMsg(Runes("t")), later).model;
      m2.task.Some? && m2.task.value.status == Todo && m2.task.value.completedAt == Some(now)
  {
  }
}

=== FILE: task_form.dfy ===
/**
 * internal/ui/models/task_form.go: the five-field task form. Each field is a
 * single-line text input with a character limit; the cursor is taken to sit
 * at the end of the text.
 */
module TaskForm {
  import opened Base
  import opened Text
  import opened Calendar
  import opened Tasks
  import opened Messages

  // ---------------------------------------------------------------------
  // The text input widget

  datatype TextInput = TextInput(value: string, limit: nat)

  predicate InputOk(i: TextInput)
  {
    i.limit > 0 && |i.value| <= i.limit
  }

  /** Go's `unicode.IsControl`: the C0 controls, DEL and the C1 controls. */
  predicate IsControl(c: char)
  {
    c < ' ' || '\U{7F}' <= c <= '\U{9F}'
  }

  /** Text the widget's sanitiser leaves as it is: no control character and no U+FFFD. */
  predicate PlainText(s: string)
  {
    forall k :: 0 <= k < |s| ==> !IsControl(s[k]) && s[k] != '\U{FFFD}'
  }

  /**
   * What the sanitiser of a single-line bubbles text input makes of one
   * character: tab, CR and LF become a space, U+FFFD and every other control
   * character are dropped, and anything else is kept.
   */
  function SanitizeChar(c: char): (r: string)
    ensures PlainText(r) && |r| <= 1
    ensures !IsControl(c) && c != '\U{FFFD}' <==> r == [c]
  {
    if c == '\U{FFFD}' then []
    else if c == '\t' || c == '\n' || c == '\r' then " "
    else if IsControl(c) then []
    else [c]
  }

  /** The sanitiser the text input applies to every value it is given and to typed characters. */
  function Sanitize(s: string): (r: string)
    ensures |r| <= |s|
    ensures PlainText(r)
    ensures PlainText(s) ==> r == s
    ensures forall k :: 0 <= k < |r| ==> r[k] in s || r[k] == ' '
  {
    if s == [] then []
    else
      var h := SanitizeChar(s[0]);
      var t := Sanitize(s[1..]);
      assert forall k :: 0 <= k < |t| ==> t[k] in s[1..] || t[k] == ' ';
      assert forall k :: 0 <= k < |h| ==> h[k] == s[0] || h[k] == ' ';
      h + t
  }

  /** The sanitiser works character by character, so it distributes over concatenation. */
  lemma {:induction false} SanitizeConcat(a: string, b: string)
    ensures Sanitize(a + b) == Sanitize(a) + Sanitize(b)
  {
    if a == [] {
      assert a + b == b;
    } else {
      assert (a + b)[0] == a[0] && (a + b)[1..] == a[1..] + b;
      SanitizeConcat(a[1..], b);
    }
  }

  /** A tab inside a word becomes a space. */
  lemma SanitizeTab()
    ensures Sanitize("a\tb") == "a b"
  {
    assert Sanitize("a\tb") == "a" + Sanitize("\tb");
    assert Sanitize("\tb") == " " + Sanitize("b");
  }

  /** A line break becomes a space, so multi-line text is flattened onto one line. */
  lemma SanitizeNewline()
    ensures Sanitize("a\nb") == "a b"
  {
    assert Sanitize("a\nb") == "a" + Sanitize("\nb");
    assert Sanitize("\nb") == " " + Sanitize("b");
  }

  /** Any other control character is dropped. */
  lemma SanitizeBell()
    ensures Sanitize("a\U{7}b") == "ab"
  {
    assert Sanitize("a\U{7}b") == "a" + Sanitize("\U{7}b");
    assert Sanitize("\U{7}b") == Sanitize("b");
  }

  /** `SetValue`: the sanitised text, cut at the character limit. */
  function SetValue(i: TextInput, s: string): (r: TextInput)
    requires i.limit > 0
    ensures InputOk(r) && r.limit == i.limit
    ensures |r.value| == Min(|Sanitize(s)|, i.limit) && r.value <= Sanitize(s)
    ensures PlainText(s) ==> |r.value| == Min(|s|, i.limit) && r.value <= s
  {
    var v := Sanitize(s);
    i.(value := v[..Min(|v|, i.limit)])
  }

  /**
   * The input's reaction to a key: typed characters are sanitised and
   * appended up to the limit, backspace removes the last one.
   */
  function Input(i: TextInput, k: Key): (r: TextInput)
    requires InputOk(i)
    ensures InputOk(r) && r.limit == i.limit
    ensures k.Runes? ==> i.value <= r.value && r.value[|i.value|..] <= Sanitize(k.text)
    ensures k.Runes? ==> |r.value| == |i.value| + Min(|Sanitize(k.text)|, i.limit - |i.value|)
    ensures k.Runes? && PlainText(k.text) ==> r.value[|i.value|..] <= k.text
    ensures k == Special("backspace") && i.value != [] ==> r.value == i.value[..|i.value| - 1]
    ensures k.Special? && k.name != "backspace" ==> r == i
  {
    match k
    case Runes(text) =>
      var v := Sanitize(text);
      i.(value := i.value + v[..Min(|v|, i.limit - |i.value|)])
    case Special(name) =>
      if name == "backspace" && i.value != [] then i.(value := i.value[..|i.value| - 1]) else i
  }

  // ---------------------------------------------------------------------
  // The form

  const TitleLimit: nat := 200
  const DescriptionLimit: nat := 500
  const TagsLimit: nat := 200
  const ChangelistLimit: nat := 100
  const DueDateLimit: nat := 10
  const FieldCount: nat := 5

  datatype TaskFormModel = TaskFormModel(
    title: TextInput,
    description: TextInput,
    tags: TextInput,
    changelist: TextInput,
    dueDate: TextInput,
    focus: nat,
    task: Option<Task>,
    editing: bool)

  /** `NewTaskFormModel`: empty fields, the title focused, not editing. */
  const NewForm: TaskFormModel := TaskFormModel(
    TextInput([], TitleLimit), TextInput([], DescriptionLimit), TextInput([], TagsLimit),
    TextInput([], ChangelistLimit), TextInput([], DueDateLimit), 0, None, false)

  predicate Inv(m: TaskFormModel)
  {
    m.focus < FieldCount &&
    InputOk(m.title) && InputOk(m.description) && InputOk(m.tags) && InputOk(m.changelist) && InputOk(m.dueDate) &&
    m.title.limit == TitleLimit && m.description.limit == DescriptionLimit && m.tags.limit == TagsLimit &&
    m.changelist.limit == ChangelistLimit && m.dueDate.limit == DueDateLimit &&
    (m.editing <==> m.task.Some?)
  }

  lemma NewFormOk()
    ensures Inv(NewForm) && NewForm.focus == 0 && !NewForm.editing
  {
  }

  /** `LoadTask`: the task's fields shown for editing; empty tags, changelist and due date leave their field blank. */
  function LoadTask(m: TaskFormModel, t: Task): (r: TaskFormModel)
    requires Inv(m)
    ensures Inv(r) && r.task == Some(t) && r.editing && r.focus == m.focus
    ensures r.title == SetValue(m.title, t.title)
    ensures r.tags == (if |t.tags| > 0 then SetValue(m.tags, Join(t.tags, ", ")) else m.tags)
    ensures r.dueDate == (if t.dueDate.Some? then SetValue(m.dueDate, FormatDate(t.dueDate.value)) else m.dueDate)
  {
    m.(task := Some(t), editing := true,
       title := SetValue(m.title, t.title),
       description := SetValue(m.description, t.description),
       tags := if |t.tags| > 0 then SetValue(m.tags, Join(t.tags, ", ")) else m.tags,
       changelist := if t.changelist != "" then SetValue(m.changelist, t.changelist) else m.changelist,
       dueDate := if t.dueDate.Some? then SetValue(m.dueDate, FormatDate(t.dueDate.value)) else m.dueDate)
  }

  /** Hands a key to the focused field. */
  function Feed(m: TaskFormModel, k: Key): (r: TaskFormModel)
    requires Inv(m)
    ensures Inv(r) && r.focus == m.focus && r.task == m.task
  {
    match m.focus
    case 0 => m.(title := Input(m.title, k))
    case 1 => m.(description := Input(m.description, k))
    case 2 => m.(tags := Input(m.tags, k))
    case 3 => m.(changelist := Input(m.changelist, k))
    case _ => m.(dueDate := Input(m.dueDate, k))
  }

  // ---------------------------------------------------------------------
  // Submission

  /** The non-blank trimmed pieces of a comma-separated list. */
  function CleanTags(pieces: seq<string>): (r: seq<string>)
    ensures forall x :: x in r ==> x != [] && IsTrimmed(x)
  {
    if pieces == [] then []
    else
      var t := TrimSpace(pieces[0]);
      var rest := CleanTags(pieces[1..]);
      if t != [] then
        var r := [t] + rest;
        assert IsTrimmed(t);
        assert forall x :: x in r ==> x == t || x in rest;
        r
      else rest
  }

  /** The tags typed into the tags field. */
  function ParseTags(text: string): (r: seq<string>)
    ensures forall x :: x in r ==> x != [] && IsTrimmed(x) && ',' !in x
  {
    var pieces := Split(text, ',');
    CleanTagsNoComma(pieces);
    CleanTags(pieces)
  }

  lemma {:induction false} CleanTagsNoComma(pieces: seq<string>)
    requires forall i :: 0 <= i < |pieces| ==> ',' !in pieces[i]
    ensures forall x :: x in CleanTags(pieces) ==> ',' !in x
  {
    if pieces != [] {
      CleanTagsNoComma(pieces[1..]);
      var t := TrimSpace(pieces[0]);
      var i, j := TrimSpaceIsInfix(pieces[0]);
      assert forall c :: c in t ==> c in pieces[0];
    }
  }

  const TitleRequired: string := "Title is required"
  const InvalidDueDate: string := "Invalid due date format. Use YYYY-MM-DD"

  /** What `handleSubmit` produces: the task to submit, or the error banner text. */
  function Submission(m: TaskFormModel, env: Env): (r: Result<Task, string>)
  {
    SubmissionWith(m, env, ParseDate(TrimSpace(m.dueDate.value)))
  }

  /** `Submission`, given what the date layout makes of the trimmed due-date field. */
  function SubmissionWith(m: TaskFormModel, env: Env, parsedDue: Option<Time>): (r: Result<Task, string>)
    ensures TrimSpace(m.title.value) == "" ==> r == Err(TitleRequired)
    ensures TrimSpace(m.title.value) != "" && TrimSpace(m.dueDate.value) != "" && parsedDue.None? ==> r == Err(InvalidDueDate)
    ensures r.Ok? <==> TrimSpace(m.title.value) != "" && (TrimSpace(m.dueDate.value) == "" || parsedDue.Some?)
    ensures r.Ok? && TrimSpace(m.tags.value) != "" ==> r.value.tags == ParseTags(TrimSpace(m.tags.value))
  {
    var title := TrimSpace(m.title.value);
    if title == "" then Err(TitleRequired)
    else
      var description := TrimSpace(m.description.value);
      var base := if m.editing && m.task.Some? then m.task.value else NewTask(env.freshId, title, description, env.now);
      var tagText := TrimSpace(m.tags.value);
      var clText := TrimSpace(m.changelist.value);
      var dueText := TrimSpace(m.dueDate.value);
      if dueText != "" && parsedDue.None? then Err(InvalidDueDate)
      else Ok(base.(
        title := title,
        description := description,
        tags := if tagText != "" then ParseTags(tagText) else base.tags,
        changelist := if clText != "" then clText else base.changelist,
        dueDate := if dueText != "" then parsedDue else base.dueDate,
        updatedAt := env.now))
  }

  /** A non-blank due date is the parsed one; a blank one keeps the edited task's due date. */
  lemma SubmittedDueDate(m: TaskFormModel, env: Env, parsedDue: Option<Time>)
    requires SubmissionWith(m, env, parsedDue).Ok?
    ensures var r := SubmissionWith(m, env, parsedDue).value;
      (TrimSpace(m.dueDate.value) != "" ==> r.dueDate == parsedDue) &&
      (m.editing && m.task.Some? && TrimSpace(m.dueDate.value) == "" ==> r.dueDate == m.task.value.dueDate)
  {
  }

  /** `handleSubmit`: an error banner, or the submitted task; the form itself is left as it was. */
  function HandleSubmit(m: TaskFormModel, env: Env): (r: Step<TaskFormModel>)
    ensures r.model == m && |r.effects| == 1 && r.effects[0].Emit?
    ensures r.effects[0].msg.ErrorMsg? <==> Submission(m, env).Err?
  {
    match Submission(m, env)
    case Err(text) => Step(m, [Emit(ErrorMsg(text))])
    case Ok(t) => Step(m, [Emit(TaskFormSubmitMsg(t))])
  }

  /** `TaskFormModel.Update`. */
  function Update(m: TaskFormModel, msg: Msg, env: Env): (r: Step<TaskFormModel>)
    requires Inv(m)
    ensures Inv(r.model) && r.model.task == m.task
  {
    match msg
    case KeyMsg(k) =>
      if Matches(k, SubmitKeys) then HandleSubmit(m, env)
      else if Matches(k, BackKeys) then Step(m, [Emit(TaskFormCancelMsg)])
      else if Matches(k, NextKeys) then Step(Feed(m.(focus := (m.focus + 1) % FieldCount), k), [])
      else if Matches(k, PrevKeys) then Step(Feed(m.(focus := (m.focus - 1 + FieldCount) % FieldCount), k), [])
      else Step(Feed(m, k), [])
    case _ => Step(m, [])
  }

  const Tab: Key := Special("tab")
  const ShiftTab: Key := Special("shift+tab")

  /** Tab and shift+tab step the focus forward and back around the five fields. */
  lemma FocusCycles(m: TaskFormModel, env: Env)
    requires Inv(m)
    ensures Update(m, KeyMsg(Tab), env).model.focus == (m.focus + 1) % 5
    ensures Update(m, KeyMsg(ShiftTab), env).model.focus == (m.focus + 4) % 5
  {
  }

  /** Tab followed by shift+tab changes nothing at all. */
  lemma TabThenShiftTab(m: TaskFormModel, env: Env)
    requires Inv(m)
    ensures Update(Update(m, KeyMsg(Tab), env).model, KeyMsg(ShiftTab), env) == Step(m, [])
  {
    assert !Matches(Tab, SubmitKeys) && !Matches(Tab, BackKeys) && Matches(Tab, NextKeys);
    var m1 := m.(focus := (m.focus + 1) % FieldCount);
    FeedSpecialInert(m1, Tab);
    assert Update(m, KeyMsg(Tab), env) == Step(m1, []);
    assert !Matches(ShiftTab, SubmitKeys) && !Matches(ShiftTab, BackKeys);
    assert !Matches(ShiftTab, NextKeys) && Matches(ShiftTab, PrevKeys);
    var m2 := m1.(focus := (m1.focus - 1 + FieldCount) % FieldCount);
    FeedSpecialInert(m2, ShiftTab);
    assert m2 == m;
  }

  /** A special key other than backspace leaves every field as it was. */
  lemma FeedSpecialInert(m: TaskFormModel, k: Key)
    requires Inv(m) && k.Special? && k.name != "backspace"
    ensures Feed(m, k) == m
  {
  }

  /** A blank title is refused with an error banner and nothing is submitted. */
  lemma BlankTitleRefused(m: TaskFormModel, env: Env)
    requires Inv(m) && forall k :: 0 <= k < |m.title.value| ==> IsSpace(m.title.value[k])
    ensures Update(m, KeyMsg(Special("ctrl+s")), env) == Step(m, [Emit(ErrorMsg("Title is required"))])
  {
    TrimSpaceOfBlank(m.title.value);
  }

  /** A due date that is not a YYYY-MM-DD date is refused with an error banner. */
  lemma BadDueDateRefused(m: TaskFormModel, env: Env)
    requires Inv(m) && TrimSpace(m.title.value) != ""
    requires TrimSpace(m.dueDate.value) != "" && !IsValidDateText(TrimSpace(m.dueDate.value))
    ensures Update(m, KeyMsg(Special("ctrl+s")), env) ==
      Step(m, [Emit(ErrorMsg("Invalid due date format. Use YYYY-MM-DD"))])
  {
  }

  /**
   * A submitted task has the trimmed title and description; when editing it
   * is the loaded task (same id), otherwise a fresh todo task. Blank tags and
   * changelist fields keep what the task had.
   */
  lemma SubmittedTask(m: TaskFormModel, env: Env, parsedDue: Option<Time>)
    requires Inv(m) && SubmissionWith(m, env, parsedDue).Ok?
    ensures var t := SubmissionWith(m, env, parsedDue).value;
      t.title == TrimSpace(m.title.value) && t.description == TrimSpace(m.description.value) &&
      t.updatedAt == env.now &&
      (m.editing ==> t.id == m.task.value.id && t.createdAt == m.task.value.createdAt && t.status == m.task.value.status) &&
      (!m.editing ==> t.id == env.freshId && t.status == Todo && t.createdAt == env.now) &&
      (TrimSpace(m.tags.value) == "" ==> t.tags == (if m.editing then m.task.value.tags else [])) &&
      (TrimSpace(m.changelist.value) == "" ==> t.changelist == (if m.editing then m.task.value.changelist else ""))
  {
  }

  /** Ctrl+s submits exactly what `Submission` computes. */
  lemma SubmitKey(m: TaskFormModel, env: Env)
    requires Inv(m)
    ensures Update(m, KeyMsg(Special("ctrl+s")), env) == HandleSubmit(m, env)
  {
  }

  // ---------------------------------------------------------------------
  // Tags survive a load followed by a submit

  /** The join with ", " is a join with "," of the tags after the first, each given a leading space. */
  function Spaced(tags: seq<string>): (r: seq<string>)
    ensures |r| == |tags|
  {
    if tags == [] then [] else [tags[0]] + Prefix(tags[1..])
  }

  function Prefix(tags: seq<string>): (r: seq<string>)
    ensures |r| == |tags|
    ensures forall i :: 0 <= i < |tags| ==> r[i] == " " + tags[i]
  {
    if tags == [] then [] else [" " + tags[0]] + Prefix(tags[1..])
  }

  lemma {:induction false} JoinSpaced(tags: seq<string>)
    requires |tags| >= 1
    ensures Join(tags, ", ") == Join(Spaced(tags), ",")
  {
    if |tags| > 1 {
      JoinSpaced(tags[1..]);
      var rest := tags[1..];
      assert Spaced(rest) == [rest[0]] + Prefix(rest[1..]);
      assert Spaced(tags)[1..] == Prefix(rest) == [" " + rest[0]] + Prefix(rest[1..]);
      JoinHeadSpace(rest[0], Prefix(rest[1..]));
    }
  }

  lemma JoinHeadSpace(first: string, more: seq<string>)
    ensures Join([" " + first] + more, ",") == " " + Join([first] + more, ",")
  {
    if more != [] {
      assert ([" " + first] + more)[1..] == more;
      assert ([first] + more)[1..] == more;
    }
  }

  lemma {:induction false} CleanSpaced(tags: seq<string>)
    requires forall i :: 0 <= i < |tags| ==> tags[i] != [] && IsTrimmed(tags[i])
    ensures CleanTags(Prefix(tags)) == tags
  {
    if tags != [] {
      var p := Prefix(tags);
      CleanSpaced(tags[1..]);
      assert p[0] == " " + tags[0] && p[1..] == Prefix(tags[1..]);
      TrimSpaceDropsLeadingSpace(tags[0]);
      TrimSpaceOfTrimmed(tags[0]);
      assert TrimSpace(p[0]) == tags[0] != [];
      assert CleanTags(p) == [tags[0]] + CleanTags(p[1..]);
      assert tags == [tags[0]] + tags[1..];
    }
  }

  lemma {:induction false} JoinFirstChar(tags: seq<string>, sep: string)
    requires |tags| >= 1 && tags[0] != []
    ensures |Join(tags, sep)| > 0 && Join(tags, sep)[0] == tags[0][0]
  {
  }

  lemma {:induction false} JoinLastChar(tags: seq<string>, sep: string)
    requires |tags| >= 1 && tags[|tags| - 1] != []
    ensures |Join(tags, sep)| > 0 && Join(tags, sep)[|Join(tags, sep)| - 1] == tags[|tags| - 1][|tags[|tags| - 1]| - 1]
  {
    if |tags| > 1 {
      JoinLastChar(tags[1..], sep);
    }
  }

  predicate CleanTagList(tags: seq<string>)
  {
    forall i :: 0 <= i < |tags| ==> tags[i] != [] && IsTrimmed(tags[i]) && ',' !in tags[i]
  }

  lemma JoinIsTrimmed(tags: seq<string>)
    requires |tags| >= 1 && CleanTagList(tags)
    ensures IsTrimmed(Join(tags, ", "))
  {
    JoinFirstChar(tags, ", ");
    JoinLastChar(tags, ", ");
  }

  lemma SplitJoined(tags: seq<string>)
    requires |tags| >= 1 && CleanTagList(tags)
    ensures Split(Join(tags, ", "), ',') == Spaced(tags)
  {
    JoinSpaced(tags);
    var sp := Spaced(tags);
    assert sp == [tags[0]] + Prefix(tags[1..]);
    forall i | 0 <= i < |sp| ensures ',' !in sp[i] {
      if i > 0 {
        assert sp[i] == " " + tags[i];
      }
    }
    SplitJoin(sp, ',');
  }

  lemma CleanSpacedAll(tags: seq<string>)
    requires |tags| >= 1 && CleanTagList(tags)
    ensures CleanTags(Spaced(tags)) == tags
  {
    var sp := Spaced(tags);
    assert sp == [tags[0]] + Prefix(tags[1..]);
    assert sp[1..] == Prefix(tags[1..]);
    CleanSpaced(tags[1..]);
    TrimSpaceOfTrimmed(tags[0]);
    assert tags == [tags[0]] + tags[1..];
  }

  /** Tags that are trimmed, non-blank and comma-free are read back exactly from their joined form. */
  lemma TagsRoundTrip(tags: seq<string>)
    requires |tags| >= 1 && CleanTagList(tags)
    ensures ParseTags(TrimSpace(Join(tags, ", "))) == tags
  {
    JoinIsTrimmed(tags);
    TrimSpaceOfTrimmed(Join(tags, ", "));
    SplitJoined(tags);
    CleanSpacedAll(tags);
  }

  /** Each tag as the text input's sanitiser leaves it. */
  function SanitizeEach(tags: seq<string>): (r: seq<string>)
    ensures |r| == |tags|
    ensures forall i :: 0 <= i < |tags| ==> PlainText(r[i])
    ensures (forall i :: 0 <= i < |tags| ==> PlainText(tags[i])) ==> r == tags
  {
    if tags == [] then [] else [Sanitize(tags[0])] + SanitizeEach(tags[1..])
  }

  /** Sanitising the joined tags is joining the sanitised tags, since the separator is plain. */
  lemma {:induction false} SanitizeJoin(tags: seq<string>)
    ensures Sanitize(Join(tags, ", ")) == Join(SanitizeEach(tags), ", ")
  {
    if |tags| > 1 {
      var rest := Join(tags[1..], ", ");
      assert Join(tags, ", ") == (tags[0] + ", ") + rest;
      SanitizeConcat(tags[0] + ", ", rest);
      SanitizeConcat(tags[0], ", ");
      assert PlainText(", ");
      SanitizeJoin(tags[1..]);
      assert SanitizeEach(tags)[1..] == SanitizeEach(tags[1..]);
    }
  }

  /**
   * Editing a task and saving without touching the form succeeds exactly
   * when the task has no due date or one in a four-digit year; it then gives
   * back the task's tags as the text input sanitised them (a tab or newline
   * inside a tag becomes a space, other control characters vanish) and the
   * midnight that starts its due day. The sanitised tags must be trimmed,
   * non-blank, comma-free and fit the field, and the sanitised title must be
   * non-blank and fit its field.
   */
  lemma EditKeepsTags(t: Task, env: Env)
    requires |t.tags| >= 1 && CleanTagList(SanitizeEach(t.tags))
    requires |Join(SanitizeEach(t.tags), ", ")| <= TagsLimit
    requires |Sanitize(t.title)| <= TitleLimit && TrimSpace(Sanitize(t.title)) != ""
    ensures var r := Submission(LoadTask(NewForm, t), env);
      (r.Ok? <==> t.dueDate.None? || InFourDigitYears(t.dueDate.value)) &&
      (r.Ok? ==>
         r.value.tags == SanitizeEach(t.tags) &&
         r.value.dueDate == (if t.dueDate.Some? then Some(TruncateToDay(t.dueDate.value)) else None))
  {
    var m := LoadTask(NewForm, t);
    LoadedFields(t);
    LoadedTagsParse(t);
    LoadedDueText(t);
    var parsed := ParseDate(TrimSpace(m.dueDate.value));
    assert Submission(m, env) == SubmissionWith(m, env, parsed);
    if SubmissionWith(m, env, parsed).Ok? {
      SubmittedDueDate(m, env, parsed);
    }
  }

  /** Tags free of control characters come back exactly: the edit is lossless for them. */
  lemma EditKeepsPlainTags(t: Task, env: Env)
    requires |t.tags| >= 1 && CleanTagList(t.tags)
    requires forall i :: 0 <= i < |t.tags| ==> PlainText(t.tags[i])
    requires |Join(t.tags, ", ")| <= TagsLimit
    requires |t.title| <= TitleLimit && PlainText(t.title) && TrimSpace(t.title) != ""
    ensures var r := Submission(LoadTask(NewForm, t), env);
      r.Ok? ==> r.value.tags == t.tags
  {
    EditKeepsTags(t, env);
  }

  /** The tag list ["a\tb"] sanitises to the clean list ["a b"]. */
  lemma TabTagSanitised()
    ensures SanitizeEach(["a\tb"]) == ["a b"]
    ensures CleanTagList(["a b"]) && |Join(["a b"], ", ")| <= TagsLimit
  {
    SanitizeTab();
    assert SanitizeEach(["a\tb"]) == [Sanitize("a\tb")] + SanitizeEach([]);
    assert IsTrimmed("a b") && ',' !in "a b";
  }

  /** A tag with a tab inside comes back with a space in its place. */
  lemma TabInTagBecomesSpace(t: Task, env: Env)
    requires t.tags == ["a\tb"] && t.dueDate.None?
    requires |Sanitize(t.title)| <= TitleLimit && TrimSpace(Sanitize(t.title)) != ""
    ensures var r := Submission(LoadTask(NewForm, t), env);
      r.Ok? && r.value.tags == ["a b"] && r.value.tags != t.tags
  {
    TabTagSanitised();
    EditKeepsTags(t, env);
  }

  /** The tags field of a loaded task is non-blank and parses back to the task's sanitised tags. */
  lemma LoadedTagsParse(t: Task)
    requires |t.tags| >= 1 && CleanTagList(SanitizeEach(t.tags))
    requires |Join(SanitizeEach(t.tags), ", ")| <= TagsLimit
    ensures var v := TrimSpace(LoadTask(NewForm, t).tags.value);
      v != "" && ParseTags(v) == SanitizeEach(t.tags)
  {
    var tags := SanitizeEach(t.tags);
    var joined := Join(tags, ", ");
    NewFormOk();
    SanitizeJoin(t.tags);
    assert LoadTask(NewForm, t).tags.value == joined;
    JoinIsTrimmed(tags);
    TrimSpaceOfTrimmed(joined);
    JoinFirstChar(tags, ", ");
    TagsRoundTrip(tags);
  }

  /** The title and tags a loaded task fills in, sanitised, when they fit their fields. */
  lemma LoadedFields(t: Task)
    requires |t.tags| >= 1 && |Join(SanitizeEach(t.tags), ", ")| <= TagsLimit
    requires |Sanitize(t.title)| <= TitleLimit
    ensures var m := LoadTask(NewForm, t);
      m.title.value == Sanitize(t.title) && m.tags.value == Join(SanitizeEach(t.tags), ", ") &&
      m.editing && m.task == Some(t)
  {
    NewFormOk();
    SanitizeJoin(t.tags);
  }

  /**
   * What the submit makes of the due-date field a loaded task filled in:
   * blank without a due date; the due day's midnight for a four-digit year;
   * otherwise text that does not parse.
   */
  lemma LoadedDueText(t: Task)
    ensures var v := TrimSpace(LoadTask(NewForm, t).dueDate.value);
      (t.dueDate.None? ==> v == "") &&
      (t.dueDate.Some? && InFourDigitYears(t.dueDate.value) ==>
         v != "" && ParseDate(v) == Some(TruncateToDay(t.dueDate.value))) &&
      (t.dueDate.Some? && !InFourDigitYears(t.dueDate.value) ==> v != "" && ParseDate(v).None?)
  {
    LoadedDueValue(t);
    if t.dueDate.None? {
      assert TrimSpace([]) == [];
    } else if InFourDigitYears(t.dueDate.value) {
      DueTextInRange(t.dueDate.value);
    } else {
      DueTextOutOfRange(t.dueDate.value);
    }
  }

  /** The date of a four-digit year fits the field and reads back as its day's midnight. */
  lemma DueTextInRange(due: Time)
    requires InFourDigitYears(due)
    ensures var f := FormatDate(due); var v := TrimSpace(f[..Min(|f|, DueDateLimit)]);
      v != "" && ParseDate(v) == Some(TruncateToDay(due))
  {
    var f := FormatDate(due);
    FormatDateParses(due);
    assert Min(|f|, DueDateLimit) == |f|;
    var w := f[..Min(|f|, DueDateLimit)];
    assert w == f;
    TrimSpaceOfTrimmed(f);
    assert TrimSpace(w) == f;
  }

  /** Any other date is cut to ten characters that do not parse. */
  lemma DueTextOutOfRange(due: Time)
    requires !InFourDigitYears(due)
    ensures var f := FormatDate(due); var v := TrimSpace(f[..Min(|f|, DueDateLimit)]);
      v != "" && ParseDate(v).None?
  {
    var f := FormatDate(due);
    FormatDateOutOfRange(due);
    assert f[..Min(|f|, DueDateLimit)] == f[..10];
    TrimSpaceOfTrimmed(f[..10]);
  }

  /** The due-date field of a loaded task: the formatted date, cut to the field's ten characters, or blank. */
  lemma LoadedDueValue(t: Task)
    ensures LoadTask(NewForm, t).dueDate.value ==
      if t.dueDate.Some? then FormatDate(t.dueDate.value)[..Min(|FormatDate(t.dueDate.value)|, DueDateLimit)] else []
  {
    NewFormOk();
    if t.dueDate.Some? {
      var f := FormatDate(t.dueDate.value);
      assert PlainText(f) by {
        forall k | 0 <= k < |f| ensures !IsControl(f[k]) && f[k] != '\U{FFFD}' {
          assert DateChar(f[k]);
        }
      }
    }
  }
}

=== FILE: task_list.dfy ===
/**
 * internal/ui/models/task_list.go: the task list view's reducer. The
 * selection is an index into the loaded tasks; actions leave the list and
 * come back to the controller as `TaskActionMsg`s.
 */
module TaskList {
  import opened Base
  import opened Tasks
  import opened Messages

  datatype TaskListModel = TaskListModel(tasks: seq<Task>, selected: nat, loading: bool)

  const Initial: TaskListModel := TaskListModel([], 0, false)

  /** The selection points into the list whenever there is a list. */
  predicate Inv(m: TaskListModel)
  {
    |m.tasks| > 0 ==> m.selected < |m.tasks|
  }

  /**
   * The status toggle of the list and of the detail view: a done task goes
   * back to todo and keeps its completion stamp; anything else is completed.
   */
  function Toggle(t: Task, now: int): (r: Task)
    ensures SameContent(t, r)
    ensures t.status == Done ==> r.status == Todo && r.completedAt == t.completedAt && r.updatedAt == t.updatedAt
    ensures t.status != Done ==> r.status == Done && r.completedAt == Some(now) && r.updatedAt == now
  {
    if t.status == Done then t.(status := Todo) else Complete(t, now)
  }

  /** `LoadTasks`. */
  function LoadTasks(m: TaskListModel, tasks: seq<Task>): (r: TaskListModel)
    ensures r.tasks == tasks && Inv(r)
  {
    m.(tasks := tasks, selected := Clamp(m.selected, tasks))
  }

  function Act(a: TaskAction): seq<Effect>
  {
    [Emit(TaskActionMsg(a))]
  }

  /** `TaskListModel.Update`. */
  function Update(m: TaskListModel, msg: Msg, now: int): (r: Step<TaskListModel>)
    ensures Inv(m) ==> Inv(r.model)
    ensures r.model.tasks != m.tasks ==> msg.TaskListLoadedMsg? || (msg.KeyMsg? && Matches(msg.key, ToggleKeys))
  {
    match msg
    case KeyMsg(k) =>
      if |m.tasks| == 0 then
        if Matches(k, NewKeys) then Step(m, Act(NewTaskAction)) else Step(m, [])
      else if Matches(k, UpKeys) then
        Step(if m.selected > 0 then m.(selected := m.selected - 1) else m, [])
      else if Matches(k, DownKeys) then
        Step(if m.selected < |m.tasks| - 1 then m.(selected := m.selected + 1) else m, [])
      else if Matches(k, EnterKeys) then
        if m.selected < |m.tasks| then Step(m, Act(SelectTask(m.tasks[m.selected]))) else Step(m, [])
      else if Matches(k, NewKeys) then
        Step(m, Act(NewTaskAction))
      else if Matches(k, EditKeys) then
        if m.selected < |m.tasks| then Step(m, Act(EditTask(m.tasks[m.selected]))) else Step(m, [])
      else if Matches(k, ToggleKeys) then
        if m.selected < |m.tasks| then
          var t := Toggle(m.tasks[m.selected], now);
          Step(m.(tasks := m.tasks[m.selected := t]), Act(UpdateTask(t)))
        else Step(m, [])
      else if Matches(k, DeleteKeys) then
        if m.selected < |m.tasks| then Step(m, Act(DeleteTask(m.tasks[m.selected]))) else Step(m, [])
      else Step(m, [])
    case TaskListLoadedMsg(tasks) =>
      Step(m.(tasks := tasks, loading := false, selected := Clamp(m.selected, tasks)), [])
    case _ => Step(m, [])
  }

  /** With nothing listed, `n` asks for a new task and every other key does nothing. */
  lemma EmptyListOnlyNew(m: TaskListModel, k: Key, now: int)
    requires |m.tasks| == 0
    ensures Matches(k, NewKeys) ==> Update(m, KeyMsg(k), now) == Step(m, [Emit(TaskActionMsg(NewTaskAction))])
    ensures !Matches(k, NewKeys) ==> Update(m, KeyMsg(k), now) == Step(m, [])
  {
  }

  /** Up and down move by one and stop at the ends. */
  lemma NavigationClamps(m: TaskListModel, now: int)
    requires Inv(m) && |m.tasks| > 0
    ensures Update(m, KeyMsg(Special("up")), now).model.selected == if m.selected == 0 then 0 else m.selected - 1
    ensures Update(m, KeyMsg(Special("down")), now).model.selected ==
      if m.selected == |m.tasks| - 1 then m.selected else m.selected + 1
    ensures Update(m, KeyMsg(Special("up")), now).effects == [] && Update(m, KeyMsg(Special("down")), now).effects == []
    ensures Update(m, KeyMsg(Special("up")), now).model.tasks == m.tasks
  {
  }

  /** Enter, `e` and `d` hand the selected task to the controller and leave the list as it is. */
  lemma ActionsCarrySelection(m: TaskListModel, now: int)
    requires Inv(m) && |m.tasks| > 0
    ensures Update(m, KeyMsg(Special("enter")), now) == Step(m, [Emit(TaskActionMsg(SelectTask(m.tasks[m.selected])))])
    ensures Update(m, KeyMsg(Runes("e")), now) == Step(m, [Emit(TaskActionMsg(EditTask(m.tasks[m.selected])))])
    ensures Update(m, KeyMsg(Runes("d")), now) == Step(m, [Emit(TaskActionMsg(DeleteTask(m.tasks[m.selected])))])
  {
  }

  /**
   * `t` toggles the selected task only, announces it as an update, and a
   * done task reopened this way keeps its completion stamp.
   */
  lemma ToggleChangesOnlySelected(m: TaskListModel, now: int)
    requires Inv(m) && |m.tasks| > 0
    ensures var r := Update(m, KeyMsg(Runes("t")), now);
      var t := r.model.tasks[m.selected];
      |r.model.tasks| == |m.tasks| && r.model.selected == m.selected &&
      (forall i :: 0 <= i < |m.tasks| && i != m.selected ==> r.model.tasks[i] == m.tasks[i]) &&
      r.effects == [Emit(TaskActionMsg(UpdateTask(t)))] &&
      (m.tasks[m.selected].status == Done ==>
        t.status == Todo && t.completedAt == m.tasks[m.selected].completedAt) &&
      (m.tasks[m.selected].status != Done ==> t.status == Done && t.completedAt == Some(now))
  {
  }

  /** A loaded list replaces the old one; an empty one keeps the index, a shorter one clamps it. */
  lemma LoadedClamps(m: TaskListModel, tasks: seq<Task>, now: int)
    ensures var r := Update(m, TaskListLoadedMsg(tasks), now);
      r.model.tasks == tasks && !r.model.loading && r.effects == [] &&
      (|tasks| == 0 ==> r.model.selected == m.selected) &&
      (0 < |tasks| <= m.selected ==> r.model.selected == |tasks| - 1) &&
      (m.selected < |tasks| ==> r.model.selected == m.selected)
  {
  }

  /** The loaded message and `LoadTasks` agree on the list and the selection. */
  lemma LoadedIsLoadTasks(m: TaskListModel, tasks: seq<Task>, now: int)
    ensures Update(m, TaskListLoadedMsg(tasks), now).model == LoadTasks(m, tasks).(loading := false)
  {
  }
}

=== FILE: task_repo.dfy ===
/**
 * internal/repository/sqlite/task_repository.go over the abstract store.
 * A stored task reads back exactly as written: an empty project id is
 * written as NULL and read back as "", and tags and metadata survive their
 * JSON round trip. Store values always carry their own key as id, as the
 * primary-key column does.
 */
module TaskRepo {
  import opened Base
  import opened Calendar
  import opened Text
  import opened Errors
  import opened Tasks
  import opened Store

  datatype TaskFilter = TaskFilter(
    status: seq<TaskStatus>,
    priority: seq<Priority>,
    projectId: Id,
    workspace: string,
    tags: seq<string>,
    dueBefore: Option<Time>,
    dueAfter: Option<Time>,
    search: string,
    limit: int,
    offset: int)

  const NoFilter: TaskFilter := TaskFilter([], [], "", "", [], None, None, "", 0, 0)

  /**
   * The WHERE clause `List` builds. A NULL due date fails both bounds, and a
   * NULL project never equals a requested one. The tags field adds nothing.
   */
  predicate Matches(f: TaskFilter, t: Task)
  {
    (|f.status| == 0 || t.status in f.status) &&
    (|f.priority| == 0 || t.priority in f.priority) &&
    (f.projectId == "" || t.projectId == f.projectId) &&
    (f.workspace == "" || t.workspace == f.workspace) &&
    (f.dueBefore.None? || (t.dueDate.Some? && t.dueDate.value <= f.dueBefore.value)) &&
    (f.dueAfter.None? || (t.dueDate.Some? && t.dueDate.value >= f.dueAfter.value)) &&
    (f.search == "" || SearchMatches(f.search, t.title) || SearchMatches(f.search, t.description))
  }

  function CreatedKey(t: Task): int { t.createdAt }

  /** `Create`: INSERT; the id must be new and the project and parent must exist once the row is in. */
  function Create(s: Store, t: Task): (r: Result<Store, Error>)
    ensures r.Ok? <==> t.id !in s.tasks && TaskRefsOk(s.(tasks := s.tasks[t.id := t]), t)
    ensures r.Err? && t.id in s.tasks ==> r.error == Wrapped("failed to create task", UniqueViolation("tasks.id"))
    ensures r.Err? && t.id !in s.tasks ==> r.error == Wrapped("failed to create task", ForeignKeyViolation)
    ensures r.Ok? ==> GetByID(r.value, t.id) == Ok(t)
    ensures r.Ok? ==> r.value.tasks.Keys == s.tasks.Keys + {t.id}
    ensures r.Ok? ==> forall id :: id in s.tasks ==> r.value.tasks[id] == s.tasks[id]
    ensures r.Ok? ==> r.value.projects == s.projects && r.value.entries == s.entries
  {
    var s' := s.(tasks := s.tasks[t.id := t]);
    if t.id in s.tasks then Err(Wrapped("failed to create task", UniqueViolation("tasks.id")))
    else if !TaskRefsOk(s', t) then Err(Wrapped("failed to create task", ForeignKeyViolation))
    else Ok(s')
  }

  /** `GetByID`: the row, or ErrTaskNotFound when the query returns none. */
  function GetByID(s: Store, id: Id): (r: Result<Task, Error>)
    ensures r.Ok? <==> id in s.tasks
    ensures r.Err? ==> r.error == TaskNotFound
    ensures r.Ok? ==> r.value in s.tasks.Values
  {
    if id in s.tasks then Ok(s.tasks[id]) else Err(TaskNotFound)
  }

  /**
   * `Update`: UPDATE ... WHERE id = ?. No matching row is ErrTaskNotFound;
   * created_at is not among the updated columns, so the stored creation
   * stamp survives.
   */
  function Update(s: Store, t: Task): (r: Result<Store, Error>)
    ensures t.id !in s.tasks ==> r == Err(TaskNotFound)
    ensures r.Ok? ==> t.id in s.tasks && GetByID(r.value, t.id) == Ok(t.(createdAt := s.tasks[t.id].createdAt))
    ensures r.Ok? ==> r.value.tasks.Keys == s.tasks.Keys
    ensures r.Ok? ==> forall id :: id in s.tasks && id != t.id ==> r.value.tasks[id] == s.tasks[id]
    ensures r.Ok? ==> r.value.projects == s.projects && r.value.entries == s.entries
    ensures r.Err? && t.id in s.tasks ==> r.error == Wrapped("failed to update task", ForeignKeyViolation)
    ensures t.id in s.tasks ==>
      var stored := t.(createdAt := s.tasks[t.id].createdAt);
      (r.Ok? <==> TaskRefsOk(s.(tasks := s.tasks[t.id := stored]), stored))
  {
    if t.id !in s.tasks then Err(TaskNotFound)
    else
      var stored := t.(createdAt := s.tasks[t.id].createdAt);
      var s' := s.(tasks := s.tasks[t.id := stored]);
      if !TaskRefsOk(s', stored) then Err(Wrapped("failed to update task", ForeignKeyViolation))
      else Ok(s')
  }

  /**
   * `Delete`: no matching row is ErrTaskNotFound; otherwise the task goes,
   * and ON DELETE CASCADE takes its subtasks (transitively) and every time
   * entry of a removed task with it.
   */
  function Delete(s: Store, id: Id): (r: Result<Store, Error>)
    ensures id !in s.tasks <==> r == Err(TaskNotFound)
    ensures r.Ok? ==> id !in r.value.tasks
    ensures r.Ok? ==> forall k :: k in r.value.tasks ==> k in s.tasks && r.value.tasks[k] == s.tasks[k]
    ensures r.Ok? ==> forall k :: k in s.tasks && s.tasks[k].parentId == Some(id) ==> k !in r.value.tasks
    ensures r.Ok? ==> forall k :: k in r.value.entries ==> r.value.entries[k].taskId in r.value.tasks || r.value.entries[k].taskId !in s.tasks
    ensures r.Ok? ==> r.value.projects == s.projects
    ensures r.Ok? ==> r.value.tasks.Keys == s.tasks.Keys - Descendants(s.tasks, {id})
    ensures r.Ok? ==> forall k :: k in r.value.entries <==> k in s.entries && s.entries[k].taskId !in Descendants(s.tasks, {id})
    ensures r.Ok? ==> forall k :: k in r.value.entries ==> r.value.entries[k] == s.entries[k]
  {
    if id !in s.tasks then Err(TaskNotFound)
    else Ok(RemoveTasks(s, Descendants(s.tasks, {id})))
  }

  /** `GetSubtasks`: the tasks whose parent is `parentId`, oldest first. */
  ghost function GetSubtasks(s: Store, parentId: Id): (r: seq<Task>)
    ensures forall t :: t in r <==> t in s.tasks.Values && t.parentId == Some(parentId)
    ensures SortedAsc(r, CreatedKey)
  {
    SortAsc((set t | t in s.tasks.Values && t.parentId == Some(parentId)), CreatedKey)
  }

  /** `List`: the matching tasks, newest first, then LIMIT/OFFSET. */
  ghost function List(s: Store, f: TaskFilter): (r: Result<seq<Task>, Error>)
    ensures r.Err? <==> f.limit <= 0 && f.offset > 0
    ensures r.Err? ==> r.error == Wrapped("failed to list tasks", SyntaxError("OFFSET"))
    ensures r.Ok? ==> forall t :: t in r.value ==> t in s.tasks.Values && Matches(f, t)
    ensures r.Ok? ==> SortedDesc(r.value, CreatedKey)
    ensures r.Ok? && f.limit > 0 ==> |r.value| <= f.limit
    ensures r.Ok? && f.limit <= 0 ==> forall t :: t in s.tasks.Values && Matches(f, t) ==> t in r.value
  {
    var all := SortDesc((set t | t in s.tasks.Values && Matches(f, t)), CreatedKey);
    var page := Page(all, f.limit, f.offset);
    if page.Err? then Err(Wrapped("failed to list tasks", page.error))
    else
      PageKeepsOrder(all, CreatedKey, f.limit, f.offset);
      Ok(page.value)
  }

  /** The tags field of the filter has no effect on the listing. */
  lemma ListIgnoresTags(s: Store, f: TaskFilter, tags: seq<string>)
    ensures List(s, f.(tags := tags)) == List(s, f)
  {
    var g := f.(tags := tags);
    assert (set t | t in s.tasks.Values && Matches(g, t)) == (set t | t in s.tasks.Values && Matches(f, t));
  }

  /** A task without a due date never passes a due-date bound. */
  lemma NoDueDateExcluded(f: TaskFilter, t: Task)
    requires f.dueBefore.Some? || f.dueAfter.Some?
    requires t.dueDate.None?
    ensures !Matches(f, t)
  {
  }

  /** The empty filter matches every task. */
  lemma NoFilterMatchesAll(t: Task)
    ensures Matches(NoFilter, t)
  {
  }

  /** A search term free of LIKE wildcards matches exactly when it occurs, ASCII case aside, in the title or the description. */
  lemma SearchMatchesSubstring(term: string, t: Task)
    requires term != "" && !HasWildcard(term)
    ensures Matches(NoFilter.(search := term), t) <==>
      (exists i :: FoldedAt(term, t.title, i)) || (exists i :: FoldedAt(term, t.description, i))
  {
    SearchIsFoldedSubstring(term, t.title);
    SearchIsFoldedSubstring(term, t.description);
  }

  lemma CreateKeepsValid(s: Store, t: Task)
    requires Valid(s) && Create(s, t).Ok?
    ensures Valid(Create(s, t).value)
  {
    var r := Create(s, t).value;
    var stored := t;
    assert r == s.(tasks := s.tasks[t.id := stored]);
    forall k | k in r.tasks ensures r.tasks[k].id == k && TaskRefsOk(r, r.tasks[k]) {
      if k != t.id {
        assert r.tasks[k] == s.tasks[k] && TaskRefsOk(s, s.tasks[k]);
      }
    }
    forall k | k in r.projects ensures r.projects[k].id == k && NameFree(r, r.projects[k].name, k) {
      assert NameFree(s, s.projects[k].name, k);
    }
    forall k | k in r.entries
      ensures r.entries[k].id == k && EntryRefsOk(r, r.entries[k]) && r.entries[k].duration >= 0
    {
      assert r.entries[k] == s.entries[k] && EntryRefsOk(s, s.entries[k]);
    }
  }

  lemma UpdateKeepsValid(s: Store, t: Task)
    requires Valid(s) && Update(s, t).Ok?
    ensures Valid(Update(s, t).value)
  {
    var r := Update(s, t).value;
    var stored := t.(createdAt := s.tasks[t.id].createdAt);
    assert r == s.(tasks := s.tasks[t.id := stored]);
    forall k | k in r.tasks ensures r.tasks[k].id == k && TaskRefsOk(r, r.tasks[k]) {
      if k != t.id {
        assert r.tasks[k] == s.tasks[k] && TaskRefsOk(s, s.tasks[k]);
      }
    }
    forall k | k in r.projects ensures r.projects[k].id == k && NameFree(r, r.projects[k].name, k) {
      assert NameFree(s, s.projects[k].name, k);
    }
    forall k | k in r.entries
      ensures r.entries[k].id == k && EntryRefsOk(r, r.entries[k]) && r.entries[k].duration >= 0
    {
      assert r.entries[k] == s.entries[k] && EntryRefsOk(s, s.entries[k]);
    }
  }

  /** Deleting a task leaves no dangling reference: the cascade took every subtask and entry. */
  lemma DeleteKeepsValid(s: Store, id: Id)
    requires Valid(s) && Delete(s, id).Ok?
    ensures Valid(Delete(s, id).value)
  {
    RemoveClosedKeepsValid(s, Descendants(s.tasks, {id}));
  }

  /** Deleting a task takes every task below it, at any depth, and nothing else stays behind changed. */
  lemma DeleteTakesSubtree(s: Store, id: Id, k: Id)
    requires id in s.tasks && k in s.tasks
    requires s.tasks[k].parentId.Some? && s.tasks[k].parentId.value !in Delete(s, id).value.tasks
    requires s.tasks[k].parentId.value in s.tasks
    ensures k !in Delete(s, id).value.tasks
  {
  }
}

=== FILE: task_service.dfy ===
/**
 * internal/service/task/service.go: task creation and update with their
 * validation. The natural-language date parser is a parameter (a partial
 * function of the text and the clock); the git integration is the current
 * branch, when one can be read.
 */
module TaskService {
  import opened Base
  import opened Calendar
  import opened Errors
  import opened Tasks
  import opened Store
  import TaskRepo

  /** The natural-language date parser: a date for the text, or none. */
  type DueParser = (string, Time) -> Option<Time>

  /** `parseDueDate`. */
  function ParseDueDate(parse: DueParser, text: string, now: Time): (r: Result<Time, Error>)
    ensures r.Err? <==> parse(text, now).None?
    ensures r.Err? ==> r.error == DateNotRecognised(text)
  {
    match parse(text, now)
    case Some(t) => Ok(t)
    case None => Err(DateNotRecognised(text))
  }

  datatype CreateTaskInput = CreateTaskInput(
    title: string,
    description: string,
    priority: Priority,
    projectId: Id,
    parentId: Option<Id>,
    tags: seq<string>,
    changelist: string,
    dueDate: string)

  /** The task `CreateTask` builds before storing it. */
  function BuildTask(input: CreateTaskInput, id: Id, due: Option<Time>, branch: Option<string>, now: Time): (t: Task)
    ensures t.id == id && t.title == input.title && t.description == input.description
    ensures t.status == Todo && t.priority == input.priority && t.projectId == input.projectId
    ensures t.parentId == input.parentId && t.changelist == input.changelist && t.dueDate == due
    ensures branch.Some? && branch.value != "" ==>
      t.tags == (if "branch:" + branch.value in input.tags then input.tags else input.tags + ["branch:" + branch.value]) &&
      t.metadata == map["git_branch" := branch.value]
    ensures !(branch.Some? && branch.value != "") ==> t.tags == input.tags && t.metadata == map[]
  {
    var t := NewTask(id, input.title, input.description, now).(
      priority := input.priority, projectId := input.projectId, parentId := input.parentId,
      tags := input.tags, changelist := input.changelist, dueDate := due);
    if branch.Some? && branch.value != "" then
      var tagged := AddTag(t, "branch:" + branch.value, now);
      tagged.(metadata := tagged.metadata["git_branch" := branch.value])
    else t
  }

  /**
   * `CreateTask`: an empty title is refused, a due date that does not parse
   * aborts the creation, and the new task is stored.
   */
  function CreateTask(s: Store, input: CreateTaskInput, id: Id, now: Time, parse: DueParser, branch: Option<string>)
    : (r: Result<(Store, Task), Error>)
    ensures input.title == "" ==> r == Err(EmptyTitle)
    ensures input.title != "" && input.dueDate != "" && parse(input.dueDate, now).None? ==>
      r == Err(Wrapped("invalid due date format", DateNotRecognised(input.dueDate)))
    ensures r.Ok? ==> var (s', t) := r.value;
      t.status == Todo && t.title == input.title && t.id == id &&
      t.priority == input.priority && t.projectId == input.projectId && t.parentId == input.parentId &&
      t.changelist == input.changelist && (forall tag :: tag in input.tags ==> tag in t.tags) &&
      (branch.Some? && branch.value != "" ==> HasTag(t, "branch:" + branch.value)) &&
      TaskRepo.GetByID(s', id) == Ok(t)
    ensures r.Ok? ==> var (s', t) := r.value;
      t.description == input.description &&
      t.dueDate == (if input.dueDate == "" then None else parse(input.dueDate, now)) &&
      t == BuildTask(input, id, t.dueDate, branch, now) &&
      s'.tasks == s.tasks[id := t] && s'.projects == s.projects && s'.entries == s.entries
    ensures input.title != "" && (input.dueDate == "" || parse(input.dueDate, now).Some?) ==>
      var due := if input.dueDate == "" then None else parse(input.dueDate, now);
      var stored := TaskRepo.Create(s, BuildTask(input, id, due, branch, now));
      (r.Ok? <==> stored.Ok?) &&
      (r.Err? ==> r.error == Wrapped("failed to create task", stored.error))
  {
    if input.title == "" then Err(EmptyTitle)
    else
      var due :=
        if input.dueDate == "" then Ok(None)
        else match ParseDueDate(parse, input.dueDate, now)
          case Ok(d) => Ok(Some(d))
          case Err(e) => Err(Wrapped("invalid due date format", e));
      if due.Err? then Err(due.error)
      else
        var t := BuildTask(input, id, due.value, branch, now);
        match TaskRepo.Create(s, t)
        case Err(e) => Err(Wrapped("failed to create task", e))
        case Ok(s') => Ok((s', t))
  }

  /** The branch tag is added once even when the caller already supplied it. */
  lemma BranchTagNotDuplicated(input: CreateTaskInput, id: Id, due: Option<Time>, b: string, now: Time)
    requires b != "" && NoDuplicates(input.tags)
    ensures NoDuplicates(BuildTask(input, id, due, Some(b), now).tags)
  {
  }

  datatype UpdateTaskInput = UpdateTaskInput(
    id: Id,
    title: Option<string>,
    description: Option<string>,
    status: Option<TaskStatus>,
    priority: Option<Priority>,
    projectId: Option<Id>,
    parentId: Option<Id>,
    tags: Option<seq<string>>,
    changelist: Option<string>,
    dueDate: Option<string>)

  function OnlyStatus(id: Id, status: TaskStatus): UpdateTaskInput
  {
    UpdateTaskInput(id, None, None, Some(status), None, None, None, None, None, None)
  }

  /**
   * Applies the non-nil fields of the input to `t`; the due date is the one
   * already parsed. Identity, workspace, creation time and metadata are never
   * touched.
   */
  function ApplyUpdate(t: Task, input: UpdateTaskInput, due: Option<Time>, now: Time): (r: Task)
    ensures r.id == t.id && r.workspace == t.workspace && r.createdAt == t.createdAt && r.metadata == t.metadata
    ensures r.updatedAt == now
    ensures input.status.Some? ==> r.status == input.status.value && (r.completedAt.Some? <==> r.status == Done)
    ensures input.status.None? ==> r.status == t.status && r.completedAt == t.completedAt
    ensures input.title.Some? ==> r.title == input.title.value
    ensures input.tags.Some? ==> r.tags == input.tags.value
    ensures input.dueDate.Some? ==> r.dueDate == due
  {
    t.(
      title := input.title.GetOr(t.title),
      description := input.description.GetOr(t.description),
      status := input.status.GetOr(t.status),
      completedAt :=
        if input.status.None? then t.completedAt
        else if input.status.value == Done then Some(now) else None,
      priority := input.priority.GetOr(t.priority),
      projectId := input.projectId.GetOr(t.projectId),
      parentId := if input.parentId.Some? then input.parentId else t.parentId,
      tags := input.tags.GetOr(t.tags),
      changelist := input.changelist.GetOr(t.changelist),
      dueDate := if input.dueDate.Some? then due else t.dueDate,
      updatedAt := now)
  }

  /** An input with no fields set only bumps `updatedAt`. */
  lemma EmptyUpdateOnlyBumps(t: Task, id: Id, due: Option<Time>, now: Time)
    ensures ApplyUpdate(t, UpdateTaskInput(id, None, None, None, None, None, None, None, None, None), due, now)
      == t.(updatedAt := now)
  {
  }

  /** An input setting only the status to done is the domain `Complete`. */
  lemma DoneUpdateIsComplete(t: Task, id: Id, due: Option<Time>, now: Time)
    ensures ApplyUpdate(t, OnlyStatus(id, Done), due, now) == Complete(t, now)
  {
  }

  /**
   * `UpdateTask`: an empty id, an unknown id, an empty title and an
   * unparseable due date are refused before anything is written.
   */
  function UpdateTask(s: Store, input: UpdateTaskInput, now: Time, parse: DueParser): (r: Result<(Store, Task), Error>)
    requires Valid(s)
    ensures input.id == "" ==> r == Err(InvalidTaskID)
    ensures input.id != "" && input.id !in s.tasks ==> r == Err(Wrapped("failed to get task for update", TaskNotFound))
    ensures input.id != "" && input.id in s.tasks && input.title == Some("") ==> r == Err(EmptyTitle)
    ensures r.Ok? ==> input.id in s.tasks && TaskRepo.GetByID(r.value.0, input.id) == Ok(r.value.1)
    ensures r.Ok? ==> var old_ := s.tasks[input.id]; var t := r.value.1;
      t.id == input.id && t.updatedAt == now &&
      (input.status.Some? ==> t.status == input.status.value && (t.completedAt.Some? <==> t.status == Done)) &&
      (input.status.None? ==> t.status == old_.status && t.completedAt == old_.completedAt) &&
      (input.title.None? ==> t.title == old_.title) &&
      (input.description.None? ==> t.description == old_.description) &&
      (input.priority.None? ==> t.priority == old_.priority) &&
      (input.projectId.None? ==> t.projectId == old_.projectId) &&
      (input.parentId.None? ==> t.parentId == old_.parentId) &&
      (input.tags.None? ==> t.tags == old_.tags) &&
      (input.changelist.None? ==> t.changelist == old_.changelist) &&
      (input.dueDate.None? ==> t.dueDate == old_.dueDate) &&
      (input.dueDate == Some("") ==> t.dueDate.None?)
    ensures r.Ok? ==> var t := r.value.1;
      (input.title.Some? ==> t.title == input.title.value) &&
      (input.description.Some? ==> t.description == input.description.value) &&
      (input.priority.Some? ==> t.priority == input.priority.value) &&
      (input.projectId.Some? ==> t.projectId == input.projectId.value) &&
      (input.parentId.Some? ==> t.parentId == input.parentId) &&
      (input.tags.Some? ==> t.tags == input.tags.value) &&
      (input.changelist.Some? ==> t.changelist == input.changelist.value) &&
      (input.dueDate.Some? && input.dueDate.value != "" ==>
        ParseDueDate(parse, input.dueDate.value, now).Ok? &&
        t.dueDate == Some(ParseDueDate(parse, input.dueDate.value, now).value))
    ensures r.Ok? ==> var old_ := s.tasks[input.id]; var t := r.value.1;
      t.createdAt == old_.createdAt && t.workspace == old_.workspace && t.metadata == old_.metadata
    ensures (input.id != "" && input.id in s.tasks && input.title != Some("") &&
      (input.dueDate.None? || input.dueDate.value == "" || ParseDueDate(parse, input.dueDate.value, now).Ok?)) ==>
      var due := if input.dueDate.None? || input.dueDate.value == "" then None
        else Some(ParseDueDate(parse, input.dueDate.value, now).value);
      var u := ApplyUpdate(s.tasks[input.id], input, due, now);
      (r.Ok? <==> TaskRepo.Update(s, u).Ok?) &&
      (r.Ok? ==> r.value.0 == s.(tasks := s.tasks[input.id := u])) &&
      (r.Err? ==> r.error == Wrapped("failed to update task", TaskRepo.Update(s, u).error))
  {
    if input.id == "" then Err(InvalidTaskID)
    else match TaskRepo.GetByID(s, input.id)
      case Err(e) => Err(Wrapped("failed to get task for update", e))
      case Ok(t) =>
        if input.title == Some("") then Err(EmptyTitle)
        else
          var due :=
            if input.dueDate.None? || input.dueDate.value == "" then Ok(None)
            else match ParseDueDate(parse, input.dueDate.value, now)
              case Ok(d) => Ok(Some(d))
              case Err(e) => Err(Wrapped("invalid due date format", e));
          if due.Err? then Err(due.error)
          else
            var updated := ApplyUpdate(t, input, due.value, now);
            match TaskRepo.Update(s, updated)
            case Err(e) => Err(Wrapped("failed to update task", e))
            case Ok(s') => Ok((s', updated))
  }

  /** An unparseable due date makes the whole update fail. */
  lemma UpdateRejectsBadDueDate(s: Store, input: UpdateTaskInput, now: Time, parse: DueParser)
    requires Valid(s)
    requires input.id != "" && input.id in s.tasks && input.title != Some("")
    requires input.dueDate.Some? && input.dueDate.value != "" && parse(input.dueDate.value, now).None?
    ensures UpdateTask(s, input, now, parse) == Err(Wrapped("invalid due date format", DateNotRecognised(input.dueDate.value)))
  {
    assert TaskRepo.GetByID(s, input.id) == Ok(s.tasks[input.id]);
  }

  /** `DeleteTask`: an empty id is refused; otherwise the repository's cascading delete. */
  function DeleteTask(s: Store, id: Id): (r: Result<Store, Error>)
    ensures id == "" ==> r == Err(InvalidTaskID)
    ensures id != "" ==> (r.Ok? <==> id in s.tasks)
    ensures r.Ok? ==> id !in r.value.tasks
  {
    if id == "" then Err(InvalidTaskID)
    else match TaskRepo.Delete(s, id)
      case Err(e) => Err(Wrapped("failed to delete task", e))
      case Ok(s') => Ok(s')
  }

  /** `CompleteTask`: `UpdateTask` with only the status set to done. */
  function CompleteTask(s: Store, id: Id, now: Time, parse: DueParser): (r: Result<Store, Error>)
    requires Valid(s)
    ensures r.Ok? ==> id in r.value.tasks && r.value.tasks[id].status == Done && r.value.tasks[id].completedAt == Some(now)
  {
    match UpdateTask(s, OnlyStatus(id, Done), now, parse)
    case Err(e) => Err(e)
    case Ok((s', _)) => Ok(s')
  }

  /** Completing through the service agrees with the entity's own `Complete` on every field but the creation stamp. */
  lemma CompleteTaskIsComplete(s: Store, id: Id, now: Time, parse: DueParser)
    requires Valid(s) && id != "" && id in s.tasks
    ensures CompleteTask(s, id, now, parse).Ok?
    ensures CompleteTask(s, id, now, parse).value.tasks[id] == Complete(s.tasks[id], now)
  {
    var t := s.tasks[id];
    assert TaskRepo.GetByID(s, id) == Ok(t);
    var updated := ApplyUpdate(t, OnlyStatus(id, Done), None, now);
    assert updated == Complete(t, now);
    var s' := s.(tasks := s.tasks[id := updated]);
    assert TaskRefsOk(s, t);
    assert TaskRefsOk(s', updated);
  }

  /** Reopening a task through `UpdateTask` clears its completion stamp (unlike the interactive toggle). */
  lemma ReopenClearsCompletion(s: Store, id: Id, now: Time, parse: DueParser)
    requires Valid(s)
    requires UpdateTask(s, OnlyStatus(id, Todo), now, parse).Ok?
    ensures UpdateTask(s, OnlyStatus(id, Todo), now, parse).value.1.completedAt.None?
  {
  }
}

=== FILE: tasks.dfy ===
/**
 * internal/domain/task.go: the Task entity and its mutators. Mutators that
 * read `time.Now()` take the instant as a parameter and return the new value.
 */
module Tasks {
  import opened Base
  import opened Calendar

  datatype TaskStatus = Backlog | Todo | Doing | Done | Blocked

  /** Priorities are plain integers; 0..3 are the named levels. */
  type Priority = int

  const PriorityLow: Priority := 0
  const PriorityNormal: Priority := 1
  const PriorityHigh: Priority := 2
  const PriorityCritical: Priority := 3

  /** `Priority.String`: the named levels by name, every other value as "normal". */
  function PriorityString(p: Priority): (r: string)
    ensures r in {"low", "normal", "high", "critical"}
    ensures r == "normal" <==> !(p == PriorityLow || p == PriorityHigh || p == PriorityCritical)
    ensures r == "low" <==> p == PriorityLow
    ensures r == "critical" <==> p == PriorityCritical
  {
    if p == PriorityLow then "low"
    else if p == PriorityNormal then "normal"
    else if p == PriorityHigh then "high"
    else if p == PriorityCritical then "critical"
    else "normal"
  }

  datatype Task = Task(
    id: Id,
    title: string,
    description: string,
    status: TaskStatus,
    priority: Priority,
    projectId: Id,              // "" means no project
    parentId: Option<Id>,
    tags: seq<string>,
    changelist: string,
    workspace: string,
    dueDate: Option<Time>,
    createdAt: Time,
    updatedAt: Time,
    completedAt: Option<Time>,
    metadata: map<string, string>)

  /** The two tasks agree on everything but status, completion and update stamps. */
  predicate SameContent(a: Task, b: Task)
  {
    a.(status := b.status, completedAt := b.completedAt, updatedAt := b.updatedAt) == b
  }

  /** The two tasks agree on everything but their tags and update stamp. */
  predicate SameExceptTags(a: Task, b: Task)
  {
    a.(tags := b.tags, updatedAt := b.updatedAt) == b
  }

  /** `NewTask`: a fresh to-do task with normal priority, no tags and no project. */
  function NewTask(id: Id, title: string, description: string, now: Time): (t: Task)
    ensures t.id == id && t.title == title && t.description == description
    ensures t.status == Todo && t.priority == PriorityNormal && t.tags == []
    ensures t.createdAt == now && t.updatedAt == now && t.completedAt.None?
    ensures t.projectId == "" && t.parentId.None? && t.dueDate.None? && t.changelist == ""
    ensures t.metadata == map[]
  {
    Task(id, title, description, Todo, PriorityNormal, "", None, [], "", "", None, now, now, None, map[])
  }

  /** `Complete`: status done, completed and updated now; nothing else changes. */
  function Complete(t: Task, now: Time): (r: Task)
    ensures r.status == Done && r.completedAt == Some(now) && r.updatedAt == now
    ensures SameContent(t, r)
  {
    t.(status := Done, completedAt := Some(now), updatedAt := now)
  }

  /** `Start`: status doing; an earlier completion stamp is kept. */
  function Start(t: Task, now: Time): (r: Task)
    ensures r.status == Doing && r.updatedAt == now && r.completedAt == t.completedAt
    ensures SameContent(t, r)
  {
    t.(status := Doing, updatedAt := now)
  }

  /** `Block`: status blocked; an earlier completion stamp is kept. */
  function Block(t: Task, now: Time): (r: Task)
    ensures r.status == Blocked && r.updatedAt == now && r.completedAt == t.completedAt
    ensures SameContent(t, r)
  {
    t.(status := Blocked, updatedAt := now)
  }

  /** `HasTag`. */
  predicate HasTag(t: Task, tag: string)
  {
    tag in t.tags
  }

  /** `AddTag`: appends the tag when absent (bumping the update stamp); a present tag is a no-op. */
  function AddTag(t: Task, tag: string, now: Time): (r: Task)
    ensures HasTag(r, tag)
    ensures tag in t.tags ==> r == t
    ensures tag !in t.tags ==> r.tags == t.tags + [tag] && r.updatedAt == now
    ensures SameExceptTags(t, r)
  {
    if tag in t.tags then t else t.(tags := t.tags + [tag], updatedAt := now)
  }

  /** The position of the first occurrence of `x`. */
  function IndexOf<T(==)>(xs: seq<T>, x: T): (i: nat)
    requires x in xs
    ensures i < |xs| && xs[i] == x && x !in xs[..i]
  {
    if xs[0] == x then 0 else 1 + IndexOf(xs[1..], x)
  }

  /** Drops the first occurrence of `tag`, element by element: the reference the splice is checked against. */
  function RemoveFirst(tags: seq<string>, tag: string): (r: seq<string>)
    ensures tag !in tags ==> r == tags
    ensures |r| == if tag in tags then |tags| - 1 else |tags|
  {
    if tags == [] then []
    else if tags[0] == tag then tags[1..]
    else
      assert tag in tags <==> tag in tags[1..];
      [tags[0]] + RemoveFirst(tags[1..], tag)
  }

  /** Cutting the slice around the first match, as `RemoveTag` does, is `RemoveFirst`. */
  lemma {:induction false} RemoveFirstIsSplice(tags: seq<string>, tag: string)
    requires tag in tags
    ensures RemoveFirst(tags, tag) == tags[..IndexOf(tags, tag)] + tags[IndexOf(tags, tag) + 1..]
  {
    if tags[0] != tag {
      assert tag in tags[1..];
      RemoveFirstIsSplice(tags[1..], tag);
      var rest := tags[1..];
      var j := IndexOf(rest, tag);
      assert IndexOf(tags, tag) == j + 1;
      calc {
        RemoveFirst(tags, tag);
        [tags[0]] + RemoveFirst(rest, tag);
        [tags[0]] + (rest[..j] + rest[j + 1..]);
        ([tags[0]] + rest[..j]) + rest[j + 1..];
        { assert [tags[0]] + rest[..j] == tags[..j + 1]; assert rest[j + 1..] == tags[j + 2..]; }
        tags[..j + 1] + tags[j + 2..];
      }
    }
  }

  /**
   * `RemoveTag`: deletes the first occurrence only, keeping the others in order,
   * and bumps the update stamp; an absent tag is a no-op.
   */
  function RemoveTag(t: Task, tag: string, now: Time): (r: Task)
    ensures r.tags == RemoveFirst(t.tags, tag)
    ensures tag !in t.tags ==> r == t
    ensures tag in t.tags ==> r.updatedAt == now
    ensures SameExceptTags(t, r)
  {
    if tag in t.tags then
      var i := IndexOf(t.tags, tag);
      RemoveFirstIsSplice(t.tags, tag);
      t.(tags := t.tags[..i] + t.tags[i + 1..], updatedAt := now)
    else t
  }

  predicate NoDuplicates<T(==)>(xs: seq<T>)
  {
    forall i, j :: 0 <= i < j < |xs| ==> xs[i] != xs[j]
  }

  /** Adding a tag twice is the same as adding it once. */
  lemma AddTagIdempotent(t: Task, tag: string, now1: Time, now2: Time)
    ensures AddTag(AddTag(t, tag, now1), tag, now2) == AddTag(t, tag, now1)
  {
  }

  /** On a list without duplicates, removing a tag makes `HasTag` false. */
  lemma RemoveTagRemoves(t: Task, tag: string, now: Time)
    requires NoDuplicates(t.tags)
    ensures !HasTag(RemoveTag(t, tag, now), tag)
  {
    if tag in t.tags {
      var i := IndexOf(t.tags, tag);
      var r := RemoveTag(t, tag, now).tags;
      forall k | 0 <= k < |r| ensures r[k] != tag {
        if k < i {
          assert r[k] == t.tags[k];
          assert t.tags[k] in t.tags[..i];
        } else {
          assert r[k] == t.tags[k + 1];
        }
      }
    }
  }

  /** Adding an absent tag and removing it again restores the tag list. */
  lemma AddThenRemoveTag(t: Task, tag: string, now1: Time, now2: Time)
    requires tag !in t.tags
    ensures RemoveTag(AddTag(t, tag, now1), tag, now2).tags == t.tags
  {
    var xs := t.tags + [tag];
    assert xs[|t.tags|] == tag;
    assert xs[..|t.tags|] == t.tags;
  }

  /** `AddTag` keeps a duplicate-free list duplicate-free. */
  lemma AddTagKeepsNoDuplicates(t: Task, tag: string, now: Time)
    requires NoDuplicates(t.tags)
    ensures NoDuplicates(AddTag(t, tag, now).tags)
  {
  }

  /** `IsOverdue`: a due date that has passed, on a task that is not done. */
  predicate IsOverdue(t: Task, now: Time)
    ensures IsOverdue(t, now) ==> t.dueDate.Some? && t.dueDate.value < now
    ensures t.status == Done || t.dueDate.None? ==> !IsOverdue(t, now)
    ensures t.dueDate.Some? && t.status != Done && t.dueDate.value < now ==> IsOverdue(t, now)
  {
    t.dueDate.Some? && t.status != Done && now > t.dueDate.value
  }

  /** An overdue task stays overdue as the clock moves on, until its status or due date changes. */
  lemma OverdueStaysOverdue(t: Task, now: Time, later: Time)
    requires IsOverdue(t, now) && now <= later
    ensures IsOverdue(t, later)
  {
  }

  /** Completing a task means it is no longer overdue, whatever the clock says. */
  lemma CompletedIsNeverOverdue(t: Task, now: Time, later: Time)
    ensures !IsOverdue(Complete(t, now), later)
  {
  }
}

=== FILE: text.dfy ===
/**
 * The parts of Go's `strings` package and of SQLite's `LIKE` operator that the
 * modelled code relies on: whitespace trimming, splitting on one separator
 * character, joining, prefix tests, decimal rendering and pattern matching.
 */
module Text {

  /** Go's `unicode.IsSpace`: the Latin-1 spaces plus the White_Space code points. */
  predicate IsSpace(c: char)
  {
    || c == ' ' || c == '\t' || c == '\n' || c == '\r' || c == '\U{B}' || c == '\U{C}'
    || c == '\U{85}' || c == '\U{A0}' || c == '\U{1680}'
    || ('\U{2000}' <= c <= '\U{200A}')
    || c == '\U{2028}' || c == '\U{2029}' || c == '\U{202F}' || c == '\U{205F}' || c == '\U{3000}'
  }

  /** The text with its leading white space removed. */
  function TrimLeft(s: string): (r: string)
    ensures |r| <= |s| && r == s[|s| - |r|..]
    ensures forall k :: 0 <= k < |s| - |r| ==> IsSpace(s[k])
    ensures r == [] || !IsSpace(r[0])
  {
    if s != [] && IsSpace(s[0]) then
      var t := s[1..];
      var r := TrimLeft(t);
      assert t[|t| - |r|..] == s[|s| - |r|..];
      assert forall k :: 1 <= k < |s| - |r| ==> s[k] == t[k - 1];
      r
    else s
  }

  /** The text with its trailing white space removed. */
  function TrimRight(s: string): (r: string)
    ensures |r| <= |s| && r == s[..|r|]
    ensures forall k :: |r| <= k < |s| ==> IsSpace(s[k])
    ensures r == [] || !IsSpace(r[|r| - 1])
  {
    if s != [] && IsSpace(s[|s| - 1]) then TrimRight(s[..|s| - 1]) else s
  }

  /** `strings.TrimSpace`: a contiguous piece of `s` that neither starts nor ends with white space. */
  function TrimSpace(s: string): (r: string)
    ensures r == [] || (!IsSpace(r[0]) && !IsSpace(r[|r| - 1]))
    ensures |r| <= |s|
  {
    TrimRight(TrimLeft(s))
  }

  /** Text that is already trimmed. */
  predicate IsTrimmed(s: string)
  {
    s == [] || (!IsSpace(s[0]) && !IsSpace(s[|s| - 1]))
  }

  /** Trimming only removes white space: the result is `s[i..j]` with a space-only prefix and suffix cut off. */
  lemma TrimSpaceIsInfix(s: string) returns (i: nat, j: nat)
    ensures i <= j <= |s| && TrimSpace(s) == s[i..j]
    ensures forall k :: 0 <= k < i ==> IsSpace(s[k])
    ensures forall k :: j <= k < |s| ==> IsSpace(s[k])
  {
    var l := TrimLeft(s);
    i := |s| - |l|;
    assert l == s[i..];
    var r := TrimRight(l);
    assert r == l[..|r|];
    j := i + |r|;
    assert s[i..j] == r by {
      forall k | 0 <= k < |r| ensures s[i..j][k] == r[k] {
        assert s[i + k] == l[k];
      }
    }
    forall k | j <= k < |s| ensures IsSpace(s[k]) {
      assert s[k] == l[k - i] && |r| <= k - i < |l|;
    }
  }

  /** Trimming leaves trimmed text alone, so it is idempotent. */
  lemma TrimSpaceOfTrimmed(s: string)
    requires IsTrimmed(s)
    ensures TrimSpace(s) == s
  {
  }

  lemma TrimSpaceIdempotent(s: string)
    ensures TrimSpace(TrimSpace(s)) == TrimSpace(s)
  {
    TrimSpaceOfTrimmed(TrimSpace(s));
  }

  /** A leading space never survives trimming. */
  lemma TrimSpaceDropsLeadingSpace(s: string)
    ensures TrimSpace(" " + s) == TrimSpace(s)
  {
    assert (" " + s)[1..] == s;
  }

  /** Text made only of white space trims to the empty string. */
  lemma TrimSpaceOfBlank(s: string)
    requires forall k :: 0 <= k < |s| ==> IsSpace(s[k])
    ensures TrimSpace(s) == []
  {
  }

  /**
   * `strings.Split(s, string(sep))`: the pieces between occurrences of `sep`.
   * Like Go, splitting the empty text yields one empty piece.
   */
  function Split(s: string, sep: char): (r: seq<string>)
    ensures |r| >= 1
    ensures forall i :: 0 <= i < |r| ==> sep !in r[i]
  {
    if s == [] then [[]]
    else
      var rest := Split(s[1..], sep);
      if s[0] == sep then [[]] + rest else [[s[0]] + rest[0]] + rest[1..]
  }

  /** `strings.Join(parts, sep)`. */
  function Join(parts: seq<string>, sep: string): (r: string)
  {
    if |parts| == 0 then []
    else if |parts| == 1 then parts[0]
    else parts[0] + sep + Join(parts[1..], sep)
  }

  /** Gluing text onto the first piece glues it onto the joined text. */
  lemma JoinPrepend(x: string, parts: seq<string>, sep: string)
    requires |parts| >= 1
    ensures Join([x + parts[0]] + parts[1..], sep) == x + Join(parts, sep)
  {
    var q := [x + parts[0]] + parts[1..];
    assert q[0] == x + parts[0] && |q| == |parts|;
    if |parts| > 1 {
      assert q[1..] == parts[1..];
      calc {
        Join(q, sep);
        q[0] + sep + Join(q[1..], sep);
        x + parts[0] + sep + Join(parts[1..], sep);
        x + (parts[0] + sep + Join(parts[1..], sep));
      }
    }
  }

  /** Splitting then joining with the same separator gives back the text. */
  lemma {:induction false} JoinSplit(s: string, sep: char)
    ensures Join(Split(s, sep), [sep]) == s
    decreases |s|
  {
    if s != [] {
      var rest := Split(s[1..], sep);
      JoinSplit(s[1..], sep);
      assert s == [s[0]] + s[1..];
      if s[0] == sep {
        var q := [[]] + rest;
        assert Split(s, sep) == q;
        assert q[0] == [] && q[1..] == rest && |q| >= 2;
        assert Join(q, [sep]) == [] + [sep] + Join(rest, [sep]);
      } else {
        assert Split(s, sep) == [[s[0]] + rest[0]] + rest[1..];
        JoinPrepend([s[0]], rest, [sep]);
      }
    }
  }

  /** One step of `Split`: the first character either closes a piece or joins the first one. */
  lemma SplitCons(c: char, t: string, sep: char)
    ensures Split([c] + t, sep) ==
      if c == sep then [[]] + Split(t, sep) else [[c] + Split(t, sep)[0]] + Split(t, sep)[1..]
  {
    assert ([c] + t)[0] == c && ([c] + t)[1..] == t;
  }

  /** The step of `SplitAround`: one more character in front of the split text. */
  lemma SplitAroundStep(c: char, t: string, u: string, sep: char, rb: seq<string>)
    requires Split(u, sep) == Split(t, sep) + rb && |rb| >= 1
    ensures Split([c] + u, sep) == Split([c] + t, sep) + rb
  {
    if c == sep {
      SplitStepSep(c, t, u, sep, rb);
    } else {
      SplitStepOther(c, t, u, sep, rb);
    }
  }

  /** The step when that character is the separator. */
  lemma SplitStepSep(c: char, t: string, u: string, sep: char, rb: seq<string>)
    requires Split(u, sep) == Split(t, sep) + rb && c == sep
    ensures Split([c] + u, sep) == Split([c] + t, sep) + rb
  {
    SplitCons(c, u, sep);
    SplitCons(c, t, sep);
    ConcatAssoc([[]], Split(t, sep), rb);
  }

  /** The step when that character is not the separator. */
  lemma SplitStepOther(c: char, t: string, u: string, sep: char, rb: seq<string>)
    requires Split(u, sep) == Split(t, sep) + rb && c != sep
    ensures Split([c] + u, sep) == Split([c] + t, sep) + rb
  {
    var ra := Split(t, sep);
    SplitCons(c, u, sep);
    SplitCons(c, t, sep);
    assert (ra + rb)[0] == ra[0] && (ra + rb)[1..] == ra[1..] + rb;
    ConcatAssoc([[c] + ra[0]], ra[1..], rb);
  }

  /** Splitting distributes over a separator occurrence. */
  lemma {:induction false} SplitAround(a: string, sep: char, b: string)
    ensures Split(a + [sep] + b, sep) == Split(a, sep) + Split(b, sep)
    decreases |a|
  {
    if a == [] {
      assert a + [sep] + b == [sep] + b;
      SplitCons(sep, b, sep);
    } else {
      var t := a[1..];
      SplitAround(t, sep, b);
      SplitAroundStep(a[0], t, t + [sep] + b, sep, Split(b, sep));
      assert [a[0]] + t == a;
      assert [a[0]] + (t + [sep] + b) == a + [sep] + b;
    }
  }

  lemma ConcatAssoc<T>(x: seq<T>, y: seq<T>, z: seq<T>)
    ensures x + (y + z) == (x + y) + z
  {
  }

  /** Text without the separator is a single piece. */
  lemma {:induction false} SplitNoSeparator(s: string, sep: char)
    requires sep !in s
    ensures Split(s, sep) == [s]
    decreases |s|
  {
    if s != [] {
      SplitNoSeparator(s[1..], sep);
      assert s == [s[0]] + s[1..];
    }
  }

  /** Pieces without the separator survive a join followed by a split. */
  lemma {:induction false} SplitJoin(parts: seq<string>, sep: char)
    requires |parts| >= 1
    requires forall i :: 0 <= i < |parts| ==> sep !in parts[i]
    ensures Split(Join(parts, [sep]), sep) == parts
    decreases |parts|
  {
    if |parts| == 1 {
      SplitNoSeparator(parts[0], sep);
    } else {
      SplitJoin(parts[1..], sep);
      SplitAround(parts[0], sep, Join(parts[1..], [sep]));
      SplitNoSeparator(parts[0], sep);
      assert parts == [parts[0]] + parts[1..];
    }
  }

  /** `strings.HasPrefix`. */
  predicate HasPrefix(s: string, prefix: string)
  {
    |prefix| <= |s| && s[..|prefix|] == prefix
  }

  function DigitChar(d: int): char
    requires 0 <= d < 10
  {
    "0123456789"[d]
  }

  /** Decimal rendering of a natural number, as `%d` prints it. */
  function NatToString(n: nat): (r: string)
    ensures |r| >= 1
    ensures forall i :: 0 <= i < |r| ==> '0' <= r[i] <= '9'
  {
    if n < 10 then [DigitChar(n)] else NatToString(n / 10) + [DigitChar(n % 10)]
  }

  /** Decimal rendering of an integer, with a leading '-' when negative. */
  function IntToString(i: int): (r: string)
    ensures |r| >= 1 && (r[0] == '-' <==> i < 0)
    ensures forall k :: 0 <= k < |r| ==> r[k] == '-' || '0' <= r[k] <= '9'
  {
    if i < 0 then "-" + NatToString(-i) else NatToString(i)
  }

  /** `n` rendered with zeros on the left up to `width` digits. */
  function PadNat(n: nat, width: nat): (r: string)
    ensures |r| >= width
  {
    var digits := NatToString(n);
    if |digits| >= width then digits else Zeros(width - |digits|) + digits
  }

  function Zeros(n: nat): (r: string)
    ensures |r| == n && forall i :: 0 <= i < n ==> r[i] == '0'
  {
    if n == 0 then [] else Zeros(n - 1) + ['0']
  }

  /** SQLite's default `LIKE` folds ASCII letters only. */
  function FoldAscii(c: char): char
  {
    if 'A' <= c <= 'Z' then (c as int + 32) as char else c
  }

  /**
   * SQLite's `LIKE` without an ESCAPE clause: `%` matches any run of characters,
   * `_` matches exactly one character, and everything else matches itself up to
   * ASCII case.
   */
  predicate Like(pattern: string, text: string)
    decreases |pattern| + |text|
  {
    if pattern == [] then text == []
    else if pattern[0] == '%' then Like(pattern[1..], text) || (text != [] && Like(pattern, text[1..]))
    else if pattern[0] == '_' then text != [] && Like(pattern[1..], text[1..])
    else text != [] && FoldAscii(pattern[0]) == FoldAscii(text[0]) && Like(pattern[1..], text[1..])
  }

  /** The search clause `column LIKE '%' || term || '%'` used by the repositories. */
  predicate SearchMatches(term: string, text: string)
  {
    Like("%" + term + "%", text)
  }

  predicate HasWildcard(s: string)
  {
    '%' in s || '_' in s
  }

  /** `s` equals `t[i..i + |s|]` up to ASCII case. */
  predicate FoldedAt(s: string, t: string, i: int)
  {
    0 <= i && i + |s| <= |t| && forall k :: 0 <= k < |s| ==> FoldAscii(s[k]) == FoldAscii(t[i + k])
  }

  /** A trailing `%` accepts any rest. */
  lemma {:induction false} LikePercentAny(text: string)
    ensures Like("%", text)
    decreases |text|
  {
    if text != [] {
      LikePercentAny(text[1..]);
    }
  }

  /** A wildcard-free pattern followed by `%` is a case-folded prefix test. */
  lemma {:induction false} LikePrefix(s: string, text: string)
    requires !HasWildcard(s)
    ensures Like(s + "%", text) <==> FoldedAt(s, text, 0)
    decreases |s|
  {
    if s == [] {
      LikePercentAny(text);
      assert s + "%" == "%";
    } else {
      assert (s + "%")[1..] == s[1..] + "%";
      if text != [] {
        LikePrefix(s[1..], text[1..]);
        if FoldedAt(s, text, 0) {
          assert FoldedAt(s[1..], text[1..], 0) by {
            forall k | 0 <= k < |s[1..]| ensures FoldAscii(s[1..][k]) == FoldAscii(text[1..][k]) {
              assert s[1..][k] == s[k + 1];
            }
          }
        }
        if FoldAscii(s[0]) == FoldAscii(text[0]) && FoldedAt(s[1..], text[1..], 0) {
          forall k | 0 <= k < |s| ensures FoldAscii(s[k]) == FoldAscii(text[k]) {
            if k > 0 {
              assert s[k] == s[1..][k - 1];
            }
          }
        }
      }
    }
  }

  /** A leading `%` tries every suffix of the text. */
  lemma {:induction false} LikeLeadingPercent(p: string, text: string)
    ensures Like("%" + p, text) <==> exists i :: 0 <= i <= |text| && Like(p, text[i..])
    decreases |text|
  {
    var q := "%" + p;
    assert q[1..] == p;
    assert text[0..] == text;
    if text != [] {
      LikeLeadingPercent(p, text[1..]);
      if exists i :: 0 <= i <= |text| && Like(p, text[i..]) {
        var i :| 0 <= i <= |text| && Like(p, text[i..]);
        if i > 0 {
          assert text[1..][i - 1..] == text[i..];
        }
      }
      if exists i :: 0 <= i <= |text[1..]| && Like(p, text[1..][i..]) {
        var i :| 0 <= i <= |text[1..]| && Like(p, text[1..][i..]);
        assert text[1..][i..] == text[i + 1..];
      }
    }
  }

  /**
   * For a search term without wildcards, the repositories' `LIKE '%term%'`
   * clause is an ASCII-case-insensitive substring test.
   */
  lemma SearchIsFoldedSubstring(term: string, text: string)
    requires !HasWildcard(term)
    ensures SearchMatches(term, text) <==> exists i :: FoldedAt(term, text, i)
  {
    assert "%" + term + "%" == "%" + (term + "%");
    LikeLeadingPercent(term + "%", text);
    if SearchMatches(term, text) {
      var i :| 0 <= i <= |text| && Like(term + "%", text[i..]);
      LikePrefix(term, text[i..]);
      assert FoldedAt(term, text, i) by {
        forall k | 0 <= k < |term| ensures FoldAscii(term[k]) == FoldAscii(text[i + k]) {
          assert text[i..][k] == text[i + k];
        }
      }
    }
    if exists i :: FoldedAt(term, text, i) {
      var i :| FoldedAt(term, text, i);
      LikePrefix(term, text[i..]);
      assert FoldedAt(term, text[i..], 0) by {
        forall k | 0 <= k < |term| ensures FoldAscii(term[k]) == FoldAscii(text[i..][k]) {
          assert text[i..][k] == text[i + k];
        }
      }
    }
  }

  /** `_` in a search term is a live wildcard: "a_c" matches "abc". */
  lemma UnderscoreIsWildcard()
    ensures SearchMatches("a_c", "abc")
    ensures !(exists i :: FoldedAt("a_c", "abc", i))
  {
    assert "%" + "a_c" + "%" == "%a_c%";
    var p := "%a_c%";
    assert p[1..] == "a_c%";
    assert "a_c%"[1..] == "_c%";
    assert "_c%"[1..] == "c%";
    assert "c%"[1..] == "%";
    assert "abc"[1..] == "bc";
    assert "bc"[1..] == "c";
    assert "c"[1..] == "";
    assert Like("%", "");
    assert Like("c%", "c");
    assert Like("_c%", "bc");
    assert Like("a_c%", "abc");
    assert !FoldedAt("a_c", "abc", 0) by {
      assert FoldAscii("a_c"[1]) != FoldAscii("abc"[1]);
    }
  }
}

=== FILE: time_entries.dfy ===
/**
 * internal/domain/timeentry.go: the TimeEntry entity, its stop/duration
 * helpers, and the "Xh Ym Zs" duration text shared with the time service.
 * Durations are integer nanoseconds.
 */
module TimeEntries {
  import opened Base
  import opened Calendar
  import opened Text

  datatype TimeEntry = TimeEntry(
    id: Id,
    taskId: Id,
    projectId: Id,
    description: string,
    start: Time,
    end: Option<Time>,
    duration: int,
    createdAt: Time,
    updatedAt: Time,
    metadata: map<string, string>)

  /** `IsActive`: the entry has no end. */
  predicate IsActive(e: TimeEntry)
  {
    e.end.None?
  }

  /** `NewTimeEntry`: a running entry started now with zero stored duration. */
  function NewTimeEntry(id: Id, taskId: Id, projectId: Id, description: string, now: Time): (e: TimeEntry)
    ensures IsActive(e) && e.duration == 0
    ensures e.start == now && e.createdAt == now && e.updatedAt == now
    ensures e.id == id && e.taskId == taskId && e.projectId == projectId && e.description == description
    ensures e.metadata == map[]
  {
    TimeEntry(id, taskId, projectId, description, now, None, 0, now, now, map[])
  }

  /** `Stop`: ends the entry now and records the elapsed time; nothing else changes. */
  function Stop(e: TimeEntry, now: Time): (r: TimeEntry)
    ensures !IsActive(r) && r.end == Some(now)
    ensures r.duration == now - e.start && r.updatedAt == now
    ensures r.(end := e.end, duration := e.duration, updatedAt := e.updatedAt) == e
  {
    e.(end := Some(now), duration := now - e.start, updatedAt := now)
  }

  /** `GetDuration`: the stored duration once stopped, the elapsed time while running. */
  function GetDuration(e: TimeEntry, now: Time): (r: int)
    ensures IsActive(e) ==> r == Stop(e, now).duration
    ensures !IsActive(e) ==> r == e.duration
  {
    if e.end.Some? then e.duration else now - e.start
  }

  /** An entry is active exactly when its duration runs with the clock. */
  lemma ActiveIffClockRuns(e: TimeEntry, now: Time)
    ensures IsActive(e) <==> GetDuration(e, now + 1) == GetDuration(e, now) + 1
  {
  }

  /** A stopped entry's duration is frozen: it no longer depends on the clock. */
  lemma StoppedDurationFrozen(e: TimeEntry, stoppedAt: Time, now1: Time, now2: Time)
    ensures GetDuration(Stop(e, stoppedAt), now1) == GetDuration(Stop(e, stoppedAt), now2)
    ensures GetDuration(Stop(e, stoppedAt), now1) == GetDuration(e, stoppedAt) || e.end.Some?
  {
  }

  /** Stopping a running entry at `t` freezes the duration it showed at `t`. */
  lemma StopKeepsRunningDuration(e: TimeEntry, t: Time, later: Time)
    requires IsActive(e)
    ensures GetDuration(Stop(e, t), later) == GetDuration(e, t)
  {
  }

  /** Go's integer division, which truncates toward zero. */
  function Quo(a: int, b: int): int
    requires b > 0
  {
    if a >= 0 then a / b else -((-a) / b)
  }

  /** Go's `%`, whose result takes the sign of the dividend. */
  function Rem(a: int, b: int): int
    requires b > 0
  {
    a - Quo(a, b) * b
  }

  /** Whole minutes are whole seconds divided by 60, and whole hours whole minutes divided by 60. */
  lemma NestedQuo(d: int)
    ensures Quo(Quo(d, NanosPerSecond), 60) == Quo(d, NanosPerMinute)
    ensures Quo(Quo(d, NanosPerMinute), 60) == Quo(d, NanosPerHour)
  {
    var a: nat := if d >= 0 then d else -d;
    assert a / 1000000000 / 60 == a / 60000000000;
    assert a / 60000000000 / 60 == a / 3600000000000;
  }

  /** The components of a duration as the program derives them from whole hours, minutes and seconds. */
  datatype Clock = Clock(hours: int, minutes: int, seconds: int)

  function Components(d: int): (c: Clock)
    ensures c.hours * 3600 + c.minutes * 60 + c.seconds == Quo(d, NanosPerSecond)
    ensures d >= 0 ==> 0 <= c.minutes < 60 && 0 <= c.seconds < 60 && c.hours == d / NanosPerHour
    ensures d < 0 ==> -60 < c.minutes <= 0 && -60 < c.seconds <= 0 && c.hours <= 0
  {
    var s := Quo(d, NanosPerSecond);
    var m := Quo(d, NanosPerMinute);
    var h := Quo(d, NanosPerHour);
    NestedQuo(d);
    Clock(h, Rem(m, 60), Rem(s, 60))
  }

  /**
   * `FormatDuration` / `GetFormattedDuration`: "Xh Ym Zs" when there are
   * whole hours, else "Ym Zs" when there are whole minutes, else "Zs".
   */
  function FormatDuration(d: int): (r: string)
    ensures var sec := IntToString(Components(d).seconds) + "s"; |sec| <= |r| && r[|r| - |sec|..] == sec
  {
    var c := Components(d);
    if c.hours > 0 then
      IntToString(c.hours) + "h " + IntToString(c.minutes) + "m " + IntToString(c.seconds) + "s"
    else if c.minutes > 0 then
      IntToString(c.minutes) + "m " + IntToString(c.seconds) + "s"
    else
      IntToString(c.seconds) + "s"
  }

  function GetFormattedDuration(e: TimeEntry, now: Time): (r: string)
    ensures IsActive(e) ==> r == FormatDuration(now - e.start)
    ensures !IsActive(e) ==> r == FormatDuration(e.duration)
    ensures r[|r| - 1] == 's'
  {
    FormatDuration(GetDuration(e, now))
  }

  /** The text shows hours exactly when the duration is at least an hour. */
  lemma FormatShowsHoursIffHour(d: int)
    ensures d >= NanosPerHour <==> (exists k :: 0 <= k < |FormatDuration(d)| && FormatDuration(d)[k] == 'h')
  {
    var c := Components(d);
    var r := FormatDuration(d);
    if d >= NanosPerHour {
      var k := |IntToString(c.hours)|;
      assert r[k] == 'h';
    } else {
      assert c.hours <= 0;
      forall k | 0 <= k < |r| ensures r[k] != 'h' {
      }
    }
  }

  /**
   * The text shows minutes exactly when the duration is at least a minute;
   * under an hour it reads "Xm Ys", under a minute "Ys".
   */
  lemma FormatShowsMinutesIffMinute(d: int)
    ensures d >= NanosPerMinute <==> (exists k :: 0 <= k < |FormatDuration(d)| && FormatDuration(d)[k] == 'm')
    ensures NanosPerMinute <= d < NanosPerHour ==>
      FormatDuration(d) == IntToString(Components(d).minutes) + "m " + IntToString(Components(d).seconds) + "s"
    ensures d < NanosPerMinute ==> FormatDuration(d) == IntToString(Components(d).seconds) + "s"
  {
    var c := Components(d);
    var r := FormatDuration(d);
    NestedQuo(d);
    if d >= NanosPerHour {
      var k := |IntToString(c.hours)| + 2 + |IntToString(c.minutes)|;
      assert r[k] == 'm';
    } else if d >= NanosPerMinute {
      assert c.hours == 0 && c.minutes > 0;
      var k := |IntToString(c.minutes)|;
      assert r[k] == 'm';
    } else {
      assert c.hours <= 0 && c.minutes <= 0;
      forall k | 0 <= k < |r| ensures r[k] != 'm' {
      }
    }
  }
}

=== FILE: time_service.dfy ===
/**
 * internal/service/time/service.go: the single-running-timer guard and the
 * time report. `now` is the service's clock reading, fresh entry ids are
 * parameters, and the local zone used for day keys is a fixed offset.
 */
module TimeService {
  import opened Base
  import opened Calendar
  import opened Errors
  import opened Tasks
  import opened TimeEntries
  import opened Store
  import TaskRepo
  import EntryRepo

  /** At most one entry has no end. */
  predicate AtMostOneOpen(s: Store)
  {
    |OpenEntries(s)| <= 1
  }

  lemma AtMostOneOpenMeans(s: Store, a: Id, b: Id)
    requires AtMostOneOpen(s) && a in OpenEntries(s) && b in OpenEntries(s)
    ensures a == b
  {
    if a != b {
      assert {a, b} <= OpenEntries(s);
      SubsetNotLarger({a, b}, OpenEntries(s));
    }
  }

  /**
   * `StartTimeTracking`. A failure leaves the store as it was; on success the
   * new running entry is returned, and a task not already "doing" is started
   * (a failure of that task update is ignored).
   */
  ghost function StartTimeTracking(s: Store, taskId: Id, description: string, entryId: Id, now: Time)
    : (r: Result<(Store, TimeEntry), Error>)
    ensures taskId == "" ==> r == Err(InvalidTaskID)
    ensures taskId != "" && OpenEntries(s) != {} ==> r == Err(ActiveTimeEntry)
    ensures taskId !in s.tasks ==> r.Err?
    ensures r.Ok? ==> OpenEntries(s) == {} && taskId in s.tasks
    ensures r.Ok? ==> var (s', e) := r.value;
      e == NewTimeEntry(entryId, taskId, s.tasks[taskId].projectId, description, now) &&
      s'.entries == s.entries[entryId := e] && OpenEntries(s') == {entryId} &&
      s'.projects == s.projects && s'.tasks.Keys == s.tasks.Keys
  {
    if taskId == "" then Err(InvalidTaskID)
    else if EntryRepo.GetActive(s).Ok? then Err(ActiveTimeEntry)
    else match TaskRepo.GetByID(s, taskId)
      case Err(err) => Err(Wrapped("failed to get task", err))
      case Ok(task) =>
        var entry := NewTimeEntry(entryId, taskId, task.projectId, description, now);
        match EntryRepo.Create(s, entry)
        case Err(err) => Err(Wrapped("failed to create time entry", err))
        case Ok(s1) =>
          assert s1.entries == s.entries[entryId := entry];
          assert OpenEntries(s1) == {entryId};
          var s2 :=
            if task.status != Doing then
              match TaskRepo.Update(s1, Tasks.Start(task, now))
              case Ok(s2) => s2
              case Err(_) => s1
            else s1;
          Ok((s2, entry))
  }

  /** A successful start marks the task "doing" whenever the store was valid. */
  lemma StartMarksTaskDoing(s: Store, taskId: Id, description: string, entryId: Id, now: Time)
    requires Valid(s) && StartTimeTracking(s, taskId, description, entryId, now).Ok?
    ensures StartTimeTracking(s, taskId, description, entryId, now).value.0.tasks[taskId].status == Doing
  {
  }

  /** A task filed under no project cannot be timed: the entry's NULL project_id is refused. */
  lemma StartWithoutProjectFails(s: Store, taskId: Id, description: string, entryId: Id, now: Time)
    requires taskId in s.tasks && s.tasks[taskId].projectId == ""
    ensures StartTimeTracking(s, taskId, description, entryId, now).Err?
  {
  }

  /** Under a valid store, starting succeeds exactly when nothing runs, the task exists and has a project, and the id is fresh. */
  lemma StartSucceedsWhen(s: Store, taskId: Id, description: string, entryId: Id, now: Time)
    requires Valid(s)
    ensures StartTimeTracking(s, taskId, description, entryId, now).Ok? <==>
      taskId != "" && OpenEntries(s) == {} && taskId in s.tasks &&
      s.tasks[taskId].projectId != "" && entryId !in s.entries
  {
  }

  /** `StopTimeTracking`: stops the running entry (the latest-started one) and leaves tasks alone. */
  ghost function StopTimeTracking(s: Store, now: Time): (r: Result<(Store, TimeEntry), Error>)
    ensures OpenEntries(s) == {} ==> r == Err(Wrapped("failed to get active time entry", NoActiveTimeEntry))
    ensures r.Ok? ==> var (s', e) := r.value;
      e.id in OpenEntries(s) && e == TimeEntries.Stop(s.entries[e.id], now) &&
      OpenEntries(s') == OpenEntries(s) - {e.id} &&
      s'.tasks == s.tasks && s'.projects == s.projects &&
      s'.entries.Keys == s.entries.Keys &&
      (forall id :: id in s.entries && id != e.id ==> s'.entries[id] == s.entries[id])
  {
    match EntryRepo.GetActive(s)
    case Err(err) => Err(Wrapped("failed to get active time entry", err))
    case Ok(entry) =>
      var stopped := TimeEntries.Stop(entry, now);
      if entry.id !in s.entries || s.entries[entry.id] != entry then
        // Stored rows carry their own key as id; a row filed under another key is not reachable here.
        Err(Wrapped("failed to update time entry", TimeEntryNotFound))
      else
        match EntryRepo.Update(s, stopped)
        case Err(err) => Err(Wrapped("failed to update time entry", err))
        case Ok(s1) =>
          assert OpenEntries(s1) == OpenEntries(s) - {entry.id};
          Ok((s1, stopped))
  }

  /** Under a valid store, stopping succeeds exactly when something runs. */
  lemma StopSucceedsWhen(s: Store, now: Time)
    requires Valid(s)
    ensures StopTimeTracking(s, now).Ok? <==> OpenEntries(s) != {}
  {
    if OpenEntries(s) != {} {
      var e := EntryRepo.GetActive(s).value;
      var k :| k in s.entries && s.entries[k] == e;
    }
  }

  /** Starting and stopping keep "at most one running entry". */
  lemma TimerKeepsAtMostOneOpen(s: Store, taskId: Id, description: string, entryId: Id, now: Time)
    requires AtMostOneOpen(s)
    ensures StartTimeTracking(s, taskId, description, entryId, now).Ok? ==>
      AtMostOneOpen(StartTimeTracking(s, taskId, description, entryId, now).value.0)
    ensures StopTimeTracking(s, now).Ok? ==> AtMostOneOpen(StopTimeTracking(s, now).value.0)
  {
    if StopTimeTracking(s, now).Ok? {
      var (s', e) := StopTimeTracking(s, now).value;
      SubsetNotLarger(OpenEntries(s'), OpenEntries(s));
    }
  }

  /** Starting and stopping keep the store valid. */
  lemma TimerKeepsValid(s: Store, taskId: Id, description: string, entryId: Id, now: Time)
    requires Valid(s)
    ensures StartTimeTracking(s, taskId, description, entryId, now).Ok? ==>
      Valid(StartTimeTracking(s, taskId, description, entryId, now).value.0)
    ensures StopTimeTracking(s, now).Ok? ==> Valid(StopTimeTracking(s, now).value.0)
  {
    if StartTimeTracking(s, taskId, description, entryId, now).Ok? {
      var task := s.tasks[taskId];
      var entry := NewTimeEntry(entryId, taskId, task.projectId, description, now);
      var s1 := EntryRepo.Create(s, entry).value;
      EntryRepo.CreateKeepsValid(s, entry);
      if task.status != Doing && TaskRepo.Update(s1, Tasks.Start(task, now)).Ok? {
        TaskRepo.UpdateKeepsValid(s1, Tasks.Start(task, now));
      }
    }
    if StopTimeTracking(s, now).Ok? {
      var e := EntryRepo.GetActive(s).value;
      EntryRepo.UpdateKeepsValid(s, TimeEntries.Stop(e, now));
    }
  }

  /** `GetActiveTimeEntry`: "nothing running" is not an error but an absent entry. */
  ghost function GetActiveTimeEntry(s: Store): (r: Result<Option<TimeEntry>, Error>)
    ensures r.Ok?
    ensures r.value.None? <==> OpenEntries(s) == {}
    ensures r.value.Some? ==> r.value.value in s.entries.Values && IsActive(r.value.value)
  {
    match EntryRepo.GetActive(s)
    case Err(err) => if err == NoActiveTimeEntry then Ok(None) else Err(Wrapped("failed to get active time entry", err))
    case Ok(e) => Ok(Some(e))
  }

  // ---------------------------------------------------------------------
  // GenerateReport

  ghost function SumOver<K(!new), V>(m: map<K, V>, f: V -> int, keys: set<K>): int
    requires keys <= m.Keys
    decreases keys
  {
    if keys == {} then 0
    else
      var k :| k in keys;
      f(m[k]) + SumOver(m, f, keys - {k})
  }

  lemma {:induction false} SumOverRemove<K(!new), V>(m: map<K, V>, f: V -> int, keys: set<K>, k: K)
    requires keys <= m.Keys && k in keys
    ensures SumOver(m, f, keys) == f(m[k]) + SumOver(m, f, keys - {k})
    decreases keys
  {
    var j :| j in keys && SumOver(m, f, keys) == f(m[j]) + SumOver(m, f, keys - {j});
    if j != k {
      SumOverRemove(m, f, keys - {j}, k);
      SumOverRemove(m, f, keys - {k}, j);
      assert keys - {j} - {k} == keys - {k} - {j};
    }
  }

  lemma {:induction false} SumOverFrame<K(!new), V>(m: map<K, V>, f: V -> int, keys: set<K>, k: K, v: V)
    requires keys <= m.Keys && k !in keys
    ensures SumOver(m[k := v], f, keys) == SumOver(m, f, keys)
    decreases keys
  {
    if keys != {} {
      var j :| j in keys;
      SumOverRemove(m, f, keys, j);
      SumOverRemove(m[k := v], f, keys, j);
      SumOverFrame(m, f, keys - {j}, k, v);
    }
  }

  /** The sum of `f` over the values of `m`. */
  ghost function SumBy<K(!new), V>(m: map<K, V>, f: V -> int): int
  {
    SumOver(m, f, m.Keys)
  }

  lemma SumByUpdate<K(!new), V>(m: map<K, V>, f: V -> int, k: K, v: V)
    ensures SumBy(m[k := v], f) == SumBy(m, f) - (if k in m then f(m[k]) else 0) + f(v)
  {
    var m' := m[k := v];
    SumOverRemove(m', f, m'.Keys, k);
    assert m'.Keys - {k} == m.Keys - {k};
    SumOverFrame(m, f, m.Keys - {k}, k, v);
    if k in m {
      SumOverRemove(m, f, m.Keys, k);
    } else {
      assert m.Keys - {k} == m.Keys;
    }
  }

  /** The summed durations of `es` as read at `now`. */
  function TotalOf(es: seq<TimeEntry>, now: Time): int
  {
    if es == [] then 0 else TotalOf(es[..|es| - 1], now) + GetDuration(es[|es| - 1], now)
  }

  lemma TotalOfSnoc(es: seq<TimeEntry>, e: TimeEntry, now: Time)
    ensures TotalOf(es + [e], now) == TotalOf(es, now) + GetDuration(e, now)
  {
    assert (es + [e])[..|es|] == es;
  }

  /** The entries of `es` under key `k`, in list order. */
  function Select<K(==)>(es: seq<TimeEntry>, key: TimeEntry -> K, k: K): (r: seq<TimeEntry>)
    ensures forall e :: e in r ==> e in es && key(e) == k
    ensures |r| <= |es|
  {
    if es == [] then []
    else Select(es[..|es| - 1], key, k) + (if key(es[|es| - 1]) == k then [es[|es| - 1]] else [])
  }

  lemma SelectSnoc<K>(es: seq<TimeEntry>, e: TimeEntry, key: TimeEntry -> K, k: K)
    ensures Select(es + [e], key, k) == Select(es, key, k) + (if key(e) == k then [e] else [])
  {
    assert (es + [e])[..|es|] == es;
  }

  /** One bucket of a grouping: its heading, its summed duration and its entries in list order. */
  datatype Group<L> = Group(info: L, total: int, entries: seq<TimeEntry>)

  function GroupTotal<L>(g: Group<L>): int { g.total }

  /** Adds one entry to its bucket, opening the bucket (labelled from this entry) on first use. */
  function Bump<K(==), L>(m: map<K, Group<L>>, k: K, e: TimeEntry, d: int, heading: L): (r: map<K, Group<L>>)
    ensures r.Keys == m.Keys + {k}
    ensures forall j :: j in m && j != k ==> r[j] == m[j]
  {
    if k in m then m[k := m[k].(total := m[k].total + d, entries := m[k].entries + [e])]
    else m[k := Group(heading, d, [e])]
  }

  /** One grouping of the report: a fold of `Bump` over the entries in list order. */
  function GroupBy<K(==), L>(es: seq<TimeEntry>, key: TimeEntry -> K, heading: TimeEntry -> L, now: Time)
    : (m: map<K, Group<L>>)
  {
    if es == [] then map[]
    else
      var e := es[|es| - 1];
      var m := GroupBy(es[..|es| - 1], key, heading, now);
      Bump(m, key(e), e, GetDuration(e, now), heading(e))
  }

  /**
   * Every bucket holds exactly the entries with its key, in list order, and
   * their summed duration, and is headed from the first of them.
   */
  lemma {:induction false} GroupByBucket<K(!new), L>(es: seq<TimeEntry>, key: TimeEntry -> K, heading: TimeEntry -> L, now: Time, k: K)
    ensures var m := GroupBy(es, key, heading, now);
      (k in m <==> Select(es, key, k) != []) &&
      (k in m ==>
        m[k].entries == Select(es, key, k) && m[k].total == TotalOf(Select(es, key, k), now) &&
        m[k].info == heading(Select(es, key, k)[0]))
  {
    if es != [] {
      var p := es[..|es| - 1];
      var e := es[|es| - 1];
      assert es == p + [e];
      GroupByBucket(p, key, heading, now, k);
      SelectSnoc(p, e, key, k);
      TotalOfSnoc(Select(p, key, k), e, now);
    }
  }

  /** The bucket totals add up to the total of all entries. */
  lemma {:induction false} GroupBySum<K(!new), L>(es: seq<TimeEntry>, key: TimeEntry -> K, heading: TimeEntry -> L, now: Time)
    ensures SumBy(GroupBy(es, key, heading, now), GroupTotal) == TotalOf(es, now)
  {
    if es != [] {
      var p := es[..|es| - 1];
      var e := es[|es| - 1];
      var m := GroupBy(p, key, heading, now);
      GroupBySum(p, key, heading, now);
      var r := GroupBy(es, key, heading, now);
      SumByUpdate(m, GroupTotal, key(e), r[key(e)]);
    }
  }

  datatype TaskLabel = TaskLabel(taskId: Id, taskTitle: string)
  datatype ProjectLabel = ProjectLabel(projectId: Id, projectName: string)
  datatype DayLabel = DayLabel(date: Time)

  datatype Report = Report(
    totalDuration: int,
    entries: seq<TimeEntry>,
    byTask: map<Id, Group<TaskLabel>>,
    byProject: map<Id, Group<ProjectLabel>>,
    byDay: map<string, Group<DayLabel>>)

  /** A task's title, falling back to its id when the lookup fails. */
  function TitleOf(s: Store, taskId: Id): string
  {
    match TaskRepo.GetByID(s, taskId)
    case Ok(t) => t.title
    case Err(_) => taskId
  }

  /**
   * The calendar date of a local instant (an entry's start shifted by the
   * zone offset), in the "2006-01-02" layout.
   */
  function DayKey(local: Time): string
  {
    FormatDate(local)
  }

  /** The day key of an entry: the date of its start in the zone `zoneOffset` nanoseconds east of UTC. */
  function EntryDayKey(e: TimeEntry, zoneOffset: int): string
  {
    DayKey(e.start + zoneOffset)
  }

  /** In the four-digit years the day key parses back as the start of the instant's day. */
  lemma DayKeyNamesDay(local: Time)
    requires InFourDigitYears(local)
    ensures ParseDate(DayKey(local)) == Some(TruncateToDay(local))
  {
    FormatDateParses(local);
  }

  /** In the four-digit years, two local instants share a day key exactly when they fall on the same day. */
  lemma DayKeySameDay(a: Time, b: Time)
    requires InFourDigitYears(a) && InFourDigitYears(b)
    ensures DayKey(a) == DayKey(b) <==> DayOf(a) == DayOf(b)
  {
    if DayOf(a) == DayOf(b) {
      SameDaySameDate(a, b);
    } else {
      DayKeyNamesDay(a);
      DayKeyNamesDay(b);
      DayStartsDiffer(DayOf(a), DayOf(b));
      assert ParseDate(DayKey(a)) != ParseDate(DayKey(b));
    }
  }

  // The keys and bucket headings of the three groupings.
  function ByTaskKey(): TimeEntry -> Id { (e: TimeEntry) => e.taskId }
  function ByProjectKey(): TimeEntry -> Id { (e: TimeEntry) => e.projectId }
  function ByDayKey(zoneOffset: int): TimeEntry -> string { (e: TimeEntry) => EntryDayKey(e, zoneOffset) }
  function TaskHeading(s: Store): TimeEntry -> TaskLabel { (e: TimeEntry) => TaskLabel(e.taskId, TitleOf(s, e.taskId)) }
  function ProjectHeading(): TimeEntry -> ProjectLabel { (e: TimeEntry) => ProjectLabel(e.projectId, e.projectId) }
  function DayHeading(): TimeEntry -> DayLabel { (e: TimeEntry) => DayLabel(TruncateToDay(e.start)) }

  /** The entries a report covers: started at or after `from`, and running or ended by `to`. */
  function ReportFilter(from: Time, to: Time): EntryRepo.EntryFilter
  {
    EntryRepo.EntryFilter("", "", Some(from), Some(to), None, 0, 0)
  }

  /** The report over a given list of entries. */
  function Summarise(s: Store, es: seq<TimeEntry>, now: Time, zoneOffset: int): Report
  {
    Report(
      TotalOf(es, now),
      es,
      GroupBy(es, ByTaskKey(), TaskHeading(s), now),
      GroupBy(es, ByProjectKey(), ProjectHeading(), now),
      GroupBy(es, ByDayKey(zoneOffset), DayHeading(), now))
  }

  /** The entries a report covers, latest start first. */
  ghost function ReportEntries(s: Store, from: Time, to: Time): (es: seq<TimeEntry>)
    ensures forall e :: e in es <==> e in s.entries.Values && EntryRepo.Matches(ReportFilter(from, to), e)
    ensures SortedDesc(es, EntryRepo.StartKey)
  {
    EntryRepo.List(s, ReportFilter(from, to)).value
  }

  /**
   * `GenerateReport`. The program fills the three groupings in one pass; they
   * are independent of each other, so each is the fold of its own grouping.
   * Project names are the project ids.
   */
  ghost function GenerateReport(s: Store, from: Time, to: Time, now: Time, zoneOffset: int): (r: Report)
    ensures forall e :: e in r.entries <==> e in s.entries.Values && EntryRepo.Matches(ReportFilter(from, to), e)
    ensures SortedDesc(r.entries, EntryRepo.StartKey)
    ensures r.totalDuration == TotalOf(r.entries, now)
  {
    Summarise(s, ReportEntries(s, from, to), now, zoneOffset)
  }

  /** The report total is the sum of the task totals, of the project totals and of the day totals. */
  lemma ReportTotalsAdditive(s: Store, from: Time, to: Time, now: Time, zoneOffset: int)
    ensures var r := GenerateReport(s, from, to, now, zoneOffset);
      r.totalDuration == SumBy(r.byTask, GroupTotal) &&
      r.totalDuration == SumBy(r.byProject, GroupTotal) &&
      r.totalDuration == SumBy(r.byDay, GroupTotal)
  {
    var r := GenerateReport(s, from, to, now, zoneOffset);
    GroupBySum(r.entries, ByTaskKey(), TaskHeading(s), now);
    GroupBySum(r.entries, ByProjectKey(), ProjectHeading(), now);
    GroupBySum(r.entries, ByDayKey(zoneOffset), DayHeading(), now);
  }

  /** A bucket holds an entry exactly when the entry carries the bucket's key. */
  lemma InBucketIff<K(!new), L>(es: seq<TimeEntry>, key: TimeEntry -> K, heading: TimeEntry -> L, now: Time, e: TimeEntry, k: K)
    requires e in es
    ensures var m := GroupBy(es, key, heading, now);
      k in m && e in m[k].entries <==> key(e) == k
  {
    GroupByBucket(es, key, heading, now, k);
    if key(e) == k {
      SelectHasAll(es, key, e);
    }
  }

  lemma {:induction false} SelectHasAll<K>(es: seq<TimeEntry>, key: TimeEntry -> K, e: TimeEntry)
    requires e in es
    ensures e in Select(es, key, key(e))
  {
    var p := es[..|es| - 1];
    assert es == p + [es[|es| - 1]];
    if e != es[|es| - 1] {
      SelectHasAll(p, key, e);
    }
  }

  /** Each reported entry lands in exactly one bucket of each grouping: the one of its task, its project and its day. */
  lemma ReportBucketsExact(s: Store, from: Time, to: Time, now: Time, zoneOffset: int, e: TimeEntry, taskId: Id, projectId: Id, day: string)
    requires e in GenerateReport(s, from, to, now, zoneOffset).entries
    ensures var r := GenerateReport(s, from, to, now, zoneOffset);
      (taskId in r.byTask && e in r.byTask[taskId].entries <==> taskId == e.taskId) &&
      (projectId in r.byProject && e in r.byProject[projectId].entries <==> projectId == e.projectId) &&
      (day in r.byDay && e in r.byDay[day].entries <==> day == EntryDayKey(e, zoneOffset))
  {
    var es := ReportEntries(s, from, to);
    InBucketIff(es, ByTaskKey(), TaskHeading(s), now, e, taskId);
    InBucketIff(es, ByProjectKey(), ProjectHeading(), now, e, projectId);
    InBucketIff(es, ByDayKey(zoneOffset), DayHeading(), now, e, day);
  }


  /** A task title falls back to the task id when the task is gone. */
  lemma ReportTitleFallback(s: Store, taskId: Id)
    requires taskId !in s.tasks
    ensures TitleOf(s, taskId) == taskId
  {
  }

  /** Window inclusion is not "started inside the window": a still-running entry that started after `to` is reported. */
  lemma ReportWindowIncludesLateOpenEntry(from: Time, to: Time, e: TimeEntry)
    requires e.start > to >= from && e.end.None?
    ensures EntryRepo.Matches(ReportFilter(from, to), e)
  {
  }

  /** ... and an entry that started inside the window but ended after it is left out. */
  lemma ReportWindowExcludesOverrun(from: Time, to: Time, e: TimeEntry)
    requires from <= e.start <= to && e.end.Some? && e.end.value > to
    ensures !EntryRepo.Matches(ReportFilter(from, to), e)
  {
  }
}
